=== FILE: README.md ===
# Maud editor core, modelled in Dafny

Maud is a jMonkeyEngine editor for animated 3-D models ("CG models"). Below its
Nifty GUI sits a layer of small, sequential bookkeeping, and this project
models that layer as immutable datatypes and pure transition functions:

- the undo/redo history of checkpoints (`History`);
- the unsaved-edit counter, where continuous edits such as a drag count once
  (`EditState`, used by `EditableCgm`, `EditableMap` and `SelectedShape`);
- the skeleton map's editing rules (`EditableMap`);
- the CG model's rename rules, change-only setters, physics edits and the
  asset-path bookkeeping after a write (`EditableCgm`, `AssetPaths`);
- the selected physics shape, with cyclic selection over ascending ids, the
  parameter table and resizing (`SelectedShape`);
- small state holders (`MiscStatus`, `AxesStatus`);
- loading a CG model: the named-model table, the base-path and extension
  split, and the post-load choices (`LoadedCgm`);
- the asset dialog's extension checks (`AssetDialog`);
- menu-path splitting and dispatch (`MenuPath`, `DddMenus`, `EditorMenus`);
- parsing of "set" action arguments (`SetAction`);
- animation track time during playback (`TrackTime`);
- the per-bone user pose (`Pose`);
- the placement of a model in the world (`TransformStatus`);
- the score view's camera (`ScorePov`);
- the physics debug display's object-to-node reconciliation (`BulletDebug`).

Helpers shared by all modules: `Outcomes` (Option, Result and the Java
exceptions as `Failure` values), `Text` (String and MyString operations),
`Arith` (FastMath.clamp and MyMath.modulo), `Lists` (List.indexOf and
sorting), and `Geometry` (vectors, quaternions and transforms as plain values).

Conventions:
- A Java exception is an `Err` value. A failed `assert` is modelled with
  assertions enabled, as `Err(AssertionFailed)`.
- Engine objects, unseen library classes and the file system become
  parameters. Examples: the action-name constants, the asset loader's outcome,
  `Util.aaDescription`, and the rotation of a vector about +Y.
- Floating-point values are `real`. Integers are unbounded, except where
  Integer.parseInt checks the range of an `int`.

## Model

| member | source | states |
|---|---|---|
| History.Cleared | src/main/java/maud/History.java:84-87 | clear leaves no checkpoints and the index at 0, which satisfies the history invariant |
| History.Length | src/main/java/maud/History.java:118-121 | the number of checkpoints is never below the index, and it equals the index exactly when nothing is vulnerable |
| History.Add | src/main/java/maud/History.java:66-79 | add keeps the checkpoints below the index, appends the snapshot, and moves the index past it; afterwards nothing is vulnerable and the length equals the index |
| History.AddByPopping | src/main/java/maud/History.java:66-79 | the loop that pops vulnerable checkpoints one at a time computes the same history as truncating at the index and appending |
| History.Undo | src/main/java/maud/History.java:142-156 | at index 0 nothing changes; otherwise the state is saved first (only when nothing is vulnerable), the index drops by one, and the checkpoint at the new index is restored |
| History.RedoAsWritten | src/main/java/maud/History.java:127-136 | redo as written: with nothing vulnerable nothing changes; otherwise it restores the checkpoint at the index and moves the index up by one |
| History.UndoThenRedoIndex | src/main/java/maud/History.java:127-156 | as written, an undo followed by a redo returns the index to its original value |
| History.RedoAfterUndoRepeatsRestore | src/main/java/maud/History.java:127-156 | as written, the redo after an undo restores the very checkpoint the undo restored, not the state before the undo |
| History.RedoAfterUndoExample | src/main/java/maud/History.java:127-156 | concrete case: checkpoint 0 and current state 1; undo restores 0, and the redo restores 0 again instead of 1 |
| History.Redo | src/main/java/maud/History.java:127-136 | corrected redo: it moves the index up by one and restores the checkpoint at the new index; with nothing vulnerable nothing changes |
| History.UndoThenRedo | src/main/java/maud/History.java:127-156 | with the corrected redo, redo undoes an undo: the index comes back and the state that was current at the undo is restored |
| History.RedoThenUndo | src/main/java/maud/History.java:127-156 | with the corrected redo, an undo after a redo gives back the original history and restores the checkpoint at the index |
| History.AddThenUndo | src/main/java/maud/History.java:66-79 | undo right after add restores the added snapshot, and the corrected redo brings back the state it replaced |
| History.AddDiscardsOnlyVulnerable | src/main/java/maud/History.java:66-79 | add shrinks or keeps the length exactly when there were vulnerable checkpoints; otherwise it adds exactly one |
| History.UndoTimes | src/main/java/maud/History.java:142-156 | repeated undo keeps the history invariant |
| History.UndoTimesMovesBack | src/main/java/maud/History.java:142-156 | n undos move the index back by n, save the tip at most once, and leave something to redo |
| EditState.Pristine | src/main/java/maud/model/cgm/EditableCgm.java:1218-1222 | setPristine leaves no unsaved edit and no continuous edit in progress |
| EditState.Discrete | src/main/java/maud/model/cgm/EditableCgm.java:1163-1169 | a discrete edit adds exactly one to the count and ends any continuous edit |
| EditState.Continuous | src/main/java/maud/model/cgm/EditableCgm.java:1175-1211 | a continuous edit of the subject already being edited is not counted; a new subject is counted once and becomes the subject in progress |
| EditState.Checkpoint | src/main/java/maud/model/cgm/EditableCgm.java:443-448 | a checkpoint keeps the count and ends the continuous edit |
| EditState.DragCountsOnce | src/main/java/maud/model/cgm/EditableCgm.java:1175-1211 | any number of updates of one subject count as one edit, or none when they continue the edit in progress |
| EditState.CheckpointSplitsDrag | src/main/java/maud/model/cgm/EditableCgm.java:443-448 | a checkpoint in the middle of a drag makes the drag count twice |
| EditState.AlternatingSubjectsCountEach | src/main/java/maud/model/cgm/EditableCgm.java:1175-1211 | alternating between two subjects counts every update |
| EditState.PristineThenEdit | src/main/java/maud/model/cgm/EditableCgm.java:1163-1222 | a pristine model is unmodified, and any edit, discrete or continuous, makes it modified |
| AssetPaths.AssetFolderForWrite | src/main/java/maud/model/cgm/EditableCgm.java:1075-1083 | the write folder is the asset root unless that root is empty or a .jar or .zip archive, in which case it is the application's folder for written assets |
| AssetPaths.BaseFilePathForWrite | src/main/java/maud/model/cgm/EditableCgm.java:262-273 | the proposed path is the write folder, a "/", and then the asset path when there is one |
| AssetPaths.StripOneSlash | src/main/java/maud/model/cgm/EditableCgm.java:1018-1020 | removes one leading "/", and only when the path starts with one |
| AssetPaths.RecordWrite | src/main/java/maud/model/cgm/EditableCgm.java:1005-1020 | a written path under the write folder keeps that folder as the root, with the rest as the asset path; otherwise, when the old asset path is non-empty and ends the written path, it is kept and the root becomes what precedes it; otherwise both fields are cleared; whatever is kept rejoins, with or without a "/" between, to the written path |
| AssetPaths.WriteToDefaultPathKeepsSlot | src/main/java/maud/model/cgm/EditableCgm.java:1005-1020 | writing to the path baseFilePathForWrite proposes keeps a folder root and its relative asset path |
| AssetPaths.RecordedPathIsRelative | src/main/java/maud/model/cgm/EditableCgm.java:1018-1020 | the recorded asset path starts with "/" only when the written path held a doubled "/" at that place |
| AssetPaths.RecordMapWriteAsWritten | src/main/java/maud/model/EditableMap.java:318-333 | the map's bookkeeping as written: inside the write folder it agrees with RecordWrite; outside it, the old asset path is matched against the name with ".j3o" appended, kept when the name without it also ends with it, rejected by removeSuffix (None) when only the name with it does, and otherwise both fields are cleared |
| AssetPaths.MapWriteForgetsSlot | src/main/java/maud/model/EditableMap.java:323-329 | outside the write folder, an asset path not ending in "o" never matches, so the map's location and asset path are cleared even when the base path ends with the asset path |
| AssetPaths.MapWriteExample | src/main/java/maud/model/EditableMap.java:323-329 | concrete case: a map from "/jars/maps.jar" with asset path "Maps/Puppet", written to "/home/Maps/Puppet", loses both fields, while the corrected test keeps "/home/" and "Maps/Puppet" |
| EditableMap.MapBones | src/main/java/maud/model/EditableMap.java:201-230 | acts only with no mapping selected and both bones selected; then the target bone maps to the source bone, no other mapping names either bone, the map stays one-to-one, and one edit is counted |
| EditableMap.LoadIdentity | src/main/java/maud/model/EditableMap.java:445-460 | exactly one mapping per skeleton bone, each bone to itself with the identity twist; the asset location and path are cleared |
| EditableMap.DeleteInvalidMappings | src/main/java/maud/model/EditableMap.java:125-166 | the mappings kept are exactly those whose bones exist in the skeletons present, with the sides swapped when inverting; one edit when anything is deleted, none otherwise |
| EditableMap.DeleteInvalidIdempotent | src/main/java/maud/model/EditableMap.java:125-166 | deleting invalid mappings a second time changes nothing |
| EditableMap.DeleteInvalidKeepsOneToOne | src/main/java/maud/model/EditableMap.java:125-166 | deleting invalid mappings keeps a one-to-one map one-to-one |
| EditableMap.DeleteBoneMapping | src/main/java/maud/model/EditableMap.java:113-120 | with nothing selected nothing changes; otherwise only the selected mapping is removed and one edit is counted |
| EditableMap.InverseInvolution | src/main/java/maud/model/EditableMap.java:171-178 | inverting the map twice gives it back, when inverting a twist twice does |
| EditableMap.Invert | src/main/java/maud/model/EditableMap.java:171-178 | an empty map is left alone; otherwise it becomes its one-to-one inverse, loses its asset path, and one edit is counted |
| EditableMap.Unload | src/main/java/maud/model/EditableMap.java:287-293 | the map becomes empty, lives nowhere, and one edit is counted |
| EditableMap.RenameBone | src/main/java/maud/model/EditableMap.java:245-251 | a target-model bone rename follows on the target side, or on the source side when inverting; the edit count and location stay |
| EditableMap.EditTwist | src/main/java/maud/model/EditableMap.java:477-487 | only the selected mapping's twist changes, and the edit continues any twist edit of the same target bone |
| EditableMap.SetTwist | src/main/java/maud/model/EditableMap.java:258-268 | the selected mapping keeps its source bone and takes the given twist, or its inverse when inverting; every other mapping, the set of mapped bones and the asset slot stay; the edit continues the twist edit of the target bone |
| EditableMap.SnapTwist | src/main/java/maud/model/EditableMap.java:275-282 | an axis outside 0..2 is an error; otherwise only the selected twist changes, as a continuing twist edit |
| EditableMap.TwistDrag | src/main/java/maud/model/EditableMap.java:477-487 | a series of twist edits of one bone keeps the map's keys and ends with the last twist |
| EditableMap.TwistDragCountsOnce | src/main/java/maud/model/EditableMap.java:467-498 | a drag of the twist tool, of any length, counts as at most one edit |
| EditableMap.OnCheckpoint | src/main/java/maud/model/EditableMap.java:235-240 | the map and location stay, and the next twist edit is counted again |
| EditableMap.Load | src/main/java/maud/model/EditableMap.java:358-390 | an empty name is an error; a successful load installs the loaded map with no unsaved edit; a failed load changes nothing |
| EditableMap.WriteToFile | src/main/java/maud/model/EditableMap.java:301-346 | an empty base path is an error; a failed write changes nothing; a successful one records the asset location by the corrected rule and leaves no unsaved edit |
| EditableMap.EditsKeepOneToOne | src/main/java/maud/model/EditableMap.java:201-230 | every discrete edit of the map keeps it one-to-one |
| EditableCgm.PreCheckpoint | src/main/java/maud/model/cgm/EditableCgm.java:443-448 | only the edit state changes: the count stays and the next continuous update of the same subject counts again |
| EditableCgm.RenameBone | src/main/java/maud/model/cgm/EditableCgm.java:456-490 | succeeds exactly when a bone is selected and the name is non-empty, not the reserved name, and unused; failure changes nothing; success renames that bone alone, follows in the map, and counts one edit |
| EditableCgm.RenameBoneBack | src/main/java/maud/model/cgm/EditableCgm.java:456-490 | a successful rename keeps bone names unique, and renaming back restores the names with a second counted edit |
| EditableCgm.RenameSpatial | src/main/java/maud/model/cgm/EditableCgm.java:498-523 | succeeds exactly for a non-empty name no spatial has; then only the selected spatial is renamed and one edit is counted |
| EditableCgm.ChangeSelected | src/main/java/maud/model/cgm/EditableCgm.java:631-642 | the selected spatial is replaced and nothing else of the model changes; an edit is counted exactly when the new spatial differs, and an equal one leaves the model as it was |
| EditableCgm.SetBatchHint | src/main/java/maud/model/cgm/EditableCgm.java:631-642 | the selected spatial's batch hint becomes the given one; no other property of it, no other spatial and no other part of the model changes; one edit is counted when the batch hint differed, none otherwise |
| EditableCgm.SetCullHint | src/main/java/maud/model/cgm/EditableCgm.java:649-660 | the selected spatial's cull hint becomes the given one; no other property of it, no other spatial and no other part of the model changes; one edit is counted when the cull hint differed, none otherwise |
| EditableCgm.SetQueueBucket | src/main/java/maud/model/cgm/EditableCgm.java:740-751 | the selected spatial's queue bucket becomes the given one; no other property of it, no other spatial and no other part of the model changes; one edit is counted when the queue bucket differed, none otherwise |
| EditableCgm.SetShadowMode | src/main/java/maud/model/cgm/EditableCgm.java:853-866 | the selected spatial's shadow mode becomes the given one; no other property of it, no other spatial and no other part of the model changes; one edit is counted when the shadow mode differed, none otherwise |
| EditableCgm.SetIgnoreTransform | src/main/java/maud/model/cgm/EditableCgm.java:667-683 | a node leaves the model as it was; for a geometry the flag becomes the given one, nothing else of the model changes, and one edit is counted only when the flag differed |
| EditableCgm.HintSettersChangeOnlyTheirProperty | src/main/java/maud/model/cgm/EditableCgm.java:631-660 | each hint setter gives the selected spatial with only that property replaced, leaves every other spatial and every field of the model other than the edits alone, and setting the same value twice equals setting it once |
| EditableCgm.HintChangeAndBack | src/main/java/maud/model/cgm/EditableCgm.java:649-660 | changing a hint and changing it back restores the spatials but leaves two unsaved edits |
| EditableCgm.SetApplyPhysicsLocal | src/main/java/maud/model/cgm/EditableCgm.java:601-624 | only a control that supports the flag is changed, and an edit is counted only when the value changes |
| EditableCgm.SetSgcEnabled | src/main/java/maud/model/cgm/EditableCgm.java:822-846 | only a control that can be disabled is changed, and an edit is counted only when the value changes |
| EditableCgm.SetRigidBodyParameter | src/main/java/maud/model/cgm/EditableCgm.java:760-815 | a non-rigid-body object is left alone; for a rigid body only that parameter of the object is set, the object's other fields and the rest of the model stay, and an edit is counted even for the same value |
| EditableCgm.SetPhysicsLocation | src/main/java/maud/model/cgm/EditableCgm.java:716-721 | the selected physics object takes the new location and keeps everything else; no other part of the model changes, and the edit continues a position edit of that object |
| EditableCgm.MovePhysicsObject | src/main/java/maud/model/cgm/EditableCgm.java:716-733 | replacing the physics object changes nothing else of the model and records a continuous edit of that object's position |
| EditableCgm.SetPhysicsOrientation | src/main/java/maud/model/cgm/EditableCgm.java:728-733 | the selected physics object takes the new orientation and keeps everything else; no other part of the model changes, and the edit continues a position edit of that object |
| EditableCgm.MoveThenTurnCountsOnce | src/main/java/maud/model/cgm/EditableCgm.java:716-733 | moving and then turning one physics object counts as a single edit |
| EditableCgm.EditTransform | src/main/java/maud/model/cgm/EditableCgm.java:1203-1211 | only the selected spatial's transform changes, as a continuous edit of that spatial |
| EditableCgm.SetSpatialRotation | src/main/java/maud/model/cgm/EditableCgm.java:898-904 | the selected spatial's rotation becomes the given one; its translation and scale, its other properties, the other spatials and the rest of the model stay; the edit continues a transform edit of that spatial |
| EditableCgm.SetSpatialScale | src/main/java/maud/model/cgm/EditableCgm.java:911-920 | a scale with a component that is not positive is an IllegalArgument error; otherwise only the selected spatial's scale changes, nothing else of the model does, and the edit continues a transform edit of that spatial |
| EditableCgm.SetSpatialTranslation | src/main/java/maud/model/cgm/EditableCgm.java:927-933 | the selected spatial's translation becomes the given one; its rotation and scale, its other properties, the other spatials and the rest of the model stay; the edit continues a transform edit of that spatial |
| EditableCgm.TranslateDragCountsOnce | src/main/java/maud/model/cgm/EditableCgm.java:927-933 | a non-empty series of translations counts as one edit, and after a checkpoint the next series counts again |
| EditableCgm.TranslateAllIsDrag | src/main/java/maud/model/cgm/EditableCgm.java:1203-1211 | a series of translations updates the edit state exactly as a drag of the selected spatial does |
| EditableCgm.SetShapeParameter | src/main/java/maud/model/cgm/EditableCgm.java:874-891 | a parameter canSet refuses trips the assertion; a value equal to the current one changes nothing; otherwise only the edit state changes, with a discrete edit for a margin (even one that is not positive) and a continuous edit of the shape for a size |
| EditableCgm.ReplaceAnimation | src/main/java/maud/model/cgm/EditableCgm.java:552-569 | one edit is counted, and a track time beyond the new duration is pulled back to it |
| EditableCgm.PostLoad | src/main/java/maud/model/cgm/EditableCgm.java:1056-1065 | a freshly loaded model is pristine, and each kind of repair that touched some track then counts one edit |
| EditableCgm.BaseFilePathForWrite | src/main/java/maud/model/cgm/EditableCgm.java:262-273 | the proposed path lies under the write folder |
| EditableCgm.WriteToFile | src/main/java/maud/model/cgm/EditableCgm.java:988-1034 | an empty base path is an error; a failed export changes nothing; a successful one records the asset location, sets the extension to "j3o", and leaves no unsaved edit |
| EditableCgm.WriteThenEdit | src/main/java/maud/model/cgm/EditableCgm.java:988-1034 | after any edits, a successful write leaves the model unmodified, and the next edit modifies it again |
| SelectedShape.Find | src/main/java/maud/model/cgm/SelectedShape.java:255-261 | finds the shape with the given id exactly when the space holds one |
| SelectedShape.CanSet | src/main/java/maud/model/cgm/SelectedShape.java:123-164 | true exactly when a shape is selected and its kind allows the parameter: every size and the margin for boxes and cylinders, height and radius for capsules and spheres, those and the margin for cones, only the margin for every other kind; scales and volume never |
| SelectedShape.GetValue | src/main/java/maud/model/cgm/SelectedShape.java:309-367 | NaN with no selection and for the size of a compound shape; otherwise the selected shape's own measurement of the parameter, which is never negative |
| SelectedShape.EditableHasValue | src/main/java/maud/model/cgm/SelectedShape.java:309-367 | every parameter canSet allows has a number to compare a new value against, except a height or radius the shape does not report |
| SelectedShape.CountGeneratorVertices | src/main/java/maud/model/cgm/SelectedShape.java:207-233 | nothing selected counts 0; otherwise a capsule counts 2, a sphere 1, a multi-sphere its spheres, a GImpact, hull, mesh or simplex shape its vertices, and every other kind 0; EditsKeepGeneratorVertices is its partner |
| SelectedShape.EditsKeepGeneratorVertices | src/main/java/maud/model/cgm/SelectedShape.java:207-233 | resizing the selected shape or setting one of its parameters keeps its kind, and so keeps the count of vertices that generate it |
| SelectedShape.Select | src/main/java/maud/model/cgm/SelectedShape.java:480-485 | an id of the space becomes the selection and nothing else changes; any other id trips the assertion |
| SelectedShape.SelectNone | src/main/java/maud/model/cgm/SelectedShape.java:528-530 | nothing is selected afterwards and nothing else changes |
| SelectedShape.SelectNext | src/main/java/maud/model/cgm/SelectedShape.java:515-523 | the selection moves to the next larger id, wrapping to the smallest; a selection not in the list stays |
| SelectedShape.SelectPrevious | src/main/java/maud/model/cgm/SelectedShape.java:535-543 | the selection moves to the next smaller id, wrapping to the largest; a selection not in the list stays |
| SelectedShape.NextThenPrevious | src/main/java/maud/model/cgm/SelectedShape.java:515-543 | selectPrevious undoes selectNext, and selectNext undoes selectPrevious |
| SelectedShape.ReplaceForResize | src/main/java/maud/model/cgm/SelectedShape.java:794-807 | the resized shape, under its fresh id, replaces the selected one and becomes the selection; the old id is gone, every other shape is found as before, the space stays valid, and the size edit continues, counted only when neither shape was already being resized |
| SelectedShape.CarryOver | src/main/java/maud/model/cgm/SelectedShape.java:794-807 | a size edit in progress moves from the old shape to its replacement, so a drag still counts once |
| SelectedShape.FindReplaced | src/main/java/maud/model/cgm/SelectedShape.java:794-807 | after a replacement the ids stay distinct, the new shape is found under its id, the old id is gone when it changed, and every other shape is found as before |
| SelectedShape.ReplaceKeepsValid | src/main/java/maud/model/cgm/SelectedShape.java:794-807 | a replacement by a measured shape with a fresh id keeps the ids distinct and the selection valid |
| SelectedShape.Resize | src/main/java/maud/model/cgm/SelectedShape.java:463-473 | unit factors, even with nothing selected, and compound shapes leave everything alone; half extents made negative trip the assertion; otherwise the shape MyShape produces for the scaled half extents becomes the selection exactly as produced, so getValue reads every measurement from it, the old id is gone and every other shape stays; when MyShape produces none, the shapes stay and the size edit is still counted |
| SelectedShape.SetParameter | src/main/java/maud/model/cgm/SelectedShape.java:551-659 | a parameter canSet refuses trips the assertion; an unchanged value, or a margin that is not positive, changes nothing; a new margin is set on the selected shape alone as a discrete edit; a new size below zero trips the assertion, and otherwise the shape MyShape produces replaces the selected one exactly as produced, getValue then reading that shape's measurement, every other shape staying; with no shape produced a half extent only counts the edit and a height or radius trips an assertion |
| SelectedShape.SetMargin | src/main/java/maud/model/cgm/SelectedShape.java:581-583 | a positive margin is set on the selected shape alone, which stays selected, as one discrete edit |
| SelectedShape.SetSize | src/main/java/maud/model/cgm/SelectedShape.java:551-587 | a new size replaces the selected shape by the shape MyShape produces, exactly as produced and under its fresh id, every other shape staying; with none produced a half extent only counts the edit and a height or radius trips the assertion of replaceForResize |
| SelectedShape.SetParameterIdempotent | src/main/java/maud/model/cgm/SelectedShape.java:639-659 | setting a parameter to the value just set changes nothing, when MyShape's replacement reports the size asked for and MyShape, having produced nothing, produces nothing again |
| SelectedShape.ResizeTwiceCountsOnce | src/main/java/maud/model/cgm/SelectedShape.java:463-473 | two resizes of the same shape in a row count as one edit, whatever shapes MyShape produced in between |
| Lists.SortAscending | src/main/java/maud/model/cgm/SelectedShape.java:780-787 | sorting the distinct ids gives the same ids in strictly ascending order |
| TrackTime.UpdateTrackTime | src/main/java/maud/EditorScreen.java:748-777 | the time stays in [0, duration]; a zero duration gives 0; continue without reverse wraps; inside the range nothing but the time changes; at a limit reverse negates the speed and otherwise the time is mirrored, and the play pauses unless it continues |
| TrackTime.UpdateIfMoving | src/main/java/maud/EditorScreen.java:748-751 | an animation that is not moving trips the assertion; a moving one has its time advanced and kept within the animation |
| TrackTime.WrapInsideIsAdvance | src/main/java/maud/EditorScreen.java:762-763 | wrapping play that stays inside the animation simply advances the time |
| TrackTime.ReverseBounces | src/main/java/maud/EditorScreen.java:765-769 | with reverse set, overshooting the end stops at the end and overshooting the start stops at the start, with the speed negated |
| TrackTime.OnceEndsAtTheOtherEnd | src/main/java/maud/EditorScreen.java:770-773 | without reverse, a play that runs past the end pauses at the start, and one that runs past the start pauses at the end |
| TrackTime.BounceTwiceRestoresSpeed | src/main/java/maud/EditorScreen.java:765-769 | two bounces in a row restore the original speed |
| MiscStatus.Defaults | src/main/java/maud/model/MiscStatus.java:57-90 | a new status: angles in degrees, diameter 1, no drag, "square" platform, no key selected |
| MiscStatus.ClearDragAxis | src/main/java/maud/model/MiscStatus.java:111-114 | dragging ends and nothing else changes |
| MiscStatus.GetDragAxis | src/main/java/maud/model/MiscStatus.java:167-172 | while dragging, the axis is always 0, 1 or 2 |
| MiscStatus.SetDraggingAxis | src/main/java/maud/model/MiscStatus.java:297-310 | an axis outside 0..2 is an IllegalArgumentException; otherwise a drag of that axis is in progress, with the given model and side, and nothing else of the status changes |
| MiscStatus.DragThenClear | src/main/java/maud/model/MiscStatus.java:111-114 | starting a drag and clearing it ends the drag whatever the axis |
| MiscStatus.SetPlatformDiameter | src/main/java/maud/model/MiscStatus.java:317-320 | a non-positive diameter is an error; otherwise it is stored, so the diameter stays positive |
| MiscStatus.SetPlatformMode | src/main/java/maud/model/MiscStatus.java:337-349 | only "none" and "square" are accepted; any other name is an IllegalArgumentException that leaves the mode as it was; a success changes only the mode |
| MiscStatus.ToggleAnglesInDegrees | src/main/java/maud/model/MiscStatus.java:372-374 | the angle unit flips and nothing else changes |
| MiscStatus.ToggleTwice | src/main/java/maud/model/MiscStatus.java:372-374 | two toggles give back the original status |
| MiscStatus.FindUserKeyIndex | src/main/java/maud/model/MiscStatus.java:131-141 | -1 with no key selected; otherwise the position of the selected key in the list, or -1 when it is not listed |
| MiscStatus.DeleteUserKey | src/main/java/maud/model/MiscStatus.java:119-124 | a key is deleted exactly when one was selected, and afterwards no key is selected |
| MiscStatus.SelectNextUserKey | src/main/java/maud/model/MiscStatus.java:251-258 | an empty list is a division by zero; otherwise the key after the selected one is selected, wrapping round, or the first key when none was selected |
| MiscStatus.SelectPreviousUserKeyAsWritten | src/main/java/maud/model/MiscStatus.java:263-270 | as written: the key before the selected one, wrapping round; with no key selected, the key at position -2 modulo the count |
| MiscStatus.PreviousFromNothingExample | src/main/java/maud/model/MiscStatus.java:263-270 | concrete case: with three keys and none selected, the code as written picks the middle key, not the last |
| MiscStatus.SelectPreviousUserKey | src/main/java/maud/model/MiscStatus.java:263-270 | corrected: the key before the selected one, wrapping round, or the last key when none was selected |
| MiscStatus.NextThenPrevious | src/main/java/maud/model/MiscStatus.java:251-270 | with distinct keys, "previous" undoes "next" for a listed key |
| MiscStatus.PreviousThenNext | src/main/java/maud/model/MiscStatus.java:251-270 | with distinct keys, "next" undoes "previous" for a listed key |
| MiscStatus.SettersKeepValid | src/main/java/maud/model/MiscStatus.java:297-349 | every setter and the toggle keep the status invariants: a positive diameter, a known platform mode, and a drag axis of -1 or 0..2 |
| Arith.ModuloInt | src/main/java/maud/model/MiscStatus.java:251-258 | MyMath.modulo on ints, built from Java's truncating %, always lies in [0, n) and equals the mathematical residue |
| AxesStatus.Defaults | src/main/java/maud/model/AxesStatus.java:53-62 | a new status has no depth test, a line width of 4, and "bone" mode |
| AxesStatus.SetDepthTest | src/main/java/maud/model/AxesStatus.java:100-102 | only the depth-test flag changes |
| AxesStatus.SetLineWidth | src/main/java/maud/model/AxesStatus.java:109-112 | a width outside [1, Float.MAX_VALUE] is an IllegalArgumentException; otherwise only the width changes |
| AxesStatus.SetMode | src/main/java/maud/model/AxesStatus.java:119-134 | exactly "bone", "model", "none", "spatial" and "world" are accepted; any other name is an IllegalArgumentException; a success changes only the mode |
| AxesStatus.DepthTestReadsBack | src/main/java/maud/model/AxesStatus.java:100-102 | the flag reads back the last value set, whatever other setters run afterwards |
| AxesStatus.SettersKeepValid | src/main/java/maud/model/AxesStatus.java:100-134 | every setter keeps the line width at least one and the mode a known one |
| AxesStatus.SetModeIdempotent | src/main/java/maud/model/AxesStatus.java:119-134 | setting a mode twice equals setting it once |
| LoadedCgm.NamedFile | src/main/java/maud/model/LoadedCgm.java:162-225 | exactly the table's names have a file and a folder; the folder is the name, except for the sword |
| LoadedCgm.NamedAssetPath | src/main/java/maud/model/LoadedCgm.java:162-235 | an unknown name is an error; a known one gives "Models/folder/file" |
| LoadedCgm.SwordLivesWithSinbad | src/main/java/maud/model/LoadedCgm.java:162-225 | the sword's asset path is "Models/Sinbad/Sword.mesh.xml", and it is the one model stored outside its own folder |
| LoadedCgm.BaseAssetPath | src/main/java/maud/model/LoadedCgm.java:362-369 | an empty extension leaves the whole path; otherwise the path loses the extension and its dot |
| LoadedCgm.BaseAndExtensionRejoin | src/main/java/maud/model/LoadedCgm.java:362-369 | when the path ends with "." and the extension, base + "." + extension gives the path back |
| LoadedCgm.SplitJoined | src/main/java/maud/model/LoadedCgm.java:362-369 | splitting base + "." + extension gives back both the base and the extension |
| LoadedCgm.PostLoad | src/main/java/maud/model/LoadedCgm.java:244-271 | no bone is selected; a model with exactly one animation loads it and any other loads the bind pose; zero vertices show all bones and otherwise influencers only |
| LoadedCgm.LoadFromAsset | src/main/java/maud/model/LoadedCgm.java:314-376 | a success records the extension, the base path, the locator root as the location, and the root's name; a failure records nothing |
| LoadedCgm.LoadAsset | src/main/java/maud/model/LoadedCgm.java:136-153 | an empty root or asset path is an IllegalArgumentException; a success is postLoad applied to the slot whose asset fields are the given root path, the asset path less its extension, the extension and the root's name, everything else (the target flag included) as before; a failure changes nothing |
| LoadedCgm.LoadNamed | src/main/java/maud/model/LoadedCgm.java:162-235 | an unknown name is an IllegalArgumentException; otherwise the table's asset path is loaded, and a success is postLoad applied to the slot whose asset fields are the locators' root, that path less its extension, the extension and the requested name (not the root's), the target flag kept; a failure changes nothing |
| LoadedCgm.Unload | src/main/java/maud/model/LoadedCgm.java:290-300 | unloading the target slot is an error; otherwise the four asset fields are cleared and the model goes |
| LoadedCgm.LoadThenUnload | src/main/java/maud/model/LoadedCgm.java:290-300 | a successful load leaves a valid loaded slot, and unloading a source slot empties it again |
| LoadedCgm.FailedLoadChangesNothing | src/main/java/maud/model/LoadedCgm.java:352-354 | a failed load, by path or by name, changes nothing |
| AssetDialog.ScanExtensions | src/main/java/maud/dialog/AssetDialog.java:202-214 | the scan finds an extension exactly when the path ends with one of the accepted extensions |
| AssetDialog.JoinExtensions | src/main/java/maud/dialog/AssetDialog.java:221-235 | the loop's buffer equals the extensions with "/" between neighbours, nothing before the first or after the last, and "" for none |
| AssetDialog.SplitJoined | src/main/java/maud/dialog/AssetDialog.java:221-235 | when no extension holds "/", splitting the joined text at "/" gives the extensions back |
| AssetDialog.Update | src/main/java/maud/dialog/AssetDialog.java:123-148 | the label is the commit description exactly when a commit is allowed; the feedback asks for an extension whenever one is missing, and reports a missing asset only when the extension is fine |
| AssetDialog.LabelShowsCommit | src/main/java/maud/dialog/AssetDialog.java:105-112 | the label is non-empty exactly when the path has an accepted extension and the asset exists, and then the feedback is empty |
| MenuPath.SplitPath | src/main/java/maud/DddMenus.java:191-204 | no separator means a menu-bar name; otherwise menu name + " -> " + remainder is the path and the menu name holds no separator |
| MenuPath.SplitJoined | src/main/java/maud/menu/EditorMenus.java:122-135 | joining a menu name and a remainder and splitting again gives both back when the name neither holds a separator nor ends with " ->" |
| MenuPath.SplitJoinedExample | src/main/java/maud/menu/EditorMenus.java:122-135 | a menu name ending in " ->" is split one level early |
| MenuPath.AfterPrefix | src/main/java/maud/menu/EditorMenus.java:297-300 | an item has a remainder after a prefix exactly when it starts with that prefix, and prefix + remainder is the item |
| MenuPath.RouteFromFirst | src/main/java/maud/menu/EditorMenus.java:295-338 | the first matching prefix decides and its submenu handles the rest; with no matching prefix the handler handles exactly its own items |
| MenuPath.HandlesFirstRoute | src/main/java/maud/menu/EditorMenus.java:346-373 | a handler handles a remainder exactly when its first matching route's submenu handles the rest, or, with no route, when the remainder is one of its items |
| DddMenus.SubmenuHandler | src/main/java/maud/DddMenus.java:635-670 | only the known menus other than "Physics" have a handler |
| DddMenus.HandledPathsStartAtKnownMenus | src/main/java/maud/DddMenus.java:635-670 | every handled path is a known menu-bar name or starts at a known menu other than "Physics" |
| DddMenus.MenuBarExamples | src/main/java/maud/DddMenus.java:733-780 | a known menu-bar name is handled, even when its menu is empty, and an unknown one is not |
| DddMenus.BoneSelectPaths | src/main/java/maud/DddMenus.java:788-831 | "Bone -> Select -> item" is handled exactly when the bone-selection handler lists the item |
| DddMenus.SelectParentBoneHandled | src/main/java/maud/DddMenus.java:839-882 | "Bone -> Select -> Parent" is handled |
| DddMenus.SelectSiblingBoneNotHandled | src/main/java/maud/DddMenus.java:839-882 | "Bone -> Select -> Sibling" is not handled |
| DddMenus.PhysicsItemsNotHandled | src/main/java/maud/DddMenus.java:635-670 | nothing under the Physics menu is handled |
| DddMenus.ViewPaths | src/main/java/maud/DddMenus.java:1363-1408 | "View -> item" is handled exactly when the View handler selects a tool for the item |
| DddMenus.ViewPhysicsNotHandled | src/main/java/maud/DddMenus.java:1384-1385 | "View -> Physics" reaches the View handler but is not handled |
| DddMenus.FolderMenuPrefix | src/main/java/maud/DddMenus.java:73-86 | the folder menu's prefix starts with the action prefix and the folder path and always ends with "/" |
| DddMenus.LoadModelFile | src/main/java/maud/DddMenus.java:94-108 | a directory shows its folder menu, a readable file is loaded, and anything else is ignored |
| DddMenus.FolderMenuPrefixIdempotent | src/main/java/maud/DddMenus.java:73-86 | a prefix that already ends with "/" gets no second "/" |
| DddMenus.Classify | src/main/java/maud/DddMenus.java:416-444 | entries are classified as folder, .blend, .j3o, .mesh.xml or other, tested in that order |
| DddMenus.BuildFileMenu | src/main/java/maud/DddMenus.java:416-444 | an unlistable directory gives nothing; otherwise ".." comes first when there is a parent, then one item per entry in listing order |
| DddMenus.ParentItemOnlyWithParent | src/main/java/maud/DddMenus.java:416-444 | the ".." item appears exactly when the directory has a parent |
| DddMenus.SelectBoneChild | src/main/java/maud/DddMenus.java:150-169 | an argument starting with "!" selects the bone named by the rest; any other argument shows that bone's children |
| DddMenus.ChildMenu | src/main/java/maud/DddMenus.java:150-169 | the child menu lists the bone itself marked with "!", then its children in order, the leaves marked with "!" |
| DddMenus.ChildMenuChoices | src/main/java/maud/DddMenus.java:150-169 | choosing a marked item selects exactly that bone, and choosing an unmarked child opens its own child menu |
| EditorMenus.UnknownMenusNotHandled | src/main/java/maud/menu/EditorMenus.java:146-199 | a menu name outside the fourteen is never handled, whatever the delegated handlers do |
| EditorMenus.AssetLocationsRouting | src/main/java/maud/menu/EditorMenus.java:295-338 | every Settings item starting with "Asset locations -> " goes, without the prefix, to the asset-locations handler |
| EditorMenus.VertexSelectRouting | src/main/java/maud/menu/EditorMenus.java:346-403 | every Vertex item "Select -> item" is handled exactly when the vertex-selection handler lists the item |
| EditorMenus.FolderMap | src/main/java/maud/menu/EditorMenus.java:80-114 | a path with no parent and an unlistable folder are null dereferences, and a parent that is not a directory trips the assertion; otherwise a directory lists its own entries plus "! add this folder" with no name prefix, and any other path lists its parent's entries that start with the file name |
| EditorMenus.AddAccepted | src/main/java/maud/menu/EditorMenus.java:94-103 | the loop adds each accepted entry under its own name, and fails exactly on a name already used as a key |
| EditorMenus.NameClash | src/main/java/maud/menu/EditorMenus.java:83-103 | the only name an accepted entry can share with an earlier key is "! add this folder", and only in a directory's own menu |
| EditorMenus.FolderMapFilters | src/main/java/maud/menu/EditorMenus.java:94-111 | every entry except "! add this folder" starts with the name prefix; listed entries are directories, JARs or ZIPs; ".." appears exactly when there is a parent and it starts with the prefix |
| SetAction.SamplesFor | src/main/java/maud/action/SetAction.java:226-237 | the first of 1, 2, 4 and 8 whose description is the argument, else 16 |
| SetAction.AntiAliasingSamples | src/main/java/maud/action/SetAction.java:229-235 | the doubling loop stops at the same sample count as the first-match rule |
| SetAction.SamplesRoundTrip | src/main/java/maud/action/SetAction.java:226-237 | when the five counts have different descriptions, a count's description gives that count back |
| SetAction.RigidBodyArgument | src/main/java/maud/action/SetAction.java:289-299 | an empty argument or an unknown parameter is an exception; otherwise the action is handled exactly when there are two tokens |
| SetAction.ResolutionArgument | src/main/java/maud/action/SetAction.java:312-321 | handled exactly for three tokens with "x" in the middle and two ints, failing at the first check that does not hold |
| SetAction.PrefixedAction | src/main/java/maud/action/SetAction.java:220-377 | every prefix other than the rigid-body one handles its argument or throws; only the rigid-body prefix can return "not handled" |
| SetAction.Process | src/main/java/maud/action/SetAction.java:79-210 | exact actions come first; otherwise the first prefix in the source's order decides; with neither, the action is not handled |
| SetAction.FirstPrefixWins | src/main/java/maud/action/SetAction.java:220-377 | an action matching prefix i and none before it is handled as kind i, whatever later prefixes it also matches |
| SetAction.ResolutionRoundTrip | src/main/java/maud/action/SetAction.java:312-321 | "W x H", written with Integer.toString, sets the screen size to W by H for every pair of ints |
| SetAction.RigidBodyTokenCount | src/main/java/maud/action/SetAction.java:289-299 | "mass 2" is handled, while "mass" and "mass 2 3" are not |
| Text.ParseInt | src/main/java/maud/action/SetAction.java:316-318 | Integer.parseInt succeeds exactly on an optional sign followed by at least one digit whose signed value is within the int range, and then gives that signed value; anything else is a NumberFormatException |
| Text.ParseShowInt | src/main/java/maud/action/SetAction.java:316-318 | parseInt reads back what Integer.toString writes exactly for the numbers within the int range |
| Text.JavaSplit | src/main/java/maud/action/SetAction.java:292 | String.split on one character: the whole string when it does not occur; otherwise the pieces without trailing empty ones |
| Pose.CopyBoneTransform | src/main/java/maud/model/Pose.java:68-73 | the stored transform of the indexed bone; an index outside the list is an exception |
| Pose.ResetPose | src/main/java/maud/model/Pose.java:91-100 | the loop leaves exactly boneCount transforms, all identity |
| Pose.SetBoneRotation | src/main/java/maud/model/Pose.java:108-115 | only the indexed bone's rotation changes; other bones and components stay |
| Pose.SetBoneScale | src/main/java/maud/model/Pose.java:123-130 | only the indexed bone's scale changes; other bones and components stay |
| Pose.SetBoneTranslation | src/main/java/maud/model/Pose.java:138-145 | only the indexed bone's translation changes; other bones and components stay |
| Pose.PoseSkeleton | src/main/java/maud/model/Pose.java:78-86 | the first boneCount transforms come from the animation and the rest stay; a count beyond the list stops at its end with an exception |
| Pose.ResetThenCopy | src/main/java/maud/model/Pose.java:68-100 | after a reset every bone's copy is the identity, and no other index can be copied |
| Pose.SetAllComponents | src/main/java/maud/model/Pose.java:108-145 | setting the rotation, then the scale, then the translation of one bone leaves it with exactly the given transform |
| Pose.SetRotationTwice | src/main/java/maud/model/Pose.java:108-115 | setting a rotation twice keeps only the second value |
| Pose.SetsOnDifferentBonesCommute | src/main/java/maud/model/Pose.java:108-130 | setters on different bones commute |
| Pose.ResetThenPose | src/main/java/maud/model/Pose.java:78-100 | posing a reset skeleton leaves exactly the animation's transforms |
| TransformStatus.LoadCgm | src/main/java/maud/model/TransformStatus.java:97-104 | a non-positive extent is an error; otherwise the greatest extent becomes one world unit and the lowest point is lifted to Y = 0 |
| TransformStatus.RotateY | src/main/java/maud/model/TransformStatus.java:111-113 | the new angle lies in [0, 2π), differs from old angle + turn by whole turns, and nothing else changes |
| TransformStatus.RotateTwice | src/main/java/maud/model/TransformStatus.java:111-113 | turning by a and then by b ends at the same angle as turning by a + b |
| TransformStatus.RotateByZero | src/main/java/maud/model/TransformStatus.java:111-113 | a turn by zero leaves a valid placement as it is |
| TransformStatus.ZOffset | src/main/java/maud/model/TransformStatus.java:147-157 | the target sits half a separation forward when a source is loaded and on the axis otherwise; the source sits half a separation back |
| TransformStatus.SideBySide | src/main/java/maud/model/TransformStatus.java:147-157 | with both models loaded they stand exactly one separation apart |
| TransformStatus.WorldTransform | src/main/java/maud/model/TransformStatus.java:132-161 | the same scale on all three axes, the rotation for the Y angle, and a translation made of the turned, scaled offset to the root bone's bind location, raised by the Y offset and displaced along Z; see RootAbovePlatformCentre for where this puts the root bone |
| TransformStatus.BaseOnPlatform | src/main/java/maud/model/TransformStatus.java:97-161 | after loadCgm, at any angle, the world transform puts the model's lowest point at Y = 0 |
| TransformStatus.RootAbovePlatformCentre | src/main/java/maud/model/TransformStatus.java:132-161 | for any turn about +Y that adds and fixes the Y axis, the world transform places the root bone's bind location directly above the centre of the platform: X is 0, Z is the side-by-side offset, and Y is its scaled height plus the Y offset |
| Arith.ModuloReal | src/main/java/maud/model/TransformStatus.java:111-113 | MyMath.modulo on floats lies in [0, m) and differs from its argument by whole periods |
| ScorePov.Initial | src/main/java/maud/model/cgm/ScorePov.java:79-87 | the initial half-height lies within its bounds |
| ScorePov.SetCameraY | src/main/java/maud/model/cgm/ScorePov.java:166-171 | the camera's Y lies in [-viewHeight, 0], equals the request when that is inside, and nothing else changes |
| ScorePov.SetHalfHeight | src/main/java/maud/model/cgm/ScorePov.java:178-181 | a non-positive value is an error; otherwise the value is stored clamped to [0.1, 100] and nothing else changes |
| ScorePov.MoveBackward | src/main/java/maud/model/cgm/ScorePov.java:221-227 | zero notches, or a zoomed half-height that is not positive, is an IllegalArgumentException; otherwise the half-height becomes the zoomed one clamped to its bounds, and only the half-height changes |
| ScorePov.MoveLeft | src/main/java/maud/model/cgm/ScorePov.java:235-238 | a zero amount is an IllegalArgumentException; otherwise nothing changes |
| ScorePov.MoveUp | src/main/java/maud/model/cgm/ScorePov.java:246-256 | a zero amount is an IllegalArgumentException; otherwise the camera's Y moves by the amount scaled by the half-height over the display height, clamped to [-viewHeight, 0], and nothing else, X and Z included, changes |
| ScorePov.Update | src/main/java/maud/model/cgm/ScorePov.java:278-297 | no camera means no change; a non-positive half-height trips the assertion; no range zeroes the remembered one; a new range re-centres on its midpoint with half-height 0.6 + 0.6·\|max − mid\|, clamped; the camera's X and Z never change |
| ScorePov.RecentredHalfHeight | src/main/java/maud/model/cgm/ScorePov.java:283-294 | the re-centred half-height is 0.6 plus 0.3 times the range's extent, before clamping |
| ScorePov.UpdateIdempotent | src/main/java/maud/model/cgm/ScorePov.java:278-297 | a second update with the same selection changes nothing |
| ScorePov.ZoomStaysInBounds | src/main/java/maud/model/cgm/ScorePov.java:221-227 | zooming out never makes the view smaller and keeps the half-height within bounds |
| Arith.Clamp | src/main/java/maud/model/cgm/ScorePov.java:166-171 | FastMath.clamp gives a value within the bounds, equal to the input when it is inside them |
| BulletDebug.Leftovers | src/main/java/com/jme3/bullet/debug/BulletDebugAppState.java:185-189 | the old entries of objects no longer in the space |
| BulletDebug.Reconcile | src/main/java/com/jme3/bullet/debug/BulletDebugAppState.java:161-190 | the new map holds exactly the current objects that were mapped or that the filter shows; known objects keep their node; new ones get fresh nodes; the root's children lose the leftovers' nodes and gain the new ones |
| BulletDebug.Pass | src/main/java/com/jme3/bullet/debug/BulletDebugAppState.java:165-183 | the pass moves every current known object out of the old map into the new one and attaches a fresh node for each new object the filter shows |
| BulletDebug.Update | src/main/java/com/jme3/bullet/debug/BulletDebugAppState.java:118-129 | each of the five kinds is reconciled with its list, the display stays valid, and the root's children are the old ones less the detached nodes plus the new ones |
| BulletDebug.ReconcileKeepsValid | src/main/java/com/jme3/bullet/debug/BulletDebugAppState.java:192-314 | reconciling any one kind keeps the whole display valid: nodes stay distinct across kinds and new nodes are numbered past every existing one |

## Left out

- The Nifty GUI, rendering, viewports and window tools; all of `EditorScreen` except `updateTrackTime`.
- Quaternion arithmetic. Twists and rotations are opaque values: `estimateTwist`, `cardinalizeTwist`, the inverse of a twist and snapping one axis are parameters. The rotation part of `worldTransform` is the `YRotation` parameter.
- File and asset I/O. The outcome of an export, of the asset loader and of a directory listing is a parameter. So are `File.isDirectory`, `File.canRead` and `getWrittenAssetDirPath`. File-name normalisation (`getAbsolutePath`, backslashes) is not modelled.
- Java's `File.listFiles` returning null is an unlistable directory in `DddMenus.BuildFileMenu` and a null dereference in `EditorMenus.FolderMap`; `File.getParentFile` returning null is a null dereference in `EditorMenus.FolderMap`.
- Float rounding: all view and playback arithmetic is on `real`. `Float.parseFloat` is not modelled: a float argument stays text.
- Text.ParseInt: accepts ASCII digits only, not the other Unicode digits Integer.parseInt also accepts.
- AssetDialog.ScanExtensions: the extension test is case-sensitive, as `String.endsWith` is; no case folding is modelled.
- MyString.quote's escaping and all logging.
- The `clone` methods: with immutable values a copy is the value itself.
- `Checkpoint.java` and the deep copy of the editor model. Checkpoints are opaque snapshot values inside `History`.
- `maud/model/ScorePov.java`, a superseded copy of the score camera. `DisplayedPose` wraps an unseen pose class. `ScenePov`, `SceneOptions` and `ViewType` hold no rules that are modelled here.
- History's automatic checkpoints (`autoAdd`) and the event descriptions of checkpoints.
- MySkeleton.setName and the bone lookups of the target model are parameters of `EditableCgm.RenameBone`.
- SelectedShape.CarryOver: EditState.replaceForResize is not part of this model. It is taken to carry an in-progress size edit of the old shape over to its replacement.
- EditableMap.Inverse: SkeletonMapping.inverse is not part of this model. It is taken to swap source and target bones and invert each twist.
- EditableMap.RenameBone: SkeletonMapping.renameTargetBone and renameSourceBone are not part of this model. They are taken to rename every use of the old name on their side.
- Track repair (`zeroFirst`, `removeRepeats`) and retargeting live in an unseen library. Only whether a repair touched some track is a parameter of `EditableCgm.PostLoad`.
- Physics shape geometry and the `PhysicsSpace` queries. A shape is a kind, an id and its measurements; when an edit replaces a shape, all the measurements of the replacement are the ones MyShape gives it, supplied as the shape itself.
- SelectedShape.Resize: MyShape.setHalfExtents, setHeight and setRadius are not part of this model. The shape they produce, or none, is the parameter `produced`. Of it the model assumes only a fresh non-negative id, non-negative measurements and the kind of the shape it replaces; its half extents, height, radius and volume are whatever MyShape computed. Non-unit factors with nothing selected are excluded by the precondition, because what MyShape.halfExtents does with a null shape is not part of this model.
- EditableMap.MapBones: requires the map to be one-to-one on entry. SkeletonMapping, which keeps that invariant, is not part of this model.
- EditableMap.HasInvalidMappings: LoadedMap.hasInvalidMappings is not part of this model. It is taken to hold when some mapping names a bone missing from a skeleton that is present.
- ScorePov.MoveUp: requires a positive display height, because a float division by zero is not modelled.
- ScorePov: `compression`, `leftX`, `rightX` and `updatePartial` are camera queries with no rule worth stating.
- BulletDebug.Update: the five object kinds share one object type, and each list from the physics space is assumed to hold no repeats, because the space takes its lists from map values.
- BulletDebug.Reconcile: materials, debug controls and logging are left out. The loop over leftovers is modelled as a set difference, because its order does not matter.
- SetAction: the exact action names, the prefixes, `Util.aaDescription`, the `valueOf` lookups and the handlers the actions call are parameters. Only the argument parsing is modelled.
- EditorMenus: the handlers the dispatcher delegates to in other classes are parameters.
- DddMenus: the menu builders' item lists are kept only where a property needs them. Items the builders show but no handler accepts are stated by lemmas, not modelled as errors.
- Java assertions are modelled as enabled: a failed assertion is `Err(AssertionFailed)`.

## Findings

| source | as written | input that shows it | evidently intended | confidence | as-written member | corrected member |
|---|---|---|---|---|---|---|
| src/main/java/maud/History.java:127-136 | redo restores the checkpoint at `nextIndex` and then increments the index; after an undo, that checkpoint is the one the undo just restored | one checkpoint `0` and current state `1`: undo restores `0`; redo restores `0` again | redo restores the checkpoint after the one the undo restored, giving back the state that was current before the undo | not executed | History.RedoAsWritten, History.RedoAfterUndoExample | History.Redo, History.UndoThenRedo |
| src/main/java/maud/model/EditableMap.java:318-333 | the second test asks whether `filePath`, the name with ".j3o" appended, ends with the old asset path; EditableCgm makes the same test on `baseFilePath` | a map loaded from "/jars/maps.jar" as "Maps/Puppet" and written to "/home/Maps/Puppet": the asset location and path are both cleared | test `baseFilePath`, which keeps location "/home/" and asset path "Maps/Puppet" | not executed | AssetPaths.RecordMapWriteAsWritten, AssetPaths.MapWriteExample | AssetPaths.RecordWrite, EditableMap.WriteToFile |
| src/main/java/maud/model/MiscStatus.java:263-270 | with no key selected the index is -1, so "previous" computes index -2 modulo the count | three keys and none selected: "previous" selects the middle key | with nothing selected, "previous" selects the last key, mirroring "next", which selects the first | not executed | MiscStatus.SelectPreviousUserKeyAsWritten, MiscStatus.PreviousFromNothingExample | MiscStatus.SelectPreviousUserKey, MiscStatus.NextThenPrevious |

=== FILE: arith.dfy ===
/**
 * The jME3 / jme3-utilities arithmetic helpers the model uses: FastMath.clamp
 * and MyMath.modulo, whose Java remainder truncates toward zero, unlike
 * Dafny's Euclidean `%`.
 */
module Arith {

  /** FastMath.clamp */
  function Clamp(x: real, lo: real, hi: real): (r: real)
    ensures lo <= hi ==> lo <= r <= hi
    ensures lo <= x <= hi ==> r == x
    ensures x < lo ==> r == lo
    ensures hi < x && lo <= hi ==> r == hi
  {
    if x < lo then lo else if x > hi then hi else x
  }

  /** Clamping an already clamped value changes nothing. */
  lemma ClampIdempotent(x: real, lo: real, hi: real)
    requires lo <= hi
    ensures Clamp(Clamp(x, lo, hi), lo, hi) == Clamp(x, lo, hi)
  {
  }

  /** Real multiplication, kept behind a function so that the solver treats
      the products in the remainder proofs as opaque terms. */
  function Times(a: real, b: real): real {
    a * b
  }

  /** `x` moved by `k` whole periods of length `m`. */
  function Shift(x: real, k: int, m: real): real {
    x - Times(k as real, m)
  }

  /** Java's `%` on floating-point operands truncates the quotient toward
      zero, so the remainder takes the sign of the dividend. */
  function JavaRemReal(x: real, m: real): (r: real)
    requires m > 0.0
    ensures x >= 0.0 ==> 0.0 <= r < m
    ensures x < 0.0 ==> -m < r <= 0.0
    ensures exists k: int :: r == Shift(x, k, m)
  {
    if x >= 0.0 then FloorRem(x, m)
    else
      var k: int :| FloorRem(-x, m) == Shift(-x, k, m);
      NegatedShift(x, k, m);
      -FloorRem(-x, m)
  }

  lemma NegatedShift(x: real, k: int, m: real)
    ensures -Shift(-x, k, m) == Shift(x, -k, m)
  {
  }

  /** The remainder of a non-negative dividend. */
  function FloorRem(x: real, m: real): (r: real)
    requires x >= 0.0 && m > 0.0
    ensures 0.0 <= r < m
    ensures exists k: int :: r == Shift(x, k, m)
  {
    var k := (x / m).Floor;
    FloorScaled(x, m);
    Shift(x, k, m)
  }

  /** Bounds on floor(x / m) * m. */
  lemma FloorScaled(x: real, m: real)
    requires x >= 0.0 && m > 0.0
    ensures 0.0 <= Shift(x, (x / m).Floor, m) < m
  {
    var q := x / m;
    var lo := q.Floor as real;
    assert Times(q, m) == x;
    ScaleLe(lo, q, m);
    ScaleLt(q, lo + 1.0, m);
    assert Times(lo + 1.0, m) == Times(lo, m) + m;
  }

  lemma ScaleLe(a: real, b: real, m: real)
    requires a <= b && m > 0.0
    ensures Times(a, m) <= Times(b, m)
  {
  }

  lemma ScaleLt(a: real, b: real, m: real)
    requires a < b && m > 0.0
    ensures Times(a, m) < Times(b, m)
  {
  }

  /** MyMath.modulo(float, float) for a positive modulus. */
  function ModuloReal(x: real, m: real): (r: real)
    requires m > 0.0
    ensures 0.0 <= r < m
    ensures exists k: int :: r == Shift(x, k, m)
  {
    var rem := JavaRemReal(x, m);
    var k: int :| rem == Shift(x, k, m);
    ShiftBack(x, k, m);
    if rem < 0.0 then rem + m else rem
  }

  /** One period added back is one shift fewer. */
  lemma ShiftBack(x: real, k: int, m: real)
    ensures Shift(x, k, m) + m == Shift(x, k - 1, m)
  {
    assert Times((k - 1) as real, m) == Times(k as real, m) - m;
  }

  /** A value already inside [0, m) is its own residue. */
  lemma ModuloRealInRange(x: real, m: real)
    requires m > 0.0 && 0.0 <= x < m
    ensures ModuloReal(x, m) == x
  {
    assert Times(x / m, m) == x;
    ScaleLt(x / m, 1.0, m);
    assert (x / m).Floor == 0;
  }

  /** Two whole-period shifts of `x` that both land in [0, m) are the
      same value. */
  lemma ShiftResidueUnique(x: real, m: real, k1: int, k2: int)
    requires m > 0.0
    requires 0.0 <= Shift(x, k1, m) < m && 0.0 <= Shift(x, k2, m) < m
    ensures Shift(x, k1, m) == Shift(x, k2, m)
  {
    assert Shift(x, k1, m) - Shift(x, k2, m) == Times((k2 - k1) as real, m);
    if k2 - k1 >= 1 {
      ScaleLe(1.0, (k2 - k1) as real, m);
    } else if k1 - k2 >= 1 {
      ScaleLe(1.0, (k1 - k2) as real, m);
    }
  }

  /** Shifting twice is shifting by the sum of the periods. */
  lemma ShiftTwice(x: real, d: real, k1: int, k2: int, m: real)
    ensures Shift(Shift(x, k1, m) + d, k2, m) == Shift(x + d, k1 + k2, m)
  {
    assert Times((k1 + k2) as real, m) == Times(k1 as real, m) + Times(k2 as real, m);
  }

  /** The residue of a residue plus `d` is the residue of the sum plus `d`. */
  lemma ModuloRealAdd(x: real, d: real, m: real)
    requires m > 0.0
    ensures ModuloReal(ModuloReal(x, m) + d, m) == ModuloReal(x + d, m)
  {
    var inner := ModuloReal(x, m);
    var k1: int :| inner == Shift(x, k1, m);
    var outer := ModuloReal(inner + d, m);
    var k2: int :| outer == Shift(inner + d, k2, m);
    var direct := ModuloReal(x + d, m);
    var k3: int :| direct == Shift(x + d, k3, m);
    ShiftTwice(x, d, k1, k2, m);
    ShiftResidueUnique(x + d, m, k1 + k2, k3);
  }

  /** Java's `%` on int operands: truncating, the sign follows the dividend. */
  function JavaRemInt(a: int, n: int): (r: int)
    requires n > 0
    ensures -n < r < n
    ensures a >= 0 ==> r >= 0
    ensures a < 0 ==> r <= 0
  {
    if a >= 0 then a % n else -((-a) % n)
  }

  /** MyMath.modulo(int, int): the remainder of Java's `%`, shifted into [0, n). */
  function ModuloInt(a: int, n: int): (r: int)
    requires n > 0
    ensures 0 <= r < n
    ensures r == a % n
  {
    var rem := JavaRemInt(a, n);
    var r := if rem < 0 then rem + n else rem;
    if a >= 0 then r
    else
      NegativeResidue(a, n);
      r
  }

  /** For a negative dividend, negating Java's remainder gives Dafny's. */
  lemma NegativeResidue(a: int, n: int)
    requires n > 0 && a < 0
    ensures var rem := -((-a) % n); (if rem < 0 then rem + n else rem) == a % n
  {
    var q := (-a) / n;
    var k := (-a) % n;
    assert -a == n * q + k;
    if k == 0 {
      assert a == n * (-q);
      ResidueUnique(a, n, -q, 0);
    } else {
      assert a == n * (-q - 1) + (n - k);
      ResidueUnique(a, n, -q - 1, n - k);
    }
  }

  /** Euclidean division has a unique remainder. */
  lemma ResidueUnique(a: int, n: int, q: int, r: int)
    requires n > 0 && 0 <= r < n && a == n * q + r
    ensures a % n == r
  {
    var q', r' := a / n, a % n;
    DivisionIdentity(a, n);
    assert n * (q - q') == r' - r;
    if q - q' >= 1 {
      AtLeastDivisor(n, q - q');
    } else if q' - q >= 1 {
      AtLeastDivisor(n, q' - q);
    }
  }

  lemma DivisionIdentity(a: int, n: int)
    requires n > 0
    ensures a == n * (a / n) + a % n
  {
  }

  lemma AtLeastDivisor(n: int, d: int)
    requires n > 0 && d >= 1
    ensures n * d >= n
  {
  }
}

=== FILE: asset_dialog.dfy ===
/**
 * AssetDialog: the text-entry dialog that chooses an asset path. It accepts a
 * path only if it ends with one of the dialog's extensions and the asset
 * manager can locate the asset; whether the asset exists is a parameter
 * here, since locating assets is not modelled.
 */
module AssetDialog {
  import opened Text

  /** The dialog's fixed settings: the commit button's text (not empty) and
      the accepted extensions, in order. */
  datatype Dialog = Dialog(commitDescription: string, extensions: seq<string>)

  /** The path ends with one of the accepted extensions. */
  predicate HasExtension(d: Dialog, assetPath: string) {
    exists i :: 0 <= i < |d.extensions| && EndsWith(assetPath, d.extensions[i])
  }

  /** hasExtension: scans the extensions in order and stops at the first
      one the path ends with. */
  method ScanExtensions(d: Dialog, assetPath: string) returns (found: bool)
    ensures found <==> HasExtension(d, assetPath)
  {
    found := false;
    var i := 0;
    while i < |d.extensions|
      invariant 0 <= i <= |d.extensions|
      invariant !found
      invariant forall j :: 0 <= j < i ==> !EndsWith(assetPath, d.extensions[j])
    {
      if EndsWith(assetPath, d.extensions[i]) {
        found := true;
        break;
      }
      i := i + 1;
    }
  }

  // ----- joining and splitting the extension list ------------------------

  /** The extensions with "/" between neighbours: nothing for no extensions,
      and no separator in front or at the end. */
  function Joined(exts: seq<string>): (r: string)
    ensures |exts| == 1 ==> r == exts[0]
    ensures |exts| > 0 ==> StartsWith(r, exts[0]) && EndsWith(r, exts[|exts| - 1])
  {
    if |exts| == 0 then ""
    else if |exts| == 1 then exts[0]
    else
      var front := Joined(exts[..|exts| - 1]);
      assert exts[..|exts| - 1][0] == exts[0];
      assert (front + "/" + exts[|exts| - 1])[..|front|] == front;
      assert (front + "/" + exts[|exts| - 1])[..|exts[0]|] == front[..|exts[0]|];
      front + "/" + exts[|exts| - 1]
  }

  /** joinExtensions: appends each extension to a buffer, with "/" in front
      of all but the first. */
  method JoinExtensions(d: Dialog) returns (result: string)
    ensures result == Joined(d.extensions)
  {
    var buffer := "";
    var first := true;
    var i := 0;
    while i < |d.extensions|
      invariant 0 <= i <= |d.extensions|
      invariant first <==> i == 0
      invariant buffer == Joined(d.extensions[..i])
    {
      var ext := d.extensions[i];
      if first {
        first := false;
      } else {
        buffer := buffer + "/";
      }
      buffer := buffer + ext;
      assert d.extensions[..i + 1][..i] == d.extensions[..i];
      i := i + 1;
    }
    assert d.extensions[..i] == d.extensions;
    result := buffer;
  }

  /** With no "/" inside any extension, splitting the joined list at "/"
      gives the extensions back. */
  lemma {:induction false} SplitJoined(exts: seq<string>)
    requires |exts| > 0
    requires forall i :: 0 <= i < |exts| ==> '/' !in exts[i]
    ensures Pieces(Joined(exts), '/') == exts
  {
    if |exts| == 1 {
      PiecesNone(exts[0], '/');
    } else {
      var front := exts[..|exts| - 1];
      SplitJoined(front);
      PiecesAppend(Joined(front), '/', exts[|exts| - 1]);
      assert front + [exts[|exts| - 1]] == exts;
    }
  }

  // ----- committing -------------------------------------------------------

  /** allowCommit: the path has an accepted extension and the asset exists. */
  predicate AllowCommit(d: Dialog, assetPath: string, exists_: bool) {
    HasExtension(d, assetPath) && exists_
  }

  /** The feedback line under the text field. */
  datatype Feedback = NoFeedback | AssetMissing | NeedsExtension(list: string)

  /** The feedback as displayed; MyString.quote is taken to wrap the list in
      double quotes. */
  function FeedbackText(f: Feedback): string {
    match f
    case NoFeedback => ""
    case AssetMissing => "asset doesn't exist"
    case NeedsExtension(list) => "needs extension: \"" + list + "\""
  }

  /** update: the commit button's label and the feedback for the path in
      the text field. */
  function Update(d: Dialog, assetPath: string, exists_: bool): (r: (string, Feedback))
    ensures r.0 == (if AllowCommit(d, assetPath, exists_) then d.commitDescription else "")
    ensures !HasExtension(d, assetPath) ==> r.1 == NeedsExtension(Joined(d.extensions))
    ensures r.1 == AssetMissing <==> HasExtension(d, assetPath) && !exists_
    ensures r.1 == NoFeedback <==> AllowCommit(d, assetPath, exists_)
  {
    if HasExtension(d, assetPath) then
      if exists_ then (d.commitDescription, NoFeedback) else ("", AssetMissing)
    else ("", NeedsExtension(Joined(d.extensions)))
  }

  /** The commit label is the description exactly when a commit is allowed
      (the description is never empty), and the feedback is empty then
      too. */
  lemma LabelShowsCommit(d: Dialog, assetPath: string, exists_: bool)
    requires d.commitDescription != ""
    ensures Update(d, assetPath, exists_).0 != "" <==> AllowCommit(d, assetPath, exists_)
    ensures FeedbackText(Update(d, assetPath, exists_).1) == "" <==> AllowCommit(d, assetPath, exists_)
  {
    var f := Update(d, assetPath, exists_).1;
    if f.NeedsExtension? {
      assert FeedbackText(f)[0] == 'n';
    } else if f.AssetMissing? {
      assert FeedbackText(f)[0] == 'a';
    }
  }
}

=== FILE: asset_paths.dfy ===
/**
 * Where a model or skeleton map lives as an asset, and how EditableCgm and
 * EditableMap update that after writing it to a file: the asset root (a
 * folder, or a .jar/.zip archive) and the asset path below it, without
 * extension.
 */
module AssetPaths {
  import opened Outcomes
  import opened Text

  datatype AssetSlot = AssetSlot(location: string, baseAssetPath: string)

  /** An asset root that can be written into: a folder, not an archive. */
  predicate IsWritableRoot(root: string) {
    root != "" && !EndsWith(root, ".jar") && !EndsWith(root, ".zip")
  }

  /** assetFolderForWrite: the current asset root if it is a folder, else the
      application's folder for written assets (`writtenDir`). */
  function AssetFolderForWrite(location: string, writtenDir: string): (r: string)
    ensures IsWritableRoot(location) ==> r == location
    ensures !IsWritableRoot(location) ==> r == writtenDir
    ensures IsWritableRoot(writtenDir) ==> IsWritableRoot(r)
  {
    if location == "" || EndsWith(location, ".jar") || EndsWith(location, ".zip") then
      writtenDir
    else
      location
  }

  /** baseFilePathForWrite: the asset path (or a default when there is none)
      under the write folder. File-name normalisation is not modelled. */
  function BaseFilePathForWrite(slot: AssetSlot, assetPath: string, defaultPath: string,
                                writtenDir: string): (r: string)
    ensures StartsWith(r, AssetFolderForWrite(slot.location, writtenDir) + "/")
    ensures assetPath != "" ==> EndsWith(r, "/" + assetPath)
  {
    var folder := AssetFolderForWrite(slot.location, writtenDir);
    var path := if assetPath == "" then defaultPath else assetPath;
    StartsWithConcat(folder + "/", path);
    EndsWithConcat(folder, "/" + path);
    assert folder + "/" + path == folder + ("/" + path);
    folder + "/" + path
  }

  /** Drop one leading "/" from an asset path. */
  function StripOneSlash(path: string): (r: string)
    ensures r == path || "/" + r == path
    ensures StartsWith(path, "/") <==> "/" + r == path
  {
    if StartsWith(path, "/") then Remainder(path, "/") else path
  }

  /** The bookkeeping after a successful write to `baseFilePath`, as in
      EditableCgm.writeToFile: if the file lies under the write folder, that
      folder becomes the asset root; otherwise, if the file name still ends
      with the old asset path, the rest of the name becomes the root;
      otherwise both are forgotten. One leading "/" is then dropped from the
      asset path. */
  function RecordWrite(slot: AssetSlot, baseFilePath: string, writtenDir: string): (r: AssetSlot)
    ensures
      var af := AssetFolderForWrite(slot.location, writtenDir);
      StartsWith(baseFilePath, af) ==> r == AssetSlot(af, StripOneSlash(Remainder(baseFilePath, af)))
    ensures
      var af := AssetFolderForWrite(slot.location, writtenDir);
      !StartsWith(baseFilePath, af) && slot.baseAssetPath != "" && EndsWith(baseFilePath, slot.baseAssetPath) ==>
        r == AssetSlot(RemoveSuffix(baseFilePath, slot.baseAssetPath), StripOneSlash(slot.baseAssetPath))
    ensures
      var af := AssetFolderForWrite(slot.location, writtenDir);
      !StartsWith(baseFilePath, af) && !(slot.baseAssetPath != "" && EndsWith(baseFilePath, slot.baseAssetPath)) ==>
        r == AssetSlot("", "")
    ensures r == AssetSlot("", "") || Reassembles(r, baseFilePath)
  {
    var af := AssetFolderForWrite(slot.location, writtenDir);
    var chosen :=
      if StartsWith(baseFilePath, af) then
        AssetSlot(af, Remainder(baseFilePath, af))
      else if EndsWith(baseFilePath, slot.baseAssetPath) && slot.baseAssetPath != "" then
        AssetSlot(RemoveSuffix(baseFilePath, slot.baseAssetPath), slot.baseAssetPath)
      else
        AssetSlot("", "");
    var r := chosen.(baseAssetPath := StripOneSlash(chosen.baseAssetPath));
    assert r.baseAssetPath != chosen.baseAssetPath ==>
      chosen.location + chosen.baseAssetPath == r.location + "/" + r.baseAssetPath;
    r
  }

  /** The recorded root and asset path name the written file again, joined
      directly or by one "/". */
  predicate Reassembles(slot: AssetSlot, baseFilePath: string) {
    slot.location + slot.baseAssetPath == baseFilePath
    || slot.location + "/" + slot.baseAssetPath == baseFilePath
  }

  /** Writing to the default path keeps the asset root and asset path. */
  lemma WriteToDefaultPathKeepsSlot(slot: AssetSlot, assetPath: string, defaultPath: string,
                                     writtenDir: string)
    requires assetPath != "" && !StartsWith(assetPath, "/")
    ensures
      var af := AssetFolderForWrite(slot.location, writtenDir);
      RecordWrite(slot, BaseFilePathForWrite(slot, assetPath, defaultPath, writtenDir), writtenDir)
        == AssetSlot(af, assetPath)
  {
    var af := AssetFolderForWrite(slot.location, writtenDir);
    var p := BaseFilePathForWrite(slot, assetPath, defaultPath, writtenDir);
    assert p == af + ("/" + assetPath);
    StartsWithConcat(af, "/" + assetPath);
    StartsWithConcat("/", assetPath);
  }

  /** Only one leading "/" is dropped: the recorded asset path still starts
      with "/" only when the written path contains a doubled "/". */
  lemma RecordedPathIsRelative(slot: AssetSlot, baseFilePath: string, writtenDir: string)
    ensures StartsWith(RecordWrite(slot, baseFilePath, writtenDir).baseAssetPath, "/")
      ==> Contains(baseFilePath, "//")
  {
    var af := AssetFolderForWrite(slot.location, writtenDir);
    var path := RecordWrite(slot, baseFilePath, writtenDir).baseAssetPath;
    if StartsWith(path, "/") {
      var i: int;
      if StartsWith(baseFilePath, af) {
        i := |af|;
      } else {
        i := |baseFilePath| - |slot.baseAssetPath|;
      }
      DoubleSlashAt(baseFilePath, i);
    }
  }

  /** A tail that still starts with "/" after one "/" is dropped began
      with "//". */
  lemma DoubleSlashAt(s: string, i: int)
    requires 0 <= i <= |s| && StartsWith(StripOneSlash(s[i..]), "/")
    ensures OccursAt(s, "//", i)
  {
    var rest := s[i..];
    assert StartsWith(rest, "/");
    assert rest[1..][..1] == "/";
    assert s[i..i + 2] == rest[..2];
    assert rest[..2] == "//";
  }

  /** The bookkeeping as EditableMap.writeToFile writes it: the second test
      asks whether the name WITH the ".j3o" extension ends with the old asset
      path, while the root is still cut from the name without it. When that
      cut is impossible (`None`: the name with the extension ends with the
      old asset path but the name without it does not), MyString.removeSuffix
      rejects its argument. */
  function RecordMapWriteAsWritten(slot: AssetSlot, baseFilePath: string, writtenDir: string)
    : (r: Option<AssetSlot>)
    ensures r.Some? && StartsWith(baseFilePath, AssetFolderForWrite(slot.location, writtenDir))
      ==> r.value == RecordWrite(slot, baseFilePath, writtenDir)
    ensures
      var af := AssetFolderForWrite(slot.location, writtenDir);
      var bap := slot.baseAssetPath;
      r.None? <==> !StartsWith(baseFilePath, af) && bap != "" && EndsWith(baseFilePath + ".j3o", bap) && !EndsWith(baseFilePath, bap)
    ensures
      var af := AssetFolderForWrite(slot.location, writtenDir);
      var bap := slot.baseAssetPath;
      !StartsWith(baseFilePath, af) && !(bap != "" && EndsWith(baseFilePath + ".j3o", bap)) ==>
        r == Some(AssetSlot("", ""))
    ensures
      var af := AssetFolderForWrite(slot.location, writtenDir);
      var bap := slot.baseAssetPath;
      !StartsWith(baseFilePath, af) && bap != "" && EndsWith(baseFilePath + ".j3o", bap) && EndsWith(baseFilePath, bap) ==>
        r == Some(AssetSlot(RemoveSuffix(baseFilePath, bap), StripOneSlash(bap)))
  {
    var af := AssetFolderForWrite(slot.location, writtenDir);
    var filePath := baseFilePath + ".j3o";
    if StartsWith(baseFilePath, af) then
      var chosen := AssetSlot(af, Remainder(baseFilePath, af));
      Some(chosen.(baseAssetPath := StripOneSlash(chosen.baseAssetPath)))
    else if EndsWith(filePath, slot.baseAssetPath) && slot.baseAssetPath != "" then
      if EndsWith(baseFilePath, slot.baseAssetPath) then
        var chosen := AssetSlot(RemoveSuffix(baseFilePath, slot.baseAssetPath), slot.baseAssetPath);
        Some(chosen.(baseAssetPath := StripOneSlash(chosen.baseAssetPath)))
      else
        None
    else
      Some(AssetSlot("", ""))
  }

  /** Outside the write folder, an asset path that does not end in 'o' (the
      last letter of ".j3o") can never match, so the map forgets where it
      lives even when the written file keeps its old asset path. */
  lemma MapWriteForgetsSlot(slot: AssetSlot, baseFilePath: string, writtenDir: string)
    requires !StartsWith(baseFilePath, AssetFolderForWrite(slot.location, writtenDir))
    requires slot.baseAssetPath != "" && slot.baseAssetPath[|slot.baseAssetPath| - 1] != 'o'
    ensures RecordMapWriteAsWritten(slot, baseFilePath, writtenDir) == Some(AssetSlot("", ""))
  {
    var filePath := baseFilePath + ".j3o";
    assert filePath[|filePath| - 1] == 'o';
  }

  /** A concrete case: a map loaded from the archive "/jars/maps.jar" with
      asset path "Maps/Puppet", written to "/home/Maps/Puppet". */
  lemma MapWriteExample()
    ensures var slot := AssetSlot("/jars/maps.jar", "Maps/Puppet");
      && RecordMapWriteAsWritten(slot, "/home/Maps/Puppet", "/w") == Some(AssetSlot("", ""))
      && RecordWrite(slot, "/home/Maps/Puppet", "/w") == AssetSlot("/home/", "Maps/Puppet")
  {
    var slot := AssetSlot("/jars/maps.jar", "Maps/Puppet");
    ExampleOutsideWriteFolder();
    MapWriteForgetsSlot(slot, "/home/Maps/Puppet", "/w");
    ExampleKeepsAssetPath();
  }

  /** The example's file lies outside the write folder. */
  lemma ExampleOutsideWriteFolder()
    ensures !StartsWith("/home/Maps/Puppet", AssetFolderForWrite("/jars/maps.jar", "/w"))
  {
    assert EndsWith("/jars/maps.jar", ".jar");
    assert "/home/Maps/Puppet"[1] == 'h';
  }

  /** The example's file ends with its asset path, which does not start
      with "/". */
  lemma ExampleKeepsAssetPath()
    ensures EndsWith("/home/Maps/Puppet", "Maps/Puppet")
    ensures RemoveSuffix("/home/Maps/Puppet", "Maps/Puppet") == "/home/"
    ensures StripOneSlash("Maps/Puppet") == "Maps/Puppet"
  {
    assert "/home/Maps/Puppet" == "/home/" + "Maps/Puppet";
    EndsWithConcat("/home/", "Maps/Puppet");
    assert "Maps/Puppet"[..1][0] == 'M';
  }
}

=== FILE: axes_status.dfy ===
/**
 * AxesStatus: the options of the axes visualisation — which set of axes is
 * shown, the line width, and whether the depth test hides them.
 */
module AxesStatus {
  import opened Outcomes

  /** Float.MAX_VALUE, the upper end of the accepted line widths. */
  const FloatMax: real := 340282346638528859811704183484516925440.0

  /** The five display modes. */
  predicate IsMode(name: string) {
    name == "bone" || name == "model" || name == "none" || name == "spatial" || name == "world"
  }

  datatype AxesStatus = AxesStatus(depthTest: bool, lineWidth: real, mode: string)
  {
    /** The documented field ranges: a width of at least one pixel and one of
        the five modes. */
    predicate Valid() {
      1.0 <= lineWidth <= FloatMax && IsMode(mode)
    }
  }

  /** A new AxesStatus: no depth test, 4-pixel lines, bone axes. */
  function Defaults(): (a: AxesStatus)
    ensures a.Valid()
    ensures !a.depthTest && a.lineWidth == 4.0 && a.mode == "bone"
  {
    AxesStatus(false, 4.0, "bone")
  }

  /** setDepthTestFlag */
  function SetDepthTest(a: AxesStatus, newState: bool): (r: AxesStatus)
    ensures r.depthTest == newState
    ensures r.lineWidth == a.lineWidth && r.mode == a.mode
    ensures a.Valid() ==> r.Valid()
  {
    a.(depthTest := newState)
  }

  /** setLineWidth: the width must lie between 1 and Float.MAX_VALUE. */
  function SetLineWidth(a: AxesStatus, width: real): (r: Result<AxesStatus>)
    ensures r.Ok? <==> 1.0 <= width <= FloatMax
    ensures r.Err? ==> r.failure == IllegalArgument
    ensures r.Ok? ==> r.value.lineWidth == width && r.value.lineWidth >= 1.0
    ensures r.Ok? ==> r.value.depthTest == a.depthTest && r.value.mode == a.mode
    ensures r.Ok? && a.Valid() ==> r.value.Valid()
  {
    if 1.0 <= width <= FloatMax then Ok(a.(lineWidth := width)) else Err(IllegalArgument)
  }

  /** setMode: exactly the five mode names are accepted; any other name is
      an IllegalArgumentException and the mode stays as it was. */
  function SetMode(a: AxesStatus, modeName: string): (r: Result<AxesStatus>)
    ensures r.Ok? <==> IsMode(modeName)
    ensures r.Err? ==> r.failure == IllegalArgument
    ensures r.Ok? ==> r.value.mode == modeName
    ensures r.Ok? ==> r.value.depthTest == a.depthTest && r.value.lineWidth == a.lineWidth
    ensures r.Ok? && a.Valid() ==> r.value.Valid()
  {
    match modeName
    case "bone" => Ok(a.(mode := modeName))
    case "model" => Ok(a.(mode := modeName))
    case "none" => Ok(a.(mode := modeName))
    case "spatial" => Ok(a.(mode := modeName))
    case "world" => Ok(a.(mode := modeName))
    case _ => Err(IllegalArgument)
  }

  /** getDepthTestFlag reads back the last value set, whatever else is set
      afterwards. */
  lemma DepthTestReadsBack(a: AxesStatus, newState: bool, width: real, modeName: string)
    ensures var d := SetDepthTest(a, newState);
      && (SetLineWidth(d, width).Ok? ==> SetLineWidth(d, width).value.depthTest == newState)
      && (SetMode(d, modeName).Ok? ==> SetMode(d, modeName).value.depthTest == newState)
  {
  }

  /** Every setter keeps the field ranges, so the line width is never below
      one pixel. */
  lemma SettersKeepValid(a: AxesStatus, newState: bool, width: real, modeName: string)
    requires a.Valid()
    ensures SetDepthTest(a, newState).Valid()
    ensures SetLineWidth(a, width).Ok? ==> SetLineWidth(a, width).value.Valid()
    ensures SetMode(a, modeName).Ok? ==> SetMode(a, modeName).value.Valid()
  {
  }

  /** Setting a mode twice is the same as setting it once. */
  lemma SetModeIdempotent(a: AxesStatus, modeName: string)
    requires IsMode(modeName)
    ensures SetMode(SetMode(a, modeName).value, modeName) == SetMode(a, modeName)
  {
  }
}

=== FILE: bullet_debug.dfy ===
/**
 * BulletDebug: how the physics debug display keeps one debug node per
 * displayed physics object. On each update, every kind of physics object
 * (rigid bodies, ghosts, characters, joints, vehicles) is reconciled in
 * turn: objects still in the space keep their node, new ones the filter
 * accepts get a new node attached under the debug root, and the nodes of
 * objects gone from the space are detached.
 *
 * Nodes are numbered in creation order, so a new node is one numbered at
 * or past `nextNode`; the debug root's children are a set of numbers. The
 * physics objects are of one type `O` for all five kinds, and the space's
 * lists (each naming an object once, as the space's own maps guarantee)
 * are parameters. Debug controls, materials, rendering and logging are not
 * modelled.
 */
module BulletDebug {
  import opened Outcomes
  import opened Lists

  type Node = nat

  /** Whether the display shows a new object: with no filter every object is
      shown, otherwise the filter decides. */
  predicate Shows<O>(filter: Option<O -> bool>, o: O) {
    filter.None? || filter.value(o)
  }

  /** No two objects share a node. */
  predicate Injective<O>(links: map<O, Node>) {
    forall a, b :: a in links && b in links && a != b ==> links[a] != links[b]
  }

  /** Every node is numbered below `next`. */
  predicate Below(nodes: set<Node>, next: Node) {
    forall n :: n in nodes ==> n < next
  }

  /** The nodes numbered from `lo` up to, but not including, `hi`. */
  function Range(lo: Node, hi: Node): (r: set<Node>)
    ensures forall n :: n in r <==> lo <= n < hi
    decreases hi - lo
  {
    if hi <= lo then {} else Range(lo, hi - 1) + {hi - 1}
  }

  /** One more node at the top of a range. */
  lemma RangeStep(lo: Node, hi: Node)
    requires lo <= hi
    ensures Range(lo, hi + 1) == Range(lo, hi) + {hi}
  {
  }

  /** The entries of objects that are no longer in the space. */
  function Leftovers<O(!new)>(links: map<O, Node>, current: seq<O>): (r: map<O, Node>)
    ensures r.Keys <= links.Keys
    ensures forall o :: o in r <==> o in links && o !in current
    ensures forall o :: o in r ==> r[o] == links[o]
    ensures r.Values <= links.Values
  {
    map o | o in links && o !in current :: links[o]
  }

  /** What one reconciliation promises about the new map: it holds exactly
      the current objects that were mapped before or that the filter shows,
      the ones mapped before keep their node, and the others get new
      nodes. */
  ghost predicate Reconciled<O(!new)>(before: map<O, Node>, current: seq<O>, filter: Option<O -> bool>,
                          links: map<O, Node>, next: Node, next': Node)
  {
    && (forall o :: o in links <==> o in current && (o in before || Shows(filter, o)))
    && (forall o :: o in links && o in before ==> links[o] == before[o])
    && (forall o :: o in links && o !in before ==> next <= links[o] < next')
  }

  /** updateRigidBodies and its four twins: one pass over the current
      objects, moving each known object's node from the old map to the new
      one and creating, attaching and mapping a node for each new object the
      filter shows; then every node left in the old map is detached. */
  method Reconcile<O(==,!new)>(before: map<O, Node>, current: seq<O>, filter: Option<O -> bool>,
                          attached: set<Node>, next: Node)
    returns (links: map<O, Node>, attached': set<Node>, next': Node)
    requires Distinct(current)
    requires Injective(before) && Below(before.Values, next)
    ensures next <= next'
    ensures Reconciled(before, current, filter, links, next, next')
    ensures Injective(links) && Below(links.Values, next')
    ensures links.Values == (before.Values - Leftovers(before, current).Values) + Range(next, next')
    ensures attached' == (attached - Leftovers(before, current).Values) + Range(next, next')
  {
    var leftovers: map<O, Node>, added: set<Node>;
    links, leftovers, added, next' := Pass(before, current, filter, attached, next);
    attached' := added - leftovers.Values;
    KeptNotLeftover(before, current, links, next, next');
    KeptAll(before, current, links, leftovers);
  }

  /** The pass over the current objects, before the leftovers are detached:
      `leftovers` is what remains of the old map and `added` the root's
      children with the new nodes attached. */
  method Pass<O(==,!new)>(before: map<O, Node>, current: seq<O>, filter: Option<O -> bool>,
                          attached: set<Node>, next: Node)
    returns (links: map<O, Node>, leftovers: map<O, Node>, added: set<Node>, next': Node)
    requires Distinct(current)
    requires Injective(before) && Below(before.Values, next)
    ensures next <= next'
    ensures Reconciled(before, current, filter, links, next, next')
    ensures Injective(links)
    ensures Range(next, next') <= links.Values
    ensures leftovers == Leftovers(before, current)
    ensures added == attached + Range(next, next')
  {
    var oldObjects := before;
    links := map[];
    added := attached;
    next' := next;
    var i := 0;
    while i < |current|
      invariant 0 <= i <= |current|
      invariant Visited(before, current, filter, attached, next, i, oldObjects, links, added, next')
    {
      oldObjects, links, added, next' :=
        Visit(before, current, filter, attached, next, i, oldObjects, links, added, next');
      i := i + 1;
    }
    assert current[..i] == current;
    leftovers := oldObjects;
  }

  /** The state of the pass after the first `i` current objects. */
  ghost predicate Visited<O(!new)>(before: map<O, Node>, current: seq<O>, filter: Option<O -> bool>,
                                   attached: set<Node>, next: Node, i: int, oldObjects: map<O, Node>,
                                   links: map<O, Node>, added: set<Node>, next': Node)
    requires 0 <= i <= |current|
  {
    && OldTracked(before, current[..i], oldObjects)
    && LinksTracked(before, current[..i], filter, links, next, next')
    && NodesTracked(links, attached, added, next, next')
  }

  /** The old map has lost exactly the objects seen so far. */
  ghost predicate OldTracked<O(!new)>(before: map<O, Node>, seen: seq<O>, oldObjects: map<O, Node>) {
    && (forall o :: o in oldObjects <==> o in before && o !in seen)
    && (forall o :: o in oldObjects ==> oldObjects[o] == before[o])
  }

  /** The new map holds the objects seen so far that were known or shown,
      known ones with their old node and new ones with a new node. */
  ghost predicate LinksTracked<O(!new)>(before: map<O, Node>, seen: seq<O>, filter: Option<O -> bool>,
                                        links: map<O, Node>, next: Node, next': Node) {
    && (forall o :: o in links <==> o in seen && (o in before || Shows(filter, o)))
    && (forall o :: o in links && o in before ==> links[o] == before[o])
    && (forall o :: o in links && o !in before ==> next <= links[o] < next')
  }

  /** The nodes so far are distinct, numbered below `next'`, include every
      new node, and the new nodes are attached. */
  ghost predicate NodesTracked<O>(links: map<O, Node>, attached: set<Node>, added: set<Node>,
                                  next: Node, next': Node) {
    && next <= next'
    && Injective(links)
    && Below(links.Values, next')
    && Range(next, next') <= links.Values
    && added == attached + Range(next, next')
  }

  /** The loop body: the `i`th current object keeps its old node, gets a
      new one, or is skipped. */
  method Visit<O(==,!new)>(before: map<O, Node>, current: seq<O>, filter: Option<O -> bool>,
                           attached: set<Node>, next: Node, i: int, oldObjects: map<O, Node>,
                           links: map<O, Node>, added: set<Node>, next': Node)
    returns (oldObjects': map<O, Node>, links': map<O, Node>, added': set<Node>, next'': Node)
    requires Distinct(current) && 0 <= i < |current|
    requires Injective(before) && Below(before.Values, next)
    requires Visited(before, current, filter, attached, next, i, oldObjects, links, added, next')
    ensures Visited(before, current, filter, attached, next, i + 1, oldObjects', links', added', next'')
  {
    var physicsObject := current[i];
    NotYetVisited(current, i);
    var seen := current[..i];
    oldObjects', links', added', next'' := oldObjects, links, added, next';
    if physicsObject in oldObjects {
      var spat := oldObjects[physicsObject];
      links' := links[physicsObject := spat];
      oldObjects' := oldObjects - {physicsObject};
      KeepOld(before, seen, oldObjects, physicsObject);
      KeepLinks(before, seen, filter, links, next, next', physicsObject);
      KeepNodes(before, seen, filter, links, attached, added, next, next', physicsObject);
    } else if filter.None? || filter.value(physicsObject) {
      var node := next';
      next'' := next' + 1;
      links' := links[physicsObject := node];
      added' := added + {node};
      SkipOld(before, seen, oldObjects, physicsObject);
      CreateLinks(before, seen, filter, links, next, next', physicsObject);
      CreateNodes(links, attached, added, next, next', physicsObject);
    } else {
      SkipOld(before, seen, oldObjects, physicsObject);
      SkipLinks(before, seen, filter, links, next, next', physicsObject);
    }
    Advance(before, current, filter, attached, next, i, oldObjects', links', added', next'');
  }

  /** The three parts of the pass's state, established for the objects up
      to and including the `i`th, are its state after `i + 1` objects. */
  lemma Advance<O(!new)>(before: map<O, Node>, current: seq<O>, filter: Option<O -> bool>,
                         attached: set<Node>, next: Node, i: int, oldObjects: map<O, Node>,
                         links: map<O, Node>, added: set<Node>, next': Node)
    requires 0 <= i < |current|
    requires OldTracked(before, current[..i] + [current[i]], oldObjects)
    requires LinksTracked(before, current[..i] + [current[i]], filter, links, next, next')
    requires NodesTracked(links, attached, added, next, next')
    ensures Visited(before, current, filter, attached, next, i + 1, oldObjects, links, added, next')
  {
    assert current[..i + 1] == current[..i] + [current[i]];
  }

  /** The object at `i` is not among those before it. */
  lemma NotYetVisited<O>(current: seq<O>, i: int)
    requires Distinct(current) && 0 <= i < |current|
    ensures current[i] !in current[..i]
    ensures current[..i + 1] == current[..i] + [current[i]]
  {
    forall j | 0 <= j < i
      ensures current[..i][j] != current[i]
    {
      assert current[..i][j] == current[j];
    }
  }

  lemma KeepOld<O(!new)>(before: map<O, Node>, seen: seq<O>, oldObjects: map<O, Node>, o: O)
    requires OldTracked(before, seen, oldObjects) && o in oldObjects
    ensures OldTracked(before, seen + [o], oldObjects - {o})
  {
  }

  lemma SkipOld<O(!new)>(before: map<O, Node>, seen: seq<O>, oldObjects: map<O, Node>, o: O)
    requires OldTracked(before, seen, oldObjects) && o !in oldObjects
    ensures OldTracked(before, seen + [o], oldObjects)
  {
  }

  lemma KeepLinks<O(!new)>(before: map<O, Node>, seen: seq<O>, filter: Option<O -> bool>,
                           links: map<O, Node>, next: Node, next': Node, o: O)
    requires LinksTracked(before, seen, filter, links, next, next') && o in before
    ensures LinksTracked(before, seen + [o], filter, links[o := before[o]], next, next')
  {
  }

  lemma CreateLinks<O(!new)>(before: map<O, Node>, seen: seq<O>, filter: Option<O -> bool>,
                             links: map<O, Node>, next: Node, next': Node, o: O)
    requires LinksTracked(before, seen, filter, links, next, next') && next <= next'
    requires o !in before && Shows(filter, o)
    ensures LinksTracked(before, seen + [o], filter, links[o := next'], next, next' + 1)
  {
  }

  lemma SkipLinks<O(!new)>(before: map<O, Node>, seen: seq<O>, filter: Option<O -> bool>,
                           links: map<O, Node>, next: Node, next': Node, o: O)
    requires LinksTracked(before, seen, filter, links, next, next')
    requires o !in before && !Shows(filter, o)
    ensures LinksTracked(before, seen + [o], filter, links, next, next')
  {
  }

  /** A known object's node is distinct from every node mapped so far. */
  lemma KeepNodes<O(!new)>(before: map<O, Node>, seen: seq<O>, filter: Option<O -> bool>,
                           links: map<O, Node>, attached: set<Node>, added: set<Node>,
                           next: Node, next': Node, o: O)
    requires Injective(before) && Below(before.Values, next)
    requires LinksTracked(before, seen, filter, links, next, next') && o in before && o !in seen
    requires NodesTracked(links, attached, added, next, next')
    ensures NodesTracked(links[o := before[o]], attached, added, next, next')
  {
    var spat := before[o];
    assert spat in before.Values;
    forall p | p in links
      ensures links[p] != spat
    {
      if p in before {
        assert p != o;
      }
    }
    ValuesAdd(links, o, spat);
  }

  /** A new node is numbered past every node so far. */
  lemma CreateNodes<O>(links: map<O, Node>, attached: set<Node>, added: set<Node>,
                       next: Node, next': Node, o: O)
    requires NodesTracked(links, attached, added, next, next') && o !in links
    ensures NodesTracked(links[o := next'], attached, added + {next'}, next, next' + 1)
  {
    RangeStep(next, next');
    ValuesAdd(links, o, next');
  }

  /** Mapping a new key adds its value to the values. */
  lemma ValuesAdd<K, V>(m: map<K, V>, k: K, v: V)
    requires k !in m
    ensures m[k := v].Values == m.Values + {v}
  {
    var m' := m[k := v];
    forall x | x in m.Values
      ensures x in m'.Values
    {
      var j :| j in m && m[j] == x;
      assert m'[j] == x;
    }
    assert m'[k] == v;
  }

  /** Every node of an object that stays in the space is still mapped. */
  lemma KeptAll<O(!new)>(before: map<O, Node>, current: seq<O>, links: map<O, Node>,
                         leftovers: map<O, Node>)
    requires leftovers == Leftovers(before, current)
    requires forall o :: o in before && o in current ==> o in links && links[o] == before[o]
    ensures before.Values - leftovers.Values <= links.Values
  {
    forall n | n in before.Values - leftovers.Values
      ensures n in links.Values
    {
      var o :| o in before && before[o] == n;
      assert links[o] == n;
    }
  }

  /** The nodes of the new map are old nodes of objects still present or
      new nodes, and new nodes are never among the detached ones. */
  lemma KeptNotLeftover<O(!new)>(before: map<O, Node>, current: seq<O>, links: map<O, Node>,
                           next: Node, next': Node)
    requires Injective(before) && Below(before.Values, next) && next <= next'
    requires forall o :: o in links ==> o in current
    requires forall o :: o in links && o in before ==> links[o] == before[o]
    requires forall o :: o in links && o !in before ==> next <= links[o] < next'
    ensures links.Values <= (before.Values - Leftovers(before, current).Values) + Range(next, next')
    ensures Below(links.Values, next')
    ensures Range(next, next') !! Leftovers(before, current).Values
  {
    var left := Leftovers(before, current);
    forall n | n in links.Values
      ensures n in (before.Values - left.Values) + Range(next, next') && n < next'
    {
      var o :| o in links && links[o] == n;
      if o in before {
        assert n in before.Values;
        assert n !in left.Values by {
          forall p | p in left
            ensures left[p] != n
          {
            assert p != o;
          }
        }
      }
    }
  }

  // ----- the five kinds -----------------------------------------------------

  /** The physics space's lists, in the order update reconciles them:
      rigid bodies, ghosts, characters, joints, vehicles. */
  datatype Space<O> = Space(rigidBodies: seq<O>, ghosts: seq<O>, characters: seq<O>,
                            joints: seq<O>, vehicles: seq<O>)
  {
    function Lists(): (r: seq<seq<O>>)
      ensures |r| == 5
    {
      [rigidBodies, ghosts, characters, joints, vehicles]
    }
  }

  /** Each list names an object at most once. */
  predicate ProperSpace<O(==)>(space: Space<O>) {
    forall k :: 0 <= k < |space.Lists()| ==> Distinct(space.Lists()[k])
  }

  /** The debug display: one map per kind, the debug root's children, and
      the number the next new node gets. */
  datatype DebugState<O> = DebugState(bodies: map<O, Node>, ghosts: map<O, Node>,
                                      characters: map<O, Node>, joints: map<O, Node>,
                                      vehicles: map<O, Node>, attached: set<Node>, nextNode: Node)
  {
    function Links(): (r: seq<map<O, Node>>)
      ensures |r| == 5
    {
      [bodies, ghosts, characters, joints, vehicles]
    }

    /** No node serves two objects, of the same kind or not; every node is
        numbered below nextNode; and the root's children are exactly the
        mapped nodes. */
    ghost predicate Valid() {
      LinksValid(Links(), attached, nextNode)
    }
  }

  /** The display before any update: nothing mapped, nothing attached. */
  function Empty<O>(): (s: DebugState<O>)
    ensures s.Valid()
  {
    var s := DebugState(map[], map[], map[], map[], map[], {}, 0);
    assert forall n :: n !in UnionValues(s.Links()) by {
      forall n
        ensures n !in UnionValues(s.Links())
      {
        InUnionValues(s.Links(), n);
      }
    }
    s
  }

  /** The nodes of all the maps. */
  function UnionValues<O>(ls: seq<map<O, Node>>): set<Node> {
    if |ls| == 0 then {} else UnionValues(ls[..|ls| - 1]) + ls[|ls| - 1].Values
  }

  lemma {:induction false} InUnionValues<O>(ls: seq<map<O, Node>>, n: Node)
    ensures n in UnionValues(ls) <==> exists k :: 0 <= k < |ls| && n in ls[k].Values
  {
    if |ls| > 0 {
      var front := ls[..|ls| - 1];
      InUnionValues(front, n);
      assert forall k :: 0 <= k < |front| ==> front[k] == ls[k];
    }
  }

  ghost predicate LinksValid<O>(ls: seq<map<O, Node>>, attached: set<Node>, next: Node) {
    && (forall k :: 0 <= k < |ls| ==> Injective(ls[k]) && Below(ls[k].Values, next))
    && (forall k, l :: 0 <= k < l < |ls| ==> ls[k].Values !! ls[l].Values)
    && attached == UnionValues(ls)
  }

  /** Reconciling one kind keeps the display valid: its detached nodes are
      its own, and its new nodes are numbered past every existing node. */
  lemma ReconcileKeepsValid<O>(ls: seq<map<O, Node>>, attached: set<Node>, next: Node, k: int,
                               links: map<O, Node>, left: set<Node>, next': Node)
    requires LinksValid(ls, attached, next) && 0 <= k < |ls| && next <= next'
    requires Injective(links) && left <= ls[k].Values
    requires links.Values == (ls[k].Values - left) + Range(next, next')
    ensures LinksValid(ls[k := links], (attached - left) + Range(next, next'), next')
  {
    var ls' := ls[k := links];
    forall j, l | 0 <= j < l < |ls'|
      ensures ls'[j].Values !! ls'[l].Values
    {
      assert j != k ==> ls'[j] == ls[j];
      assert l != k ==> ls'[l] == ls[l];
    }
    forall n
      ensures n in UnionValues(ls') <==> n in (attached - left) + Range(next, next')
    {
      InUnionValues(ls, n);
      InUnionValues(ls', n);
      if n in (attached - left) + Range(next, next') {
        if n in Range(next, next') {
          assert n in ls'[k].Values;
        } else {
          var j :| 0 <= j < |ls| && n in ls[j].Values;
          assert n in ls'[j].Values;
        }
      }
      if n in UnionValues(ls') {
        var j :| 0 <= j < |ls'| && n in ls'[j].Values;
        if j != k {
          assert n in ls[j].Values;
          assert n !in ls[k].Values;
        }
      }
    }
  }

  /** The nodes of objects gone from the space, over the first `k` kinds. */
  function Detached<O(!new)>(ls: seq<map<O, Node>>, lists: seq<seq<O>>, k: int): set<Node>
    requires 0 <= k <= |ls| && |lists| == |ls|
  {
    if k == 0 then {} else Detached(ls, lists, k - 1) + Leftovers(ls[k - 1], lists[k - 1]).Values
  }

  /** update: reconciles the five kinds in turn. Afterwards each kind's map
      is reconciled with its list, the display is valid again, and the
      root's children are those before minus the nodes of departed objects,
      plus the nodes this update created. */
  method Update<O(==,!new)>(s: DebugState<O>, space: Space<O>, filter: Option<O -> bool>)
    returns (s': DebugState<O>)
    requires s.Valid() && ProperSpace(space)
    ensures s'.Valid() && s.nextNode <= s'.nextNode
    ensures forall k :: 0 <= k < 5 ==>
      Reconciled(s.Links()[k], space.Lists()[k], filter, s'.Links()[k], s.nextNode, s'.nextNode)
    ensures s'.attached ==
      (s.attached - Detached(s.Links(), space.Lists(), 5)) + Range(s.nextNode, s'.nextNode)
  {
    var ls := s.Links();
    var lists := space.Lists();
    var attached := s.attached;
    var next := s.nextNode;
    var k := 0;
    while k < 5
      invariant 0 <= k <= 5
      invariant UpdatedUpTo(s, lists, filter, ls, attached, next, k)
    {
      ls, attached, next := UpdateKind(s, space, filter, ls, attached, next, k);
      k := k + 1;
    }
    s' := DebugState(ls[0], ls[1], ls[2], ls[3], ls[4], attached, next);
    assert s'.Links() == ls;
  }

  /** The state of update after reconciling the first `k` kinds. */
  ghost predicate UpdatedUpTo<O(!new)>(s: DebugState<O>, lists: seq<seq<O>>, filter: Option<O -> bool>,
                                        ls: seq<map<O, Node>>, attached: set<Node>, next: Node, k: int)
  {
    && 0 <= k <= 5 && |ls| == 5 && |lists| == 5 && s.nextNode <= next
    && LinksValid(ls, attached, next)
    && (forall j :: k <= j < 5 ==> ls[j] == s.Links()[j])
    && (forall j :: 0 <= j < k ==> Reconciled(s.Links()[j], lists[j], filter, ls[j], s.nextNode, next))
    && attached == (s.attached - Detached(s.Links(), lists, k)) + Range(s.nextNode, next)
  }

  /** One step of update: reconcile the `k`th kind. */
  method UpdateKind<O(==,!new)>(s: DebugState<O>, space: Space<O>, filter: Option<O -> bool>,
                                ls: seq<map<O, Node>>, attached: set<Node>, next: Node, k: int)
    returns (ls': seq<map<O, Node>>, attached': set<Node>, next': Node)
    requires s.Valid() && ProperSpace(space) && 0 <= k < 5
    requires UpdatedUpTo(s, space.Lists(), filter, ls, attached, next, k)
    ensures UpdatedUpTo(s, space.Lists(), filter, ls', attached', next', k + 1)
  {
    var lists := space.Lists();
    var links;
    links, attached', next' := Reconcile(ls[k], lists[k], filter, attached, next);
    var left := Leftovers(ls[k], lists[k]).Values;
    ReconcileKeepsValid(ls, attached, next, k, links, left, next');
    DetachedStep(s, lists, k, attached, next, left, next');
    ReconciledWiden(s, lists, filter, ls, k, links, next, next');
    ls' := ls[k := links];
  }

  /** The children after one more kind: its leftovers are old nodes, below
      every new node. */
  lemma DetachedStep<O(!new)>(s: DebugState<O>, lists: seq<seq<O>>, k: int, attached: set<Node>,
                              next: Node, left: set<Node>, next': Node)
    requires s.Valid() && |lists| == 5 && 0 <= k < 5 && s.nextNode <= next <= next'
    requires left == Leftovers(s.Links()[k], lists[k]).Values
    requires attached == (s.attached - Detached(s.Links(), lists, k)) + Range(s.nextNode, next)
    ensures (attached - left) + Range(next, next') ==
      (s.attached - Detached(s.Links(), lists, k + 1)) + Range(s.nextNode, next')
  {
    assert Below(s.Links()[k].Values, s.nextNode);
  }

  /** The kinds already reconciled stay reconciled as the node count grows,
      and the kind just reconciled joins them. */
  lemma ReconciledWiden<O(!new)>(s: DebugState<O>, lists: seq<seq<O>>, filter: Option<O -> bool>,
                                 ls: seq<map<O, Node>>, k: int, links: map<O, Node>,
                                 next: Node, next': Node)
    requires |lists| == 5 && |ls| == 5 && 0 <= k < 5 && s.nextNode <= next <= next'
    requires ls[k] == s.Links()[k]
    requires forall j :: 0 <= j < k ==> Reconciled(s.Links()[j], lists[j], filter, ls[j], s.nextNode, next)
    requires Reconciled(ls[k], lists[k], filter, links, next, next')
    ensures forall j :: 0 <= j < k + 1 ==>
      Reconciled(s.Links()[j], lists[j], filter, ls[k := links][j], s.nextNode, next')
  {
  }
}

=== FILE: ddd_menus.dfy ===
/**
 * DddMenus: the popup menus of the "3D View" screen — which menu paths its
 * handlers accept, the file-browser menu, the prefix of a folder's menu,
 * and the bone-child menu. Each handler's switch is modelled by the items
 * and prefix routes it recognises; what a handled item then does (a dialog,
 * a tool, a model call) is not modelled.
 */
module DddMenus {
  import opened Outcomes
  import opened Text
  import opened MenuPath

  /** The menus of the menu bar. */
  const TopMenus: seq<string> :=
    ["Animation", "Bone", "CGM", "Help", "Keyframe", "Physics", "Settings", "Spatial", "View"]

  // ----- the submenu handlers ----------------------------------------------

  const AnimationMenu: Menu := Items(["Delete", "Duration", "Load", "Load source",
    "New from copy", "New from pose", "New from retarget", "Reduce", "Rename",
    "Source tool", "Tool"])

  const BoneSelectMenu: Menu := Items(["By name", "By parent", "Child", "Mapped", "Next",
    "Parent", "Previous", "Root", "With track"])

  const BoneMenu: Menu := Menu(
    [Route("Select" + Separator, BoneSelectMenu),
     Route("Select source" + Separator, Items(["Mapped", "Root"]))],
    ["Rename", "Rotate", "Scale", "Select", "Select source", "Tool", "Translate"])

  /** The Load submenu of both the source and the target model. */
  const LoadCgmMenu: Menu := Items(["Asset", "File", "Testdata"])

  const CgmMenu: Menu := Menu(
    [Route("Mapping" + Separator, Items(["Invert", "Load", "Save", "Tool", "Twist tool", "Unload"])),
     Route("Source" + Separator, Menu([Route("Load" + Separator, LoadCgmMenu)], ["Load", "Unload"])),
     Route("Target" + Separator, Menu([Route("Load" + Separator, LoadCgmMenu)],
                                      ["Load", "Save as asset", "Save as file", "Tool"]))],
    ["History", "Mapping", "Source", "Target"])

  const HelpMenu: Menu := Items(["About Maud", "JME3 homepage", "License", "Source"])

  const KeyframeMenu: Menu := Items(["Reduce", "Select first", "Select last", "Select next",
    "Select previous", "Tool"])

  const SettingsMenu: Menu := Items(["Hotkeys"])

  const SpatialMenu: Menu := Menu(
    [Route("Add control" + Separator, Items(["Anim", "RigidBody", "Skeleton"])),
     Route("Select" + Separator, Items(["By name", "Child", "Geometry", "Parent", "Root"]))],
    ["Add control", "Control tool", "Delete control", "Rotate", "Scale", "Select",
     "Select control", "Tool", "Translate", "User data tool"])

  /** The View items the handler acts on; the menu also shows "Physics",
      whose case does nothing and so is not handled. */
  const ViewMenu: Menu := Items(["Axes", "Bounds", "Camera", "Cursor", "Platform",
    "Render", "Skeleton", "Skeleton color", "Sky"])

  /** The handler `menu` passes a menu's remainder to; the Physics menu has
      none (its handler is commented out), nor has an unknown menu. */
  function SubmenuHandler(menuName: string): (r: Option<Menu>)
    ensures r.Some? ==> menuName in TopMenus && menuName != "Physics"
    ensures menuName in TopMenus && menuName != "Physics" ==> r.Some?
  {
    match menuName
    case "Animation" => Some(AnimationMenu)
    case "Bone" => Some(BoneMenu)
    case "CGM" => Some(CgmMenu)
    case "Help" => Some(HelpMenu)
    case "Keyframe" => Some(KeyframeMenu)
    case "Settings" => Some(SettingsMenu)
    case "Spatial" => Some(SpatialMenu)
    case "View" => Some(ViewMenu)
    case _ => None
  }

  /** menu: dispatches on the menu name. */
  predicate HandleMenu(menuName: string, remainder: string) {
    match SubmenuHandler(menuName)
    case None => false
    case Some(m) => Handles(m, remainder)
  }

  /** menuBar: a known menu is handled (even when it has no items to show);
      any other name is not. */
  predicate MenuBar(menuName: string) {
    menuName in TopMenus
  }

  /** selectMenuItem: a path without separator opens a menu-bar menu;
      otherwise the menu named before the first separator handles the rest. */
  predicate SelectMenuItem(menuPath: string) {
    match SplitPath(menuPath)
    case MenuBar(name) => MenuBar(name)
    case Submenu(menuName, remainder) => HandleMenu(menuName, remainder)
  }

  /** Only paths that start at a known menu are handled, and none below the
      Physics menu. */
  lemma HandledPathsStartAtKnownMenus(menuPath: string)
    ensures SelectMenuItem(menuPath) ==> match SplitPath(menuPath)
      case MenuBar(name) => name in TopMenus
      case Submenu(menuName, _) => menuName in TopMenus && menuName != "Physics"
  {
  }

  /** A known menu-bar name is handled and an unknown one is not. */
  lemma MenuBarExamples()
    ensures SelectMenuItem("View")
    ensures !SelectMenuItem("Edit")
  {
    NoSpaceNoSeparator("View");
    NoSpaceNoSeparator("Edit");
  }

  /** Every path "Bone -> Select -> <item>" reaches the bone-selection
      handler, and is handled exactly when that handler lists the item. */
  lemma BoneSelectPaths(item: string)
    ensures SelectMenuItem("Bone" + Separator + "Select" + Separator + item)
      <==> item in BoneSelectMenu.items
  {
    var rest := "Select" + Separator + item;
    NoSpaceNoSeparator("Bone");
    assert "Bone" + Separator + "Select" + Separator + item == "Bone" + Separator + rest;
    SplitJoined("Bone", rest);
    StartsWithConcat("Select" + Separator, item);
    assert FirstRoute(BoneMenu, 0, rest) == 0;
    HandlesFirstRoute(BoneMenu, rest);
    HandlesFirstRoute(BoneSelectMenu, item);
  }

  /** "Bone -> Select -> Parent" is handled. */
  lemma SelectParentBoneHandled()
    ensures SelectMenuItem("Bone -> Select -> Parent")
  {
    var path := "Bone" + Separator + "Select" + Separator + "Parent";
    assert path == "Bone -> Select -> Parent";
    assert "Parent" in BoneSelectMenu.items;
    BoneSelectPaths("Parent");
  }

  /** "Bone -> Select -> Sibling" is not handled. */
  lemma SelectSiblingBoneNotHandled()
    ensures !SelectMenuItem("Bone -> Select -> Sibling")
  {
    var path := "Bone" + Separator + "Select" + Separator + "Sibling";
    assert path == "Bone -> Select -> Sibling";
    assert "Sibling" !in BoneSelectMenu.items;
    BoneSelectPaths("Sibling");
  }

  /** Every path "View -> <item>" is handled exactly when the View handler
      selects a tool for the item; its "Physics" case selects none. */
  lemma ViewPaths(item: string)
    ensures SelectMenuItem("View" + Separator + item) <==> item in ViewMenu.items
  {
    NoSpaceNoSeparator("View");
    SplitJoined("View", item);
  }

  /** "View -> Physics" is listed by the handler but not handled. */
  lemma ViewPhysicsNotHandled()
    ensures !SelectMenuItem("View -> Physics")
  {
    assert "View" + Separator + "Physics" == "View -> Physics";
    assert "Physics" !in ViewMenu.items;
    ViewPaths("Physics");
  }

  /** Nothing under the Physics menu is handled. */
  lemma PhysicsItemsNotHandled(remainder: string)
    ensures !HandleMenu("Physics", remainder)
  {
  }

  // ----- browsing the filesystem -------------------------------------------

  /** What loadModelFile and loadSourceModelFile do with their argument. */
  datatype FileAction = ShowFolder(menuPrefix: string) | LoadFile | Ignore

  /** The prefix of a folder's menu: the action prefix and the folder path,
      with a "/" appended unless it already ends with one. */
  function FolderMenuPrefix(actionPrefix: string, filePath: string): (r: string)
    ensures EndsWith(r, "/")
    ensures StartsWith(r, actionPrefix + filePath)
    ensures |r| <= |actionPrefix + filePath| + 1
  {
    var prefix := actionPrefix + filePath;
    StartsWithConcat(prefix, "/");
    EndsWithConcat(prefix, "/");
    assert prefix[..|prefix|] == prefix;
    if EndsWith(prefix, "/") then prefix else prefix + "/"
  }

  /** loadModelFile / loadSourceModelFile: a directory shows its menu, a
      readable file is loaded, and anything else is ignored. */
  function LoadModelFile(actionPrefix: string, filePath: string, isDirectory: bool, canRead: bool)
    : (r: FileAction)
    ensures r.ShowFolder? <==> isDirectory
    ensures r.ShowFolder? ==> EndsWith(r.menuPrefix, "/") && StartsWith(r.menuPrefix, actionPrefix + filePath)
    ensures r.LoadFile? <==> !isDirectory && canRead
  {
    if isDirectory then ShowFolder(FolderMenuPrefix(actionPrefix, filePath))
    else if canRead then LoadFile
    else Ignore
  }

  /** Appending the slash happens at most once: a prefix that already ends
      with "/" is kept as it is. */
  lemma FolderMenuPrefixIdempotent(actionPrefix: string, filePath: string)
    ensures var p := FolderMenuPrefix(actionPrefix, filePath);
      FolderMenuPrefix(p, "") == p
  {
    var p := FolderMenuPrefix(actionPrefix, filePath);
    assert p + "" == p;
  }

  /** The kinds of item the menu builder shows (with different icons). */
  datatype ItemKind = Folder | Blend | Jme | Ogre | Plain
  datatype MenuItem = MenuItem(kind: ItemKind, name: string)

  /** How buildFileMenu classifies an entry: tested in the order folder,
      .blend, .j3o, .mesh.xml, and otherwise a plain item. */
  function Classify(e: Entry): (k: ItemKind)
    ensures k == Folder <==> e.isDirectory
    ensures k == Blend <==> !e.isDirectory && EndsWith(e.name, ".blend")
    ensures k == Jme <==> !e.isDirectory && !EndsWith(e.name, ".blend") && EndsWith(e.name, ".j3o")
    ensures k == Ogre <==> !e.isDirectory && !EndsWith(e.name, ".blend") && !EndsWith(e.name, ".j3o")
                           && EndsWith(e.name, ".mesh.xml")
  {
    if e.isDirectory then Folder
    else if EndsWith(e.name, ".blend") then Blend
    else if EndsWith(e.name, ".j3o") then Jme
    else if EndsWith(e.name, ".mesh.xml") then Ogre
    else Plain
  }

  /** buildFileMenu: nothing when the directory cannot be listed; otherwise
      ".." first if the directory has a parent, then one item per entry, in
      listing order. */
  function BuildFileMenu(listing: Option<seq<Entry>>, hasParent: bool): (items: seq<MenuItem>)
    ensures listing.None? ==> items == []
    ensures listing.Some? ==>
      var up := if hasParent then 1 else 0;
      && |items| == up + |listing.value|
      && (hasParent ==> items[0] == MenuItem(Folder, ".."))
      && forall i :: 0 <= i < |listing.value| ==>
           items[up + i] == MenuItem(Classify(listing.value[i]), listing.value[i].name)
  {
    match listing
    case None => []
    case Some(files) =>
      (if hasParent then [MenuItem(Folder, "..")] else [])
      + seq(|files|, i requires 0 <= i < |files| => MenuItem(Classify(files[i]), files[i].name))
  }

  /** The ".." item shows up exactly when there is a parent: no entry of a
      listing is named "..". */
  lemma ParentItemOnlyWithParent(files: seq<Entry>, hasParent: bool)
    requires forall i :: 0 <= i < |files| ==> files[i].name != ".."
    ensures (exists i :: 0 <= i < |BuildFileMenu(Some(files), hasParent)|
              && BuildFileMenu(Some(files), hasParent)[i].name == "..") <==> hasParent
  {
    var items := BuildFileMenu(Some(files), hasParent);
    if hasParent {
      assert items[0].name == "..";
    } else {
      forall i | 0 <= i < |items|
        ensures items[i].name != ".."
      {
        assert items[i].name == files[i].name;
      }
    }
  }

  // ----- selecting a child bone ------------------------------------------

  /** What selectBoneChild(argument) does. */
  datatype BoneChildAction = SelectBone(boneName: string) | ShowChildren(parentName: string)

  /** selectBoneChild: an argument starting with "!" selects the bone named
      by the rest; any other argument is a bone whose children are shown. */
  function SelectBoneChild(argument: string): (r: BoneChildAction)
    ensures r.SelectBone? <==> StartsWith(argument, "!")
    ensures r.SelectBone? ==> "!" + r.boneName == argument
    ensures r.ShowChildren? ==> r.parentName == argument
  {
    if StartsWith(argument, "!") then SelectBone(Remainder(argument, "!")) else ShowChildren(argument)
  }

  /** The menu selectBoneChild shows for a bone: the bone itself, marked
      with "!", then its children, the leaves marked with "!". */
  function ChildMenu(argument: string, children: seq<(string, bool)>): (items: seq<string>)
    ensures |items| == |children| + 1 && items[0] == "!" + argument
    ensures forall i :: 0 <= i < |children| ==>
      items[i + 1] == (if children[i].1 then "!" + children[i].0 else children[i].0)
  {
    ["!" + argument] + seq(|children|, i requires 0 <= i < |children| =>
      if children[i].1 then "!" + children[i].0 else children[i].0)
  }

  /** Choosing a marked item of the child menu selects exactly that bone,
      and choosing an unmarked child (a name without "!") opens its own
      child menu. */
  lemma ChildMenuChoices(argument: string, children: seq<(string, bool)>, i: int)
    requires 0 <= i <= |children|
    ensures var items := ChildMenu(argument, children);
      && (i == 0 ==> SelectBoneChild(items[0]) == SelectBone(argument))
      && (i > 0 && children[i - 1].1 ==> SelectBoneChild(items[i]) == SelectBone(children[i - 1].0))
      && (i > 0 && !children[i - 1].1 && !StartsWith(children[i - 1].0, "!") ==>
            SelectBoneChild(items[i]) == ShowChildren(children[i - 1].0))
  {
    StartsWithConcat("!", argument);
    if i > 0 {
      StartsWithConcat("!", children[i - 1].0);
    }
  }
}

=== FILE: edit_state.dfy ===
/**
 * Unsaved-edit accounting, as kept by EditableCgm and EditableMap: a count of
 * edits since the last load or write, and the subject of the continuous edit
 * in progress. A continuous edit (dragging a spatial, a physics object, a
 * shape size or a bone twist) counts once however many updates it makes,
 * until a checkpoint, a discrete edit or an edit of another subject ends it.
 */
module EditState {
  import opened Outcomes

  datatype EditState<K> = EditState(count: nat, continuing: Option<K>)

  /** What a continuous edit of a C-G model is about. EditableCgm encodes the
      subject as a two-letter prefix ("pp", "ss", "st") before the object's
      name; distinct prefixes make that encoding injective, so a datatype
      stands for it here. */
  datatype CgmSubject =
    | PhysicsPosition(physicsObject: string)  // "pp" + object name
    | ShapeSize(shapeId: int)                 // "ss" + shape description
    | SpatialTransform(spatial: nat)          // "st" + selected spatial

  /** setPristine: nothing unsaved, no continuous edit. */
  function Pristine<K>(): (e: EditState<K>)
    ensures e.count == 0 && e.continuing.None?
  {
    EditState(0, None)
  }

  /** setEdited: one more edit, and any continuous edit is over. */
  function Discrete<K>(e: EditState<K>): (r: EditState<K>)
    ensures r.count == e.count + 1 && r.continuing.None?
  {
    EditState(e.count + 1, None)
  }

  /** setEditedPhysicsPosition, setEditedShapeSize, setEditedSpatialTransform
      and EditableMap.setEditedTwist: an update of the subject already being
      edited continuously is free; any other starts a new counted edit. */
  function Continuous<K(==)>(e: EditState<K>, subject: K): (r: EditState<K>)
    ensures r.continuing == Some(subject)
    ensures r.count == if e.continuing == Some(subject) then e.count else e.count + 1
  {
    if e.continuing == Some(subject) then e else EditState(e.count + 1, Some(subject))
  }

  /** preCheckpoint and EditableMap.onCheckpoint: the continuous edit ends,
      the count stays. */
  function Checkpoint<K>(e: EditState<K>): (r: EditState<K>)
    ensures r.count == e.count && r.continuing.None?
  {
    EditState(e.count, None)
  }

  /** Whether anything is unsaved. */
  predicate IsModified<K>(e: EditState<K>) {
    e.count > 0
  }

  /** `n` consecutive updates of one subject. */
  function Drag<K(==)>(e: EditState<K>, subject: K, n: nat): (r: EditState<K>)
    decreases n
  {
    if n == 0 then e else Drag(Continuous(e, subject), subject, n - 1)
  }

  /** A drag of any length counts as one edit, or none if it continues the
      edit already in progress. */
  lemma {:induction false} DragCountsOnce<K>(e: EditState<K>, subject: K, n: nat)
    requires n >= 1
    ensures Drag(e, subject, n).continuing == Some(subject)
    ensures Drag(e, subject, n).count ==
      if e.continuing == Some(subject) then e.count else e.count + 1
    decreases n
  {
    if n > 1 {
      DragCountsOnce(Continuous(e, subject), subject, n - 1);
    }
  }

  /** A checkpoint splits a drag in two counted edits. */
  lemma CheckpointSplitsDrag<K>(e: EditState<K>, subject: K)
    requires e.continuing != Some(subject)
    ensures Continuous(Checkpoint(Continuous(e, subject)), subject).count == e.count + 2
    ensures Continuous(Continuous(e, subject), subject).count == e.count + 1
  {
  }

  /** Alternating between two subjects counts every update. */
  lemma AlternatingSubjectsCountEach<K>(e: EditState<K>, a: K, b: K)
    requires a != b && e.continuing != Some(a)
    ensures Continuous(Continuous(Continuous(e, a), b), a).count == e.count + 3
  {
  }

  /** After a write or load, nothing is unsaved until the next edit, and any
      edit makes the model modified again. */
  lemma PristineThenEdit<K>(subject: K)
    ensures !IsModified(Pristine<K>())
    ensures IsModified(Discrete(Pristine<K>()))
    ensures IsModified(Continuous(Pristine<K>(), subject))
  {
  }
}

=== FILE: editable_cgm.dfy ===
/**
 * EditableCgm: a loaded C-G model (computer-graphics model) that the editor
 * may change, with its unsaved-edit accounting.
 *
 * The scene graph is abstracted to the list of its spatials with the
 * properties the editor sets, the skeleton to its bone names, and the
 * selected S-G control and physics object to the flags and values the
 * setters touch. The selection itself (SelectedSpatial, SelectedBone and the
 * rest) is a position in those lists.
 */
module EditableCgm {
  import opened Outcomes
  import opened Text
  import opened Geometry
  import opened EditState
  import AssetPaths
  import EditableMap
  import SelectedShape

  /** Spatial.BatchHint */
  datatype BatchHint = BatchInherit | BatchAlways | BatchNever

  /** Spatial.CullHint */
  datatype CullHint = CullInherit | CullDynamic | CullAlways | CullNever

  /** RenderQueue.Bucket */
  datatype Bucket = BucketInherit | Opaque | Sky | Transparent | Translucent | Gui

  /** RenderQueue.ShadowMode */
  datatype ShadowMode = ShadowOff | Cast | Receive | CastAndReceive | ShadowInherit

  /** What the editor sets on a spatial. `isGeometry` tells a Geometry from
      a Node. */
  datatype Spatial = Spatial(
    name: string,
    batch: BatchHint,
    cull: CullHint,
    bucket: Bucket,
    shadow: ShadowMode,
    isGeometry: bool,
    ignoreTransform: bool,
    transform: Transform)

  /** What MyControl reports and sets for the selected S-G control. */
  datatype Control = Control(canApplyLocal: bool, applyLocal: bool, canDisable: bool, enabled: bool)

  /** RigidBodyParameter */
  datatype RigidBodyParameter =
    | AngularDamping | AngularSleep | Friction | GravityX | GravityY | GravityZ
    | LinearDamping | LinearSleep | Mass | Restitution

  /** The selected physics collision object. */
  datatype PhysicsObject = PhysicsObject(
    name: string,
    isRigidBody: bool,
    parameters: map<RigidBodyParameter, real>,
    location: Vec3,
    orientation: Quat)

  datatype Cgm = Cgm(
    bones: seq<string>,
    selectedBone: Option<nat>,
    spatials: seq<Spatial>,
    selectedSpatial: nat,
    sgc: Option<Control>,
    physicsObject: Option<PhysicsObject>,
    animationTime: real,
    edits: EditState<CgmSubject>,
    slot: AssetPaths.AssetSlot,
    extension: string)
  {
    /** The selections name existing bones and spatials. */
    predicate Valid() {
      && selectedSpatial < |spatials|
      && (selectedBone.Some? ==> selectedBone.value < |bones|)
    }
  }

  /** hasBone */
  predicate HasBone(c: Cgm, name: string) {
    name in c.bones
  }

  /** hasSpatial: some spatial of the scene graph has this name. */
  predicate HasSpatial(c: Cgm, name: string) {
    exists i :: 0 <= i < |c.spatials| && c.spatials[i].name == name
  }

  /** No two bones share a name. */
  predicate UniqueBoneNames(c: Cgm) {
    forall i, j :: 0 <= i < j < |c.bones| ==> c.bones[i] != c.bones[j]
  }

  /** No two spatials share a name. */
  predicate UniqueSpatialNames(c: Cgm) {
    forall i, j :: 0 <= i < j < |c.spatials| ==> c.spatials[i].name != c.spatials[j].name
  }

  // ----- edit accounting ---------------------------------------------------

  /** preCheckpoint: a continuous edit in progress ends; the next update of
      the same subject counts again. */
  function PreCheckpoint(c: Cgm): (r: Cgm)
    ensures r == c.(edits := r.edits)
    ensures r.edits.count == c.edits.count && r.edits.continuing.None?
    ensures Continuous(r.edits, SpatialTransform(c.selectedSpatial)).count == c.edits.count + 1
  {
    c.(edits := Checkpoint(c.edits))
  }

  /** The outcome of a rename: whether it succeeded, the model, and the
      skeleton map, which follows a bone rename. */
  datatype Renamed<T> = Renamed(success: bool, cgm: Cgm, skeletonMap: EditableMap.EditableMap<T>)

  /** renameBone: fails with nothing changed when no bone is selected, when
      the new name is empty or the reserved `noBone`, or when a bone already
      has it. Otherwise the result is that of MySkeleton.setName (`nameSet`);
      on success the skeleton map follows the rename and one edit is
      counted. */
  function RenameBone<T>(c: Cgm, em: EditableMap.EditableMap<T>, inverting: bool,
                         newName: string, noBone: string, nameSet: bool): (r: Renamed<T>)
    requires c.Valid()
    ensures r.success <==>
      c.selectedBone.Some? && newName != noBone && newName != "" && !HasBone(c, newName) && nameSet
    ensures !r.success ==> r.cgm == c && r.skeletonMap == em
    ensures r.success ==>
      && r.cgm.Valid()
      && r.cgm.bones == c.bones[c.selectedBone.value := newName]
      && r.cgm.edits == Discrete(c.edits)
      && r.skeletonMap == EditableMap.RenameBone(em, inverting, c.bones[c.selectedBone.value], newName)
  {
    if c.selectedBone.None? || newName == noBone || newName == "" || HasBone(c, newName) || !nameSet then
      Renamed(false, c, em)
    else
      var b := c.selectedBone.value;
      var oldName := c.bones[b];
      Renamed(true, c.(bones := c.bones[b := newName], edits := Discrete(c.edits)),
              EditableMap.RenameBone(em, inverting, oldName, newName))
  }

  /** A successful bone rename keeps bone names unique, and renaming back
      restores them, at the cost of a second counted edit. */
  lemma RenameBoneBack<T>(c: Cgm, em: EditableMap.EditableMap<T>, inverting: bool,
                          newName: string, noBone: string)
    requires c.Valid() && UniqueBoneNames(c) && c.selectedBone.Some?
    requires c.bones[c.selectedBone.value] != noBone && c.bones[c.selectedBone.value] != ""
    requires RenameBone(c, em, inverting, newName, noBone, true).success
    ensures var once := RenameBone(c, em, inverting, newName, noBone, true);
      && UniqueBoneNames(once.cgm)
      && var back := RenameBone(once.cgm, once.skeletonMap, inverting, c.bones[c.selectedBone.value], noBone, true);
      && back.success
      && back.cgm.bones == c.bones
      && back.cgm.edits.count == c.edits.count + 2
  {
    var b := c.selectedBone.value;
    var once := RenameBone(c, em, inverting, newName, noBone, true);
    assert !HasBone(once.cgm, c.bones[b]) by {
      forall i | 0 <= i < |once.cgm.bones|
        ensures once.cgm.bones[i] != c.bones[b]
      {
        if i != b {
          assert c.bones[i] != c.bones[b];
        }
      }
    }
    assert c.bones[b := newName][b := c.bones[b]] == c.bones;
  }

  /** renameSpatial: fails with nothing changed for an empty name or one
      some spatial already has (even the selected one); otherwise renames the
      selected spatial and counts one edit. */
  function RenameSpatial(c: Cgm, newName: string): (r: (bool, Cgm))
    requires c.Valid()
    ensures r.0 <==> newName != "" && !HasSpatial(c, newName)
    ensures !r.0 ==> r.1 == c
    ensures r.0 ==>
      && r.1.Valid()
      && r.1.spatials == c.spatials[c.selectedSpatial := c.spatials[c.selectedSpatial].(name := newName)]
      && r.1.edits == Discrete(c.edits)
      && HasSpatial(r.1, newName)
    ensures r.0 && UniqueSpatialNames(c) ==> UniqueSpatialNames(r.1)
  {
    if newName == "" || HasSpatial(c, newName) then (false, c)
    else
      var sel := c.selectedSpatial;
      var renamed := c.spatials[sel].(name := newName);
      var r := c.(spatials := c.spatials[sel := renamed], edits := Discrete(c.edits));
      assert r.spatials[sel].name == newName;
      (true, r)
  }

  /** `r` is `c` with the selected spatial replaced by `s`: no other
      spatial, no bone, no selection, control, physics object, track time,
      asset slot or extension differs; only the edits may. */
  predicate OnlySelectedSpatial(c: Cgm, r: Cgm, s: Spatial)
    requires c.Valid()
  {
    r == c.(spatials := c.spatials[c.selectedSpatial := s], edits := r.edits)
  }

  /** The edits after a change-only setter: one more discrete edit when the
      property changed, none otherwise. */
  function CountIfChanged(e: EditState<CgmSubject>, changed: bool): EditState<CgmSubject> {
    if changed then Discrete(e) else e
  }

  /** Replace the selected spatial: an edit is counted only when something
      changed. This is the shape of every change-only setter. */
  function ChangeSelected(c: Cgm, s: Spatial): (r: Cgm)
    requires c.Valid()
    ensures r.Valid() && OnlySelectedSpatial(c, r, s)
    ensures r.edits == CountIfChanged(c.edits, s != c.spatials[c.selectedSpatial])
    ensures s == c.spatials[c.selectedSpatial] ==> r == c
  {
    if s == c.spatials[c.selectedSpatial] then
      assert c.spatials[c.selectedSpatial := s] == c.spatials;
      c
    else c.(spatials := c.spatials[c.selectedSpatial := s], edits := Discrete(c.edits))
  }

  /** setBatchHint: the selected spatial's batch hint becomes `hint`; nothing
      else of the model changes, and an edit is counted only for a new hint. */
  function SetBatchHint(c: Cgm, hint: BatchHint): (r: Cgm)
    requires c.Valid()
    ensures r.Valid() && OnlySelectedSpatial(c, r, c.spatials[c.selectedSpatial].(batch := hint))
    ensures r.spatials[c.selectedSpatial].batch == hint
    ensures r.edits == CountIfChanged(c.edits, c.spatials[c.selectedSpatial].batch != hint)
  {
    ChangeSelected(c, c.spatials[c.selectedSpatial].(batch := hint))
  }

  /** setCullHint: the selected spatial's cull hint becomes `hint`; nothing
      else of the model changes, and an edit is counted only for a new hint. */
  function SetCullHint(c: Cgm, hint: CullHint): (r: Cgm)
    requires c.Valid()
    ensures r.Valid() && OnlySelectedSpatial(c, r, c.spatials[c.selectedSpatial].(cull := hint))
    ensures r.spatials[c.selectedSpatial].cull == hint
    ensures r.edits == CountIfChanged(c.edits, c.spatials[c.selectedSpatial].cull != hint)
  {
    ChangeSelected(c, c.spatials[c.selectedSpatial].(cull := hint))
  }

  /** setQueueBucket: the selected spatial's bucket becomes `bucket`; nothing
      else of the model changes, and an edit is counted only for a new
      bucket. */
  function SetQueueBucket(c: Cgm, bucket: Bucket): (r: Cgm)
    requires c.Valid()
    ensures r.Valid() && OnlySelectedSpatial(c, r, c.spatials[c.selectedSpatial].(bucket := bucket))
    ensures r.spatials[c.selectedSpatial].bucket == bucket
    ensures r.edits == CountIfChanged(c.edits, c.spatials[c.selectedSpatial].bucket != bucket)
  {
    ChangeSelected(c, c.spatials[c.selectedSpatial].(bucket := bucket))
  }

  /** setShadowMode: the selected spatial's shadow mode becomes `mode`;
      nothing else of the model changes, and an edit is counted only for a
      new mode. */
  function SetShadowMode(c: Cgm, mode: ShadowMode): (r: Cgm)
    requires c.Valid()
    ensures r.Valid() && OnlySelectedSpatial(c, r, c.spatials[c.selectedSpatial].(shadow := mode))
    ensures r.spatials[c.selectedSpatial].shadow == mode
    ensures r.edits == CountIfChanged(c.edits, c.spatials[c.selectedSpatial].shadow != mode)
  {
    ChangeSelected(c, c.spatials[c.selectedSpatial].(shadow := mode))
  }

  /** setIgnoreTransform: only a geometry has the flag; a node is left alone. */
  function SetIgnoreTransform(c: Cgm, ignore: bool): (r: Cgm)
    requires c.Valid()
    ensures r.Valid()
    ensures !c.spatials[c.selectedSpatial].isGeometry ==> r == c
    ensures c.spatials[c.selectedSpatial].isGeometry ==>
      && OnlySelectedSpatial(c, r, c.spatials[c.selectedSpatial].(ignoreTransform := ignore))
      && r.spatials[c.selectedSpatial].ignoreTransform == ignore
      && r.edits == CountIfChanged(c.edits, c.spatials[c.selectedSpatial].ignoreTransform != ignore)
  {
    var s := c.spatials[c.selectedSpatial];
    if s.isGeometry then ChangeSelected(c, s.(ignoreTransform := ignore)) else c
  }

  /** The change-only setters touch only their own property of the selected
      spatial: every other spatial, every other property of the selected
      one and every other field of the model stay. Setting the same value
      twice is the same as once. */
  lemma HintSettersChangeOnlyTheirProperty(c: Cgm, b: BatchHint, h: CullHint, q: Bucket, m: ShadowMode)
    requires c.Valid()
    ensures forall i :: 0 <= i < |c.spatials| && i != c.selectedSpatial ==>
      && SetBatchHint(c, b).spatials[i] == c.spatials[i]
      && SetCullHint(c, h).spatials[i] == c.spatials[i]
      && SetQueueBucket(c, q).spatials[i] == c.spatials[i]
      && SetShadowMode(c, m).spatials[i] == c.spatials[i]
    ensures var s := c.spatials[c.selectedSpatial];
      && SameButSpatials(SetBatchHint(c, b), c) && SetBatchHint(c, b).spatials[c.selectedSpatial] == s.(batch := b)
      && SameButSpatials(SetCullHint(c, h), c) && SetCullHint(c, h).spatials[c.selectedSpatial] == s.(cull := h)
      && SameButSpatials(SetQueueBucket(c, q), c) && SetQueueBucket(c, q).spatials[c.selectedSpatial] == s.(bucket := q)
      && SameButSpatials(SetShadowMode(c, m), c) && SetShadowMode(c, m).spatials[c.selectedSpatial] == s.(shadow := m)
    ensures SetBatchHint(SetBatchHint(c, b), b) == SetBatchHint(c, b)
    ensures SetCullHint(SetCullHint(c, h), h) == SetCullHint(c, h)
    ensures SetQueueBucket(SetQueueBucket(c, q), q) == SetQueueBucket(c, q)
    ensures SetShadowMode(SetShadowMode(c, m), m) == SetShadowMode(c, m)
  {
    var s := c.spatials[c.selectedSpatial];
    ChangeSelectedTwice(c, s.(batch := b));
    ChangeSelectedTwice(c, s.(cull := h));
    ChangeSelectedTwice(c, s.(bucket := q));
    ChangeSelectedTwice(c, s.(shadow := m));
  }

  /** Every field but the spatials and the edits agrees. */
  predicate SameButSpatials(r: Cgm, c: Cgm) {
    r.(spatials := c.spatials, edits := c.edits) == c
  }

  /** Replacing the selected spatial with the same spatial again changes
      nothing more, and leaves the other spatials and fields alone. */
  lemma ChangeSelectedTwice(c: Cgm, s: Spatial)
    requires c.Valid()
    ensures ChangeSelected(ChangeSelected(c, s), s) == ChangeSelected(c, s)
    ensures forall i :: 0 <= i < |c.spatials| && i != c.selectedSpatial ==>
      ChangeSelected(c, s).spatials[i] == c.spatials[i]
    ensures SameButSpatials(ChangeSelected(c, s), c)
    ensures ChangeSelected(c, s).spatials[c.selectedSpatial] == s
  {
  }

  /** Changing a hint and changing it back restores the spatials but leaves
      two edits to save. */
  lemma HintChangeAndBack(c: Cgm, h: CullHint)
    requires c.Valid() && c.spatials[c.selectedSpatial].cull != h
    ensures var back := SetCullHint(SetCullHint(c, h), c.spatials[c.selectedSpatial].cull);
      back.spatials == c.spatials && back.edits.count == c.edits.count + 2
  {
    var s := c.spatials[c.selectedSpatial];
    assert c.spatials[c.selectedSpatial := s.(cull := h)][c.selectedSpatial := s] == c.spatials;
  }

  /** setApplyPhysicsLocal: only for a control that supports the flag, and
      only a change counts. */
  function SetApplyPhysicsLocal(c: Cgm, setting: bool): (r: Cgm)
    ensures c.sgc.None? || !c.sgc.value.canApplyLocal || c.sgc.value.applyLocal == setting ==> r == c
    ensures c.sgc.Some? && c.sgc.value.canApplyLocal && c.sgc.value.applyLocal != setting ==>
      r == c.(sgc := Some(c.sgc.value.(applyLocal := setting)), edits := Discrete(c.edits))
  {
    match c.sgc
    case Some(sgc) =>
      if sgc.canApplyLocal && sgc.applyLocal != setting then
        c.(sgc := Some(sgc.(applyLocal := setting)), edits := Discrete(c.edits))
      else c
    case None => c
  }

  /** setSgcEnabled: only for a control that can be disabled, and only a
      change counts. */
  function SetSgcEnabled(c: Cgm, setting: bool): (r: Cgm)
    ensures c.sgc.None? || !c.sgc.value.canDisable || c.sgc.value.enabled == setting ==> r == c
    ensures c.sgc.Some? && c.sgc.value.canDisable && c.sgc.value.enabled != setting ==>
      r == c.(sgc := Some(c.sgc.value.(enabled := setting)), edits := Discrete(c.edits))
  {
    match c.sgc
    case Some(sgc) =>
      if sgc.canDisable && sgc.enabled != setting then
        c.(sgc := Some(sgc.(enabled := setting)), edits := Discrete(c.edits))
      else c
    case None => c
  }

  /** setRigidBodyParameter: only a rigid body has the parameters; setting
      one always counts an edit, even when the value is the same. */
  function SetRigidBodyParameter(c: Cgm, p: RigidBodyParameter, value: real): (r: Cgm)
    ensures c.physicsObject.None? || !c.physicsObject.value.isRigidBody ==> r == c
    ensures c.physicsObject.Some? && c.physicsObject.value.isRigidBody ==>
      && r.physicsObject.Some?
      && r.physicsObject.value.parameters == c.physicsObject.value.parameters[p := value]
      && r.physicsObject == Some(c.physicsObject.value.(parameters := r.physicsObject.value.parameters))
      && r.edits == Discrete(c.edits)
      && r == c.(physicsObject := r.physicsObject, edits := r.edits)
  {
    match c.physicsObject
    case Some(obj) =>
      if obj.isRigidBody then
        c.(physicsObject := Some(obj.(parameters := obj.parameters[p := value])),
           edits := Discrete(c.edits))
      else c
    case None => c
  }

  // ----- continuous edits --------------------------------------------------

  /** Replace the selected physics object as a continuous edit of its
      position: nothing else of the model changes. */
  function MovePhysicsObject(c: Cgm, moved: PhysicsObject): (r: Cgm)
    requires c.physicsObject.Some?
    ensures r.physicsObject == Some(moved)
    ensures r.edits == Continuous(c.edits, PhysicsPosition(c.physicsObject.value.name))
    ensures r == c.(physicsObject := r.physicsObject, edits := r.edits)
  {
    c.(physicsObject := Some(moved),
       edits := Continuous(c.edits, PhysicsPosition(c.physicsObject.value.name)))
  }

  /** setPhysicsLocation: a continuous edit of the object's position; only
      its location changes. */
  function SetPhysicsLocation(c: Cgm, location: Vec3): (r: Cgm)
    requires c.physicsObject.Some?
    ensures r.physicsObject == Some(c.physicsObject.value.(location := location))
    ensures r.edits == Continuous(c.edits, PhysicsPosition(c.physicsObject.value.name))
    ensures r == c.(physicsObject := r.physicsObject, edits := r.edits)
  {
    MovePhysicsObject(c, c.physicsObject.value.(location := location))
  }

  /** setPhysicsOrientation: a continuous edit of the object's position;
      only its orientation changes. */
  function SetPhysicsOrientation(c: Cgm, orientation: Quat): (r: Cgm)
    requires c.physicsObject.Some?
    ensures r.physicsObject == Some(c.physicsObject.value.(orientation := orientation))
    ensures r.edits == Continuous(c.edits, PhysicsPosition(c.physicsObject.value.name))
    ensures r == c.(physicsObject := r.physicsObject, edits := r.edits)
  {
    MovePhysicsObject(c, c.physicsObject.value.(orientation := orientation))
  }

  /** Moving and turning a physics object in one drag counts as one edit. */
  lemma MoveThenTurnCountsOnce(c: Cgm, location: Vec3, orientation: Quat)
    requires c.physicsObject.Some?
    ensures SetPhysicsOrientation(SetPhysicsLocation(c, location), orientation).edits.count
      == Continuous(c.edits, PhysicsPosition(c.physicsObject.value.name)).count
  {
  }

  /** Replace the transform of the selected spatial as a continuous edit. */
  function EditTransform(c: Cgm, t: Transform): (r: Cgm)
    requires c.Valid()
    ensures r.Valid() && r.spatials == c.spatials[c.selectedSpatial := c.spatials[c.selectedSpatial].(transform := t)]
    ensures r.edits == Continuous(c.edits, SpatialTransform(c.selectedSpatial))
    ensures r == c.(spatials := r.spatials, edits := r.edits)
  {
    var s := c.spatials[c.selectedSpatial];
    c.(spatials := c.spatials[c.selectedSpatial := s.(transform := t)],
       edits := Continuous(c.edits, SpatialTransform(c.selectedSpatial)))
  }

  /** setSpatialRotation: only the rotation of the selected spatial changes,
      as a continuous transform edit. */
  function SetSpatialRotation(c: Cgm, rotation: Quat): (r: Cgm)
    requires c.Valid()
    ensures r.Valid()
    ensures var s := c.spatials[c.selectedSpatial];
      OnlySelectedSpatial(c, r, s.(transform := s.transform.(rotation := rotation)))
    ensures r.spatials[c.selectedSpatial].transform.rotation == rotation
    ensures r.edits == Continuous(c.edits, SpatialTransform(c.selectedSpatial))
  {
    var t := c.spatials[c.selectedSpatial].transform;
    EditTransform(c, t.(rotation := rotation))
  }

  /** setSpatialScale: every component must be positive; then only the scale
      of the selected spatial changes, as a continuous transform edit. */
  function SetSpatialScale(c: Cgm, scale: Vec3): (r: Result<Cgm>)
    requires c.Valid()
    ensures r.Err? <==> !scale.AllPositive()
    ensures r.Err? ==> r.failure == IllegalArgument
    ensures r.Ok? ==>
      && r.value.Valid()
      && (var s := c.spatials[c.selectedSpatial];
          OnlySelectedSpatial(c, r.value, s.(transform := s.transform.(scale := scale))))
      && r.value.spatials[c.selectedSpatial].transform.scale == scale
      && r.value.edits == Continuous(c.edits, SpatialTransform(c.selectedSpatial))
  {
    if !scale.AllPositive() then Err(IllegalArgument)
    else
      var t := c.spatials[c.selectedSpatial].transform;
      Ok(EditTransform(c, t.(scale := scale)))
  }

  /** setSpatialTranslation: only the translation of the selected spatial
      changes, as a continuous transform edit. */
  function SetSpatialTranslation(c: Cgm, translation: Vec3): (r: Cgm)
    requires c.Valid()
    ensures r.Valid()
    ensures var s := c.spatials[c.selectedSpatial];
      OnlySelectedSpatial(c, r, s.(transform := s.transform.(translation := translation)))
    ensures r.spatials[c.selectedSpatial].transform.translation == translation
    ensures r.edits == Continuous(c.edits, SpatialTransform(c.selectedSpatial))
  {
    var t := c.spatials[c.selectedSpatial].transform;
    EditTransform(c, t.(translation := translation))
  }

  /** Dragging the selected spatial through any number of translations
      counts as a single edit; after a checkpoint the next drag counts again. */
  lemma TranslateDragCountsOnce(c: Cgm, steps: seq<Vec3>)
    requires c.Valid() && |steps| > 0
    requires c.edits.continuing != Some(SpatialTransform(c.selectedSpatial))
    ensures TranslateAll(c, steps).edits.count == c.edits.count + 1
    ensures TranslateAll(c, steps).edits.continuing == Some(SpatialTransform(c.selectedSpatial))
  {
    TranslateAllIsDrag(c, steps);
    DragCountsOnce(c.edits, SpatialTransform(c.selectedSpatial), |steps|);
  }

  /** A sequence of translations of the selected spatial. */
  function TranslateAll(c: Cgm, steps: seq<Vec3>): (r: Cgm)
    requires c.Valid()
    ensures r.Valid() && r.selectedSpatial == c.selectedSpatial
    decreases |steps|
  {
    if |steps| == 0 then c else TranslateAll(SetSpatialTranslation(c, steps[0]), steps[1..])
  }

  lemma {:induction false} TranslateAllIsDrag(c: Cgm, steps: seq<Vec3>)
    requires c.Valid()
    ensures TranslateAll(c, steps).edits == Drag(c.edits, SpatialTransform(c.selectedSpatial), |steps|)
    decreases |steps|
  {
    if |steps| > 0 {
      TranslateAllIsDrag(SetSpatialTranslation(c, steps[0]), steps[1..]);
    }
  }

  /** setShapeParameter: the parameter must be one canSet allows for the
      selected shape (an assertion in the source). A value equal to the
      shape's current one records nothing; otherwise a margin counts a
      discrete edit, even one SelectedShape then refuses to set, and a size
      a continuous edit of the shape selected afterwards, `sizedId`. The
      change to the shape itself is SelectedShape's. */
  function SetShapeParameter(c: Cgm, shape: SelectedShape.ShapeState, p: SelectedShape.Parameter,
                             newValue: real, sizedId: int): (r: Result<Cgm>)
    ensures r.Err? <==> !SelectedShape.CanSet(shape, p)
    ensures r.Err? ==> r.failure == AssertionFailed
    ensures r.Ok? && SelectedShape.GetValue(shape, p) == SelectedShape.Num(newValue) ==> r.value == c
    ensures r.Ok? && SelectedShape.GetValue(shape, p) != SelectedShape.Num(newValue) ==>
      r.value == c.(edits := r.value.edits)
      && r.value.edits == if p.Margin? then Discrete(c.edits) else Continuous(c.edits, ShapeSize(sizedId))
  {
    if !SelectedShape.CanSet(shape, p) then Err(AssertionFailed)
    else if SelectedShape.GetValue(shape, p) == SelectedShape.Num(newValue) then Ok(c)
    else if p.Margin? then Ok(c.(edits := Discrete(c.edits)))
    else Ok(c.(edits := Continuous(c.edits, ShapeSize(sizedId))))
  }

  // ----- animation, load and write ----------------------------------------

  /** replaceAnimation: one edit; the track time is pulled back to the new
      duration when it lies beyond it. */
  function ReplaceAnimation(c: Cgm, duration: real): (r: Cgm)
    ensures r.animationTime <= duration || r.animationTime == c.animationTime
    ensures r.animationTime == if c.animationTime > duration then duration else c.animationTime
    ensures 0.0 <= c.animationTime && 0.0 <= duration ==> 0.0 <= r.animationTime <= duration
    ensures r.edits == Discrete(c.edits)
  {
    var time := if c.animationTime > duration then duration else c.animationTime;
    c.(animationTime := time, edits := Discrete(c.edits))
  }

  /** postLoad: the freshly loaded model is pristine, then each kind of
      repair that touched some track (zeroing the first keyframe time,
      removing repeated keyframes) counts one edit. */
  function PostLoad(c: Cgm, tracksZeroed: nat, tracksDeduplicated: nat): (r: Cgm)
    ensures r.edits.continuing.None?
    ensures r.edits.count == (if tracksZeroed > 0 then 1 else 0) + (if tracksDeduplicated > 0 then 1 else 0)
    ensures IsModified(r.edits) <==> tracksZeroed > 0 || tracksDeduplicated > 0
    ensures r == c.(edits := r.edits)
  {
    var e := Pristine<CgmSubject>();
    var e := if tracksZeroed > 0 then Discrete(e) else e;
    var e := if tracksDeduplicated > 0 then Discrete(e) else e;
    c.(edits := e)
  }

  /** baseFilePathForWrite, with "Models/Untitled/Untitled" for a model that
      has no asset path. */
  function BaseFilePathForWrite(c: Cgm, writtenDir: string): (r: string)
    ensures StartsWith(r, AssetPaths.AssetFolderForWrite(c.slot.location, writtenDir) + "/")
  {
    AssetPaths.BaseFilePathForWrite(c.slot, c.slot.baseAssetPath, "Models/Untitled/Untitled", writtenDir)
  }

  /** writeToFile: the base path must be non-empty. A failed export
      (`exported` false) changes nothing; a successful one records the new
      asset location, makes the extension "j3o" and leaves no unsaved edits. */
  function WriteToFile(c: Cgm, baseFilePath: string, writtenDir: string, exported: bool)
    : (r: Result<(bool, Cgm)>)
    ensures r.Err? <==> baseFilePath == ""
    ensures r.Ok? ==> r.value.0 == exported
    ensures r.Ok? && !exported ==> r.value.1 == c
    ensures r.Ok? && exported ==>
      && !IsModified(r.value.1.edits)
      && r.value.1.edits.continuing.None?
      && r.value.1.extension == "j3o"
      && r.value.1.slot == AssetPaths.RecordWrite(c.slot, baseFilePath, writtenDir)
      && (r.value.1.slot == AssetPaths.AssetSlot("", "")
          || AssetPaths.Reassembles(r.value.1.slot, baseFilePath))
      && r.value.1 == c.(slot := r.value.1.slot, extension := "j3o", edits := r.value.1.edits)
  {
    if baseFilePath == "" then Err(IllegalArgument)
    else if !exported then Ok((false, c))
    else
      var slot := AssetPaths.RecordWrite(c.slot, baseFilePath, writtenDir);
      Ok((true, c.(slot := slot, extension := "j3o", edits := Pristine())))
  }

  /** After any run of edits, a successful write leaves nothing unsaved, and
      the next edit makes the model modified again. */
  lemma WriteThenEdit(c: Cgm, baseFilePath: string, writtenDir: string, hint: CullHint)
    requires c.Valid() && baseFilePath != ""
    requires c.spatials[c.selectedSpatial].cull != hint
    ensures var w := WriteToFile(c, baseFilePath, writtenDir, true).value.1;
      && !IsModified(w.edits)
      && w.Valid()
      && IsModified(SetCullHint(w, hint).edits)
  {
  }
}

=== FILE: editable_map.dfy ===
/**
 * The skeleton map being edited: bone mappings keyed by target-bone name,
 * each naming a source bone and a corrective twist, plus where the map lives
 * as an asset and its unsaved-edit state. The twist rotation is a type
 * parameter `T`; the quaternion arithmetic that estimates, inverts, snaps
 * or cardinalizes a twist is supplied by the caller as functions.
 *
 * A skeleton is given as the set of its bone names, or `None` when the
 * corresponding model has no skeleton selected.
 */
module EditableMap {
  import opened Outcomes
  import opened EditState
  import AssetPaths

  datatype BoneMapping<T> = BoneMapping(source: string, twist: T)

  /** Target-bone name to mapping. */
  type Bones<T> = map<string, BoneMapping<T>>

  datatype EditableMap<T> = EditableMap(
    bones: Bones<T>,
    slot: AssetPaths.AssetSlot,
    edits: EditState<string>)  // the continuous subject is a target-bone name

  /** No source bone is mapped twice: the invariant of a skeleton map. */
  ghost predicate OneToOne<T>(m: Bones<T>) {
    forall t1, t2 :: t1 in m && t2 in m && t1 != t2 ==> m[t1].source != m[t2].source
  }

  /** The source-bone names of a map. */
  function Sources<T>(m: Bones<T>): set<string> {
    set t | t in m :: m[t].source
  }

  // ----- discrete edits ----------------------------------------------------

  /** mapBones: when no mapping is selected and both a source bone and a
      target bone are, drop any mapping of either bone and map the target
      bone to the source bone with the estimated twist. */
  function MapBones<T>(em: EditableMap<T>, mappingSelected: bool, sourceBone: Option<string>,
                       targetBone: Option<string>, estimatedTwist: T): (r: EditableMap<T>)
    requires OneToOne(em.bones)
    ensures OneToOne(r.bones)
    ensures mappingSelected || sourceBone.None? || targetBone.None? ==> r == em
    ensures !mappingSelected && sourceBone.Some? && targetBone.Some? ==>
      var s, t := sourceBone.value, targetBone.value;
      && t in r.bones && r.bones[t] == BoneMapping(s, estimatedTwist)
      && (forall k :: k in r.bones && k != t ==>
            k in em.bones && r.bones[k] == em.bones[k] && em.bones[k].source != s)
      && (forall k :: k in em.bones && k != t && em.bones[k].source != s ==> k in r.bones)
      && r.slot == em.slot
      && r.edits == Discrete(em.edits)
  {
    if !mappingSelected && sourceBone.Some? && targetBone.Some? then
      var s, t := sourceBone.value, targetBone.value;
      var others := map k | k in em.bones && k != t && em.bones[k].source != s :: em.bones[k];
      em.(bones := others[t := BoneMapping(s, estimatedTwist)], edits := Discrete(em.edits))
    else
      em
  }

  /** loadIdentity: map every bone of a skeleton to itself with the identity
      twist, forgetting the asset the map came from. */
  function LoadIdentity<T>(em: EditableMap<T>, skeletonBones: seq<string>, identity: T)
    : (r: EditableMap<T>)
    ensures OneToOne(r.bones)
    ensures r.bones.Keys == set i | 0 <= i < |skeletonBones| :: skeletonBones[i]
    ensures forall t :: t in r.bones ==> r.bones[t] == BoneMapping(t, identity)
    ensures r.slot == AssetPaths.AssetSlot("", "")
    ensures r.edits == Discrete(em.edits)
  {
    var names := set i | 0 <= i < |skeletonBones| :: skeletonBones[i];
    EditableMap(map t | t in names :: BoneMapping(t, identity),
                AssetPaths.AssetSlot("", ""), Discrete(em.edits))
  }

  /** Whether a mapping fits the skeletons: its target bone is in the
      target-side skeleton and its source bone in the source-side one
      (a side without a selected skeleton accepts every name). */
  predicate Fits<T>(m: Bones<T>, t: string, targetSide: Option<set<string>>,
                    sourceSide: Option<set<string>>)
    requires t in m
  {
    (targetSide.None? || t in targetSide.value)
    && (sourceSide.None? || m[t].source in sourceSide.value)
  }

  /** LoadedMap.hasInvalidMappings, which is not part of this model, is taken
      to mean that some mapping does not fit. */
  predicate HasInvalidMappings<T>(m: Bones<T>, targetSide: Option<set<string>>,
                                  sourceSide: Option<set<string>>)
  {
    exists t :: t in m && !Fits(m, t, targetSide, sourceSide)
  }

  /** The skeleton whose bones the map's target names refer to: the target
      model's normally, the source model's when the map is applied inverted. */
  function TargetSide(inverting: bool, sourceSkeleton: Option<set<string>>,
                      targetSkeleton: Option<set<string>>): Option<set<string>>
  {
    if inverting then sourceSkeleton else targetSkeleton
  }

  /** deleteInvalidMappings: when some mapping does not fit, delete exactly
      the mappings that do not fit, as one edit. */
  function DeleteInvalidMappings<T>(em: EditableMap<T>, inverting: bool,
                                    sourceSkeleton: Option<set<string>>,
                                    targetSkeleton: Option<set<string>>): (r: EditableMap<T>)
    ensures
      var ts := TargetSide(inverting, sourceSkeleton, targetSkeleton);
      var ss := TargetSide(!inverting, sourceSkeleton, targetSkeleton);
      && (forall t :: t in r.bones <==> t in em.bones && Fits(em.bones, t, ts, ss))
      && (forall t :: t in r.bones ==> r.bones[t] == em.bones[t])
      && !HasInvalidMappings(r.bones, ts, ss)
      && r.slot == em.slot
      && r.edits == if HasInvalidMappings(em.bones, ts, ss) then Discrete(em.edits) else em.edits
  {
    var ts := TargetSide(inverting, sourceSkeleton, targetSkeleton);
    var ss := TargetSide(!inverting, sourceSkeleton, targetSkeleton);
    if HasInvalidMappings(em.bones, ts, ss) then
      var afterTargets :=
        if ts.Some? then map t | t in em.bones && t in ts.value :: em.bones[t] else em.bones;
      var afterSources :=
        if ss.Some? then map t | t in afterTargets && afterTargets[t].source in ss.value :: afterTargets[t]
        else afterTargets;
      em.(bones := afterSources, edits := Discrete(em.edits))
    else
      em
  }

  /** Deleting invalid mappings twice is the same as once. */
  lemma DeleteInvalidIdempotent<T>(em: EditableMap<T>, inverting: bool,
                                   sourceSkeleton: Option<set<string>>,
                                   targetSkeleton: Option<set<string>>)
    ensures
      var once := DeleteInvalidMappings(em, inverting, sourceSkeleton, targetSkeleton);
      DeleteInvalidMappings(once, inverting, sourceSkeleton, targetSkeleton) == once
  {
  }

  /** Deleting mappings keeps a one-to-one map one-to-one. */
  lemma DeleteInvalidKeepsOneToOne<T>(em: EditableMap<T>, inverting: bool,
                                      sourceSkeleton: Option<set<string>>,
                                      targetSkeleton: Option<set<string>>)
    requires OneToOne(em.bones)
    ensures OneToOne(DeleteInvalidMappings(em, inverting, sourceSkeleton, targetSkeleton).bones)
  {
  }

  /** deleteBoneMapping: delete the selected mapping, if any, as one edit. */
  function DeleteBoneMapping<T>(em: EditableMap<T>, selected: Option<string>): (r: EditableMap<T>)
    requires selected.Some? ==> selected.value in em.bones
    ensures selected.None? ==> r == em
    ensures selected.Some? ==>
      && r.bones.Keys == em.bones.Keys - {selected.value}
      && (forall t :: t in r.bones ==> r.bones[t] == em.bones[t])
      && r.slot == em.slot
      && r.edits == Discrete(em.edits)
  {
    if selected.Some? then
      em.(bones := em.bones - {selected.value}, edits := Discrete(em.edits))
    else
      em
  }

  /** The target bone mapped from source bone `s`, unique in a one-to-one map. */
  function TargetOf<T>(m: Bones<T>, s: string): (t: string)
    requires OneToOne(m) && s in Sources(m)
    ensures t in m && m[t].source == s
  {
    var t :| t in m && m[t].source == s; t
  }

  /** SkeletonMapping.inverse, which is not part of this model, is taken to
      swap the roles of source and target bones and invert each twist. */
  function Inverse<T>(m: Bones<T>, invertTwist: T -> T): (r: Bones<T>)
    requires OneToOne(m)
    ensures OneToOne(r)
    ensures r.Keys == Sources(m)
    ensures forall t :: t in m ==> r[m[t].source] == BoneMapping(t, invertTwist(m[t].twist))
  {
    var r := map s | s in Sources(m) :: BoneMapping(TargetOf(m, s), invertTwist(m[TargetOf(m, s)].twist));
    assert forall t :: t in m ==> m[t].source in Sources(m) && TargetOf(m, m[t].source) == t;
    r
  }

  /** Inverting twice gives the original map back when the twist inversion
      is an involution. */
  lemma InverseInvolution<T>(m: Bones<T>, invertTwist: T -> T)
    requires OneToOne(m)
    requires forall q :: invertTwist(invertTwist(q)) == q
    ensures Inverse(Inverse(m, invertTwist), invertTwist) == m
  {
    var once := Inverse(m, invertTwist);
    var twice := Inverse(once, invertTwist);
    InverseSources(m, invertTwist);
    forall t | t in m
      ensures twice[t] == m[t]
    {
      var s := m[t].source;
      assert once[s] == BoneMapping(t, invertTwist(m[t].twist));
      assert twice[once[s].source] == BoneMapping(s, invertTwist(once[s].twist));
    }
    assert twice.Keys == m.Keys;
  }

  /** The inverse's sources are the original targets. */
  lemma InverseSources<T>(m: Bones<T>, invertTwist: T -> T)
    requires OneToOne(m)
    ensures Sources(Inverse(m, invertTwist)) == m.Keys
  {
    var once := Inverse(m, invertTwist);
    forall t | t in m
      ensures t in Sources(once)
    {
      assert once[m[t].source].source == t;
    }
  }

  /** invert: replace a non-empty map with its inverse, forgetting its asset
      path, as one edit. */
  function Invert<T>(em: EditableMap<T>, invertTwist: T -> T): (r: EditableMap<T>)
    requires OneToOne(em.bones)
    ensures OneToOne(r.bones)
    ensures |em.bones| == 0 ==> r == em
    ensures |em.bones| > 0 ==>
      && r.bones == Inverse(em.bones, invertTwist)
      && r.slot == em.slot.(baseAssetPath := "")
      && r.edits == Discrete(em.edits)
  {
    if |em.bones| > 0 then
      EditableMap(Inverse(em.bones, invertTwist), em.slot.(baseAssetPath := ""), Discrete(em.edits))
    else
      em
  }

  /** unload: an empty map that lives nowhere, as one edit. */
  function Unload<T>(em: EditableMap<T>): (r: EditableMap<T>)
    ensures |r.bones| == 0 && OneToOne(r.bones)
    ensures r.slot == AssetPaths.AssetSlot("", "")
    ensures r.edits == Discrete(em.edits)
  {
    EditableMap(map[], AssetPaths.AssetSlot("", ""), Discrete(em.edits))
  }

  /** SkeletonMapping.renameTargetBone, which is not part of this model, is
      taken to move the mapping of `oldName` to `newName`. */
  function RenameTarget<T>(m: Bones<T>, oldName: string, newName: string): (r: Bones<T>)
    ensures oldName !in m ==> r == m
    ensures oldName in m ==>
      && r.Keys == m.Keys - {oldName} + {newName}
      && r[newName] == m[oldName]
      && forall t :: t in r && t != newName ==> r[t] == m[t]
  {
    if oldName in m then (m - {oldName})[newName := m[oldName]] else m
  }

  /** SkeletonMapping.renameSourceBone, taken to rename every use of
      `oldName` as a source bone. */
  function RenameSource<T>(m: Bones<T>, oldName: string, newName: string): (r: Bones<T>)
    ensures r.Keys == m.Keys
    ensures forall t :: t in r ==>
      r[t] == if m[t].source == oldName then m[t].(source := newName) else m[t]
  {
    map t | t in m :: if m[t].source == oldName then m[t].(source := newName) else m[t]
  }

  /** renameBone: after a target-model bone is renamed, follow the rename on
      the side of the map that names target-model bones. This is not itself
      counted as a map edit. */
  function RenameBone<T>(em: EditableMap<T>, inverting: bool, oldName: string, newName: string)
    : (r: EditableMap<T>)
    ensures r.slot == em.slot && r.edits == em.edits
    ensures !inverting ==> r.bones == RenameTarget(em.bones, oldName, newName)
    ensures inverting ==> r.bones == RenameSource(em.bones, oldName, newName)
    ensures OneToOne(em.bones) && (inverting ==> newName !in Sources(em.bones)) ==> OneToOne(r.bones)
  {
    var bones := if inverting then RenameSource(em.bones, oldName, newName)
                 else RenameTarget(em.bones, oldName, newName);
    EditableMap(bones, em.slot, em.edits)
  }

  // ----- twist edits (continuous) -----------------------------------------

  /** Apply `f` to the twist of the selected mapping; the edit continues any
      twist edit of the same target bone (setEditedTwist). */
  function EditTwist<T>(em: EditableMap<T>, selected: string, f: T -> T, targetBone: string)
    : (r: EditableMap<T>)
    requires selected in em.bones
    ensures r.bones.Keys == em.bones.Keys && selected in r.bones
    ensures r.bones[selected] == em.bones[selected].(twist := f(em.bones[selected].twist))
    ensures forall t :: t in r.bones && t != selected ==> r.bones[t] == em.bones[t]
    ensures r.slot == em.slot && r.edits == Continuous(em.edits, targetBone)
  {
    var bm := em.bones[selected];
    em.(bones := em.bones[selected := bm.(twist := f(bm.twist))],
        edits := Continuous(em.edits, targetBone))
  }

  /** setTwist: the selected mapping's twist becomes the new twist, or its
      inverse when the map is applied inverted. */
  function SetTwist<T>(em: EditableMap<T>, selected: string, newTwist: T, inverting: bool,
                       invertTwist: T -> T, targetBone: string): (r: EditableMap<T>)
    requires selected in em.bones
    ensures selected in r.bones
    ensures r.bones[selected].twist == if inverting then invertTwist(newTwist) else newTwist
    ensures r.bones[selected].source == em.bones[selected].source
    ensures r.bones.Keys == em.bones.Keys
    ensures forall k :: k in em.bones && k != selected ==> r.bones[k] == em.bones[k]
    ensures r.slot == em.slot
    ensures r.edits == Continuous(em.edits, targetBone)
  {
    var effective := if inverting then invertTwist(newTwist) else newTwist;
    EditTwist(em, selected, _ => effective, targetBone)
  }

  /** snapTwist: snap one axis angle of the selected twist; the axis index
      must be 0, 1 or 2. */
  function SnapTwist<T>(em: EditableMap<T>, selected: string, axis: int, snap: (T, int) -> T,
                        targetBone: string): (r: Result<EditableMap<T>>)
    requires selected in em.bones
    ensures r.Err? <==> !(0 <= axis <= 2)
    ensures r.Err? ==> r.failure == IllegalArgument
    ensures r.Ok? ==> r.value == EditTwist(em, selected, q => snap(q, axis), targetBone)
  {
    if 0 <= axis <= 2 then Ok(EditTwist(em, selected, q => snap(q, axis), targetBone))
    else Err(IllegalArgument)
  }

  /** A sequence of twist edits of one target bone (a drag of the twist
      tool) counts as one edit, however many updates it makes. */
  function TwistDrag<T>(em: EditableMap<T>, selected: string, twists: seq<T>, targetBone: string)
    : (r: EditableMap<T>)
    requires selected in em.bones
    ensures r.bones.Keys == em.bones.Keys
    decreases |twists|
  {
    if |twists| == 0 then em
    else TwistDrag(SetTwist(em, selected, twists[0], false, q => q, targetBone), selected,
                   twists[1..], targetBone)
  }

  lemma {:induction false} TwistDragCountsOnce<T>(em: EditableMap<T>, selected: string,
                                                  twists: seq<T>, targetBone: string)
    requires selected in em.bones && |twists| > 0
    ensures var r := TwistDrag(em, selected, twists, targetBone);
      && r.edits.count == (if em.edits.continuing == Some(targetBone) then em.edits.count
                           else em.edits.count + 1)
      && r.bones[selected].twist == twists[|twists| - 1]
    decreases |twists|
  {
    var next := SetTwist(em, selected, twists[0], false, q => q, targetBone);
    if |twists| > 1 {
      TwistDragCountsOnce(next, selected, twists[1..], targetBone);
      assert twists[1..][|twists[1..]| - 1] == twists[|twists| - 1];
    }
  }

  /** onCheckpoint: the next twist edit is counted again. */
  function OnCheckpoint<T>(em: EditableMap<T>): (r: EditableMap<T>)
    ensures r.bones == em.bones && r.slot == em.slot
    ensures r.edits == Checkpoint(em.edits)
  {
    em.(edits := Checkpoint(em.edits))
  }

  // ----- loading and writing ----------------------------------------------

  /** loadAsset and loadNamed: the names must be non-empty; on success the
      map the loader produced (LoadedMap, not part of this model) has no
      unsaved edits, and on failure nothing changes. */
  function Load<T>(em: EditableMap<T>, names: seq<string>, loaded: Option<EditableMap<T>>)
    : (r: Result<EditableMap<T>>)
    ensures r.Err? <==> exists i :: 0 <= i < |names| && names[i] == ""
    ensures r.Ok? && loaded.None? ==> r.value == em
    ensures r.Ok? && loaded.Some? ==>
      r.value.bones == loaded.value.bones && r.value.slot == loaded.value.slot
      && r.value.edits == Pristine()
  {
    if exists i :: 0 <= i < |names| && names[i] == "" then Err(IllegalArgument)
    else if loaded.Some? then Ok(loaded.value.(edits := Pristine()))
    else Ok(em)
  }

  /** writeToFile, with the evidently intended asset bookkeeping (the one
      EditableCgm uses): the base path must be non-empty; a failed write
      changes nothing; a successful one records where the map now lives and
      leaves no unsaved edits. */
  function WriteToFile<T>(em: EditableMap<T>, baseFilePath: string, writtenDir: string,
                          written: bool): (r: Result<EditableMap<T>>)
    ensures r.Err? <==> baseFilePath == ""
    ensures r.Ok? && !written ==> r.value == em
    ensures r.Ok? && written ==>
      && r.value.bones == em.bones
      && r.value.slot == AssetPaths.RecordWrite(em.slot, baseFilePath, writtenDir)
      && !IsModified(r.value.edits)
  {
    if baseFilePath == "" then Err(IllegalArgument)
    else if written then
      Ok(em.(slot := AssetPaths.RecordWrite(em.slot, baseFilePath, writtenDir), edits := Pristine()))
    else Ok(em)
  }

  /** Every discrete map edit keeps the map one-to-one. */
  lemma EditsKeepOneToOne<T>(em: EditableMap<T>, names: seq<string>, identity: T,
                             invertTwist: T -> T, selected: Option<string>)
    requires OneToOne(em.bones)
    requires selected.Some? ==> selected.value in em.bones
    ensures OneToOne(LoadIdentity(em, names, identity).bones)
    ensures OneToOne(Invert(em, invertTwist).bones)
    ensures OneToOne(DeleteBoneMapping(em, selected).bones)
    ensures OneToOne(Unload(em).bones)
  {
  }
}

=== FILE: editor_menus.dfy ===
/**
 * EditorMenus: the menu-path dispatch of the editor screen and the folder
 * menu used to pick asset locations. The menus handled by other classes
 * (Animation, Bone, CGM, Keyframe, Physics, SGC, Spatial, Track, View), the
 * menu bar, and the asset-locations submenu are not part of this model:
 * their handlers are parameters.
 */
module EditorMenus {
  import opened Outcomes
  import opened Text
  import opened MenuPath

  /** The fourteen menus `menu` dispatches on. */
  const Menus: seq<string> := ["Animation", "Bone", "CGM", "Help", "History", "Keyframe", "Map",
    "Physics", "Settings", "SGC", "Spatial", "Track", "Vertex", "View"]

  /** The menus whose handlers live in other classes. */
  const DelegatedMenus: seq<string> :=
    ["Animation", "Bone", "CGM", "Keyframe", "Physics", "SGC", "Spatial", "Track", "View"]

  const HelpMenu: Menu := Items(["About Maud", "JME3 homepage", "License", "Source"])

  const HistoryMenu: Menu := Items(["Clear", "Tool"])

  const MapMenu: Menu := Items(["Delete invalid mappings", "Invert", "Load", "Save", "Tool",
    "Twist tool", "Unload"])

  const SettingsItems: seq<string> := ["Asset locations", "Display-settings tool", "Hotkeys",
    "Revert startup script to default", "Tool", "Tweening", "Update startup script"]

  /** The prefix that routes to the asset-locations submenu. */
  const AssetLocationsPrefix: string := "Asset locations" + Separator

  const VertexSelectMenu: Menu := Items(["By index", "Next", "None", "Previous"])

  const VertexMenu: Menu := Menu([Route("Select" + Separator, VertexSelectMenu)],
    ["Select", "Select geometry", "Tool"])

  /** The handlers this model does not contain. */
  datatype Delegates = Delegates(
    menuBar: string -> bool,               // the menu-bar handler
    other: (string, string) -> bool,       // (menu name, remainder) for DelegatedMenus
    assetLocations: string -> bool)        // the asset-locations submenu

  /** menuSettings: the asset-locations prefix routes the rest to its own
      submenu; otherwise the settings items are handled. */
  predicate HandleSettings(remainder: string, d: Delegates) {
    if StartsWith(remainder, AssetLocationsPrefix) then
      d.assetLocations(Remainder(remainder, AssetLocationsPrefix))
    else remainder in SettingsItems
  }

  /** menu: dispatches on the menu name; any other name is not handled. */
  predicate HandleMenu(menuName: string, remainder: string, d: Delegates) {
    match menuName
    case "Help" => Handles(HelpMenu, remainder)
    case "History" => Handles(HistoryMenu, remainder)
    case "Map" => Handles(MapMenu, remainder)
    case "Settings" => HandleSettings(remainder, d)
    case "Vertex" => Handles(VertexMenu, remainder)
    case _ => menuName in DelegatedMenus && d.other(menuName, remainder)
  }

  /** selectMenuItem: a path without separator goes to the menu bar;
      otherwise the menu named before the first separator handles the rest. */
  predicate SelectMenuItem(menuPath: string, d: Delegates) {
    match SplitPath(menuPath)
    case MenuBar(name) => d.menuBar(name)
    case Submenu(menuName, remainder) => HandleMenu(menuName, remainder, d)
  }

  /** A menu outside the fourteen is never handled, whatever the other
      handlers do. */
  lemma UnknownMenusNotHandled(menuName: string, remainder: string, d: Delegates)
    requires menuName !in Menus
    ensures !HandleMenu(menuName, remainder, d)
  {
  }

  /** Every item starting with the asset-locations prefix goes, without the
      prefix, to the asset-locations submenu. */
  lemma AssetLocationsRouting(rest: string, d: Delegates)
    ensures HandleMenu("Settings", AssetLocationsPrefix + rest, d) == d.assetLocations(rest)
  {
    StartsWithConcat(AssetLocationsPrefix, rest);
  }

  /** Every item "Select -> <item>" of the Vertex menu goes to the
      vertex-selection handler, which handles exactly its own items. */
  lemma VertexSelectRouting(item: string, d: Delegates)
    ensures HandleMenu("Vertex", "Select" + Separator + item, d) <==> item in VertexSelectMenu.items
  {
    var remainder := "Select" + Separator + item;
    StartsWithConcat("Select" + Separator, item);
    assert FirstRoute(VertexMenu, 0, remainder) == 0;
    HandlesFirstRoute(VertexMenu, remainder);
    HandlesFirstRoute(VertexSelectMenu, item);
  }

  // ----- the folder menu ----------------------------------------------------

  /** The entry that adds the folder itself as an asset location. */
  const AddThis: string := "! add this folder"

  /** What a folder-menu entry opens. */
  datatype FileRef = ThisFolder | Listed(entryName: string) | ParentFolder

  /** An entry is offered when its name starts with the prefix typed so
      far and it is a directory, a JAR or a ZIP. */
  predicate Accepted(e: Entry, namePrefix: string) {
    StartsWith(e.name, namePrefix)
      && (e.isDirectory || EndsWith(e.name, ".jar") || EndsWith(e.name, ".zip"))
  }

  /** The names of the accepted entries. */
  function AcceptedNames(listing: seq<Entry>, namePrefix: string): set<string> {
    set i | 0 <= i < |listing| && Accepted(listing[i], namePrefix) :: listing[i].name
  }

  /** Each accepted name mapped to its entry. */
  function ListedMap(names: set<string>): map<string, FileRef> {
    map n | n in names :: Listed(n)
  }

  /** A directory listing names each entry once and never lists "..". */
  predicate ProperListing(listing: seq<Entry>) {
    && (forall i, j :: 0 <= i < j < |listing| ==> listing[i].name != listing[j].name)
    && (forall i :: 0 <= i < |listing| ==> listing[i].name != "..")
  }

  /** The entries of the folder menu, before any clash is detected. */
  function FolderMapOf(isDirectory: bool, namePrefix: string, listing: seq<Entry>, hasParent: bool)
    : map<string, FileRef>
  {
    (if isDirectory then map[AddThis := ThisFolder] else map[])
    + ListedMap(AcceptedNames(listing, namePrefix))
    + (if hasParent && StartsWith("..", namePrefix) then map[".." := ParentFolder] else map[])
  }

  /** folderMap: for a path naming a directory, that directory's entries
      plus "! add this folder", with no name prefix; otherwise the entries
      of the path's parent whose names start with the path's last name.
      The file system's answers are parameters: `parent` is, for a path
      that is not a directory, None when it has no parent and otherwise
      whether that parent is a directory; `listing` lists the folder shown,
      None when it cannot be listed; `hasParent` says whether that folder
      has a parent. A missing parent or an unlistable folder is a null the
      source dereferences; a parent that is not a directory trips its
      assertion, and so does an accepted entry named "! add this folder"
      in a directory's own menu. */
  method FolderMap(isDirectory: bool, fileName: string, parent: Option<bool>, listing: Option<seq<Entry>>,
                   hasParent: bool)
    returns (r: Result<map<string, FileRef>>)
    requires listing.Some? ==> ProperListing(listing.value)
    ensures !isDirectory && parent.None? ==> r == Err(NullPointer)
    ensures !isDirectory && parent == Some(false) ==> r == Err(AssertionFailed)
    ensures (isDirectory || parent == Some(true)) && listing.None? ==> r == Err(NullPointer)
    ensures (isDirectory || parent == Some(true)) && listing.Some? ==>
      var namePrefix := if isDirectory then "" else fileName;
      && (r.Err? <==> isDirectory && AddThis in AcceptedNames(listing.value, namePrefix))
      && (r.Err? ==> r.failure == AssertionFailed)
      && (r.Ok? ==> r.value == FolderMapOf(isDirectory, namePrefix, listing.value, hasParent))
  {
    if !isDirectory && parent.None? {
      return Err(NullPointer);
    }
    if !isDirectory && parent == Some(false) {
      return Err(AssertionFailed);
    }
    if listing.None? {
      return Err(NullPointer);
    }
    var namePrefix := if isDirectory then "" else fileName;
    var base: map<string, FileRef> := if isDirectory then map[AddThis := ThisFolder] else map[];
    r := AddAccepted(isDirectory, namePrefix, listing.value, base);
    if r.Ok? {
      if hasParent && StartsWith("..", namePrefix) {
        UpdateIsMerge(r.value, "..", ParentFolder);
        r := Ok(r.value[".." := ParentFolder]);
      } else {
        MergeNothing(r.value);
      }
    }
  }

  /** Adding one key to a map is merging in the map of that key alone. */
  lemma UpdateIsMerge<K, V>(m: map<K, V>, k: K, v: V)
    ensures m[k := v] == m + map[k := v]
  {
  }

  /** Merging in the empty map changes nothing. */
  lemma MergeNothing<K, V>(m: map<K, V>)
    ensures m + map[] == m
  {
  }

  /** folderMap's loop: each accepted entry of the listing is added under
      its own name, stopping at a name that is already a key. */
  method AddAccepted(isDirectory: bool, namePrefix: string, listing: seq<Entry>,
                     base: map<string, FileRef>)
    returns (r: Result<map<string, FileRef>>)
    requires ProperListing(listing)
    requires base == (if isDirectory then map[AddThis := ThisFolder] else map[])
    ensures r.Err? <==> isDirectory && AddThis in AcceptedNames(listing, namePrefix)
    ensures r.Err? ==> r.failure == AssertionFailed
    ensures r.Ok? ==> r.value == base + ListedMap(AcceptedNames(listing, namePrefix))
  {
    var result := base;
    ghost var seen: set<string> := {};
    var i := 0;
    assert listing[..0] == [];
    while i < |listing|
      invariant 0 <= i <= |listing|
      invariant seen == AcceptedNames(listing[..i], namePrefix)
      invariant result == base + ListedMap(seen)
      invariant !(isDirectory && AddThis in seen)
    {
      var f := listing[i];
      AcceptedNamesStep(listing, i, namePrefix);
      if Accepted(f, namePrefix) {
        if f.name in result {
          NameClash(isDirectory, namePrefix, listing, i, base);
          return Err(AssertionFailed);
        }
        ListedStep(base, seen, f.name);
        result := result[f.name := Listed(f.name)];
        seen := seen + {f.name};
      }
      i := i + 1;
    }
    assert listing[..i] == listing;
    return Ok(result);
  }

  /** The only name an accepted entry can share with an earlier key is
      "! add this folder", and only in a directory's own menu. */
  lemma NameClash(isDirectory: bool, namePrefix: string, listing: seq<Entry>, i: int,
                  base: map<string, FileRef>)
    requires ProperListing(listing) && 0 <= i < |listing|
    requires base == (if isDirectory then map[AddThis := ThisFolder] else map[])
    requires Accepted(listing[i], namePrefix)
    requires listing[i].name in base + ListedMap(AcceptedNames(listing[..i], namePrefix))
    ensures isDirectory && AddThis in AcceptedNames(listing, namePrefix)
  {
    var name := listing[i].name;
    forall j | 0 <= j < i
      ensures listing[..i][j].name != name
    {
      assert listing[..i][j] == listing[j];
    }
    assert name !in AcceptedNames(listing[..i], namePrefix);
    assert name in base;
    assert name in AcceptedNames(listing, namePrefix);
  }

  /** One more entry of the listing adds its name if it is accepted. */
  lemma AcceptedNamesStep(listing: seq<Entry>, i: int, namePrefix: string)
    requires 0 <= i < |listing|
    ensures AcceptedNames(listing[..i + 1], namePrefix) ==
      AcceptedNames(listing[..i], namePrefix) + (if Accepted(listing[i], namePrefix) then {listing[i].name} else {})
  {
    var a, b := listing[..i], listing[..i + 1];
    assert forall j :: 0 <= j < i ==> b[j] == a[j];
    assert b[i] == listing[i];
  }

  /** Adding a name to the map is adding it to the accepted names. */
  lemma ListedStep(base: map<string, FileRef>, names: set<string>, n: string)
    ensures (base + ListedMap(names))[n := Listed(n)] == base + ListedMap(names + {n})
  {
  }

  /** Every entry of the folder menu other than "! add this folder" starts
      with the name prefix, and every listed one is a directory, JAR or
      ZIP of the listing; ".." is there exactly when the folder has a parent
      and ".." starts with the prefix. */
  lemma FolderMapFilters(isDirectory: bool, namePrefix: string, listing: seq<Entry>, hasParent: bool)
    requires ProperListing(listing)
    ensures var m := FolderMapOf(isDirectory, namePrefix, listing, hasParent);
      && (forall k :: k in m && k != AddThis ==> StartsWith(k, namePrefix))
      && (forall k :: k in m && m[k].Listed? ==>
            exists i :: 0 <= i < |listing| && listing[i].name == k && Accepted(listing[i], namePrefix))
      && (".." in m <==> hasParent && StartsWith("..", namePrefix))
      && (isDirectory ==> AddThis in m)
  {
  }
}

=== FILE: geometry.dfy ===
/**
 * jME3 vectors, quaternions and transforms as plain values. Only what the
 * modelled code does with them is modelled: storing components, comparing
 * them, scaling; rotation arithmetic is left to the callers' parameters.
 * Components are reals: single-precision rounding is not modelled.
 */
module Geometry {

  datatype Vec3 = Vec3(x: real, y: real, z: real)
  {
    /** Component-wise product (Vector3f.mult(Vector3f)). */
    function Mult(v: Vec3): Vec3 {
      Vec3(x * v.x, y * v.y, z * v.z)
    }

    /** Vector3f.mult(float) */
    function Scale(s: real): Vec3 {
      Vec3(x * s, y * s, z * s)
    }

    function Plus(v: Vec3): Vec3 {
      Vec3(x + v.x, y + v.y, z + v.z)
    }

    /** All three components are positive (the checks Validate.positive makes). */
    predicate AllPositive() {
      x > 0.0 && y > 0.0 && z > 0.0
    }

    predicate AllNonNegative() {
      x >= 0.0 && y >= 0.0 && z >= 0.0
    }
  }

  const Zero := Vec3(0.0, 0.0, 0.0)
  const Unit := Vec3(1.0, 1.0, 1.0)

  datatype Quat = Quat(w: real, x: real, y: real, z: real)

  const IdentityQuat := Quat(1.0, 0.0, 0.0, 0.0)

  datatype Transform = Transform(translation: Vec3, rotation: Quat, scale: Vec3)

  /** Transform.IDENTITY: no translation, no rotation, unit scale. */
  const IdentityTransform := Transform(Zero, IdentityQuat, Unit)
}

=== FILE: history.dfy ===
/**
 * Maud's undo/redo history: a list of checkpoints (snapshots of the editor
 * state) and the index of the next slot to use. Checkpoints at or past that
 * index are "vulnerable": they can be redone, and the next `add` discards
 * them.
 *
 * A snapshot is a value of the type parameter `C`; taking a snapshot of the
 * live application and restoring one are left to the caller, which receives
 * the checkpoint to restore as the `restored` part of a `Step`.
 */
module History {
  import opened Outcomes

  datatype History<C> = History(checkpoints: seq<C>, nextIndex: nat)
  {
    /** The next slot never lies beyond the end of the list. */
    predicate Valid() {
      nextIndex <= |checkpoints|
    }
  }

  /** The outcome of an undo or redo: the new history and the checkpoint the
      editor must restore, if any. */
  datatype Step<C> = Step(history: History<C>, restored: Option<C>)

  /** The history at start-up, and after `clear`. */
  function Cleared<C>(): (h: History<C>)
    ensures h.Valid() && h.nextIndex == 0 && |h.checkpoints| == 0
  {
    History([], 0)
  }

  /** History.hasVulnerable: some checkpoint can still be redone. */
  predicate HasVulnerable<C>(h: History<C>)
    requires h.Valid()
  {
    |h.checkpoints| - h.nextIndex > 0
  }

  /** History.length: the number of checkpoints kept. */
  function Length<C>(h: History<C>): (n: nat)
    requires h.Valid()
    ensures n >= h.nextIndex
    ensures n > h.nextIndex <==> HasVulnerable(h)
  {
    |h.checkpoints|
  }

  /** History.add: discard every vulnerable checkpoint, then record a new one
      and move past it. */
  function Add<C>(h: History<C>, snapshot: C): (r: History<C>)
    requires h.Valid()
    ensures r.Valid() && !HasVulnerable(r)
    ensures r.nextIndex == h.nextIndex + 1
    ensures r.checkpoints[h.nextIndex] == snapshot
    ensures forall i :: 0 <= i < h.nextIndex ==> r.checkpoints[i] == h.checkpoints[i]
  {
    History(h.checkpoints[..h.nextIndex] + [snapshot], h.nextIndex + 1)
  }

  /** The loop of History.add, which pops the last checkpoint while any is
      vulnerable, computes `Add`. */
  method AddByPopping<C>(h: History<C>, snapshot: C) returns (r: History<C>)
    requires h.Valid()
    ensures r == Add(h, snapshot)
  {
    var kept := h.checkpoints;
    while |kept| - h.nextIndex > 0
      invariant h.nextIndex <= |kept| <= |h.checkpoints|
      invariant kept == h.checkpoints[..|kept|]
      decreases |kept|
    {
      kept := kept[..|kept| - 1];
    }
    r := History(kept + [snapshot], h.nextIndex + 1);
  }

  /** History.undo: with nothing to undo, nothing happens. Otherwise the
      current state is first saved (unless a vulnerable checkpoint already
      holds it), then the index moves back one slot and that slot's
      checkpoint is restored. */
  function Undo<C>(h: History<C>, current: C): (r: Step<C>)
    requires h.Valid()
    ensures r.history.Valid()
    ensures h.nextIndex == 0 ==> r == Step(h, None)
    ensures h.nextIndex > 0 ==>
      && r.history.nextIndex == h.nextIndex - 1
      && r.restored == Some(h.checkpoints[h.nextIndex - 1])
      && r.history.checkpoints ==
           if HasVulnerable(h) then h.checkpoints else h.checkpoints + [current]
  {
    if h.nextIndex > 0 then
      var saved := if HasVulnerable(h) then h.checkpoints else h.checkpoints + [current];
      var back := h.nextIndex - 1;
      Step(History(saved, back), Some(saved[back]))
    else
      Step(h, None)
  }

  /** History.redo as written: if a vulnerable checkpoint exists, restore
      the one AT the index and then move past it; otherwise nothing happens. */
  function RedoAsWritten<C>(h: History<C>): (r: Step<C>)
    requires h.Valid()
    ensures r.history.Valid()
    ensures !HasVulnerable(h) ==> r == Step(h, None)
    ensures HasVulnerable(h) ==>
      && r.history == History(h.checkpoints, h.nextIndex + 1)
      && r.restored == Some(h.checkpoints[h.nextIndex])
  {
    if HasVulnerable(h) then
      Step(History(h.checkpoints, h.nextIndex + 1), Some(h.checkpoints[h.nextIndex]))
    else
      Step(h, None)
  }

  /** An undo followed by a redo returns the index to where it was... */
  lemma UndoThenRedoIndex<C>(h: History<C>, current: C)
    requires h.Valid() && h.nextIndex > 0
    ensures var u := Undo(h, current).history;
      && HasVulnerable(u)
      && RedoAsWritten(u).history.nextIndex == h.nextIndex
  {
  }

  /** ...but the redo restores the very checkpoint the undo restored, so the
      state that was current before the undo does not come back. */
  lemma RedoAfterUndoRepeatsRestore<C>(h: History<C>, current: C)
    requires h.Valid() && h.nextIndex > 0
    ensures var u := Undo(h, current);
      RedoAsWritten(u.history).restored == u.restored
  {
  }

  /** A concrete instance: one checkpoint `0` taken before an edit, current
      state `1`. Undo restores `0`; the following redo restores `0` again. */
  lemma RedoAfterUndoExample()
    ensures var u := Undo(History([0], 1), 1);
      && u.restored == Some(0)
      && RedoAsWritten(u.history).restored == Some(0)
  {
  }

  /** History.redo as evidently intended: after an undo the index names the
      slot holding the state just restored, so redo moves to the following
      slot and restores that one. With no such slot nothing happens. */
  function Redo<C>(h: History<C>): (r: Step<C>)
    requires h.Valid()
    ensures r.history.Valid()
    ensures h.nextIndex + 1 >= |h.checkpoints| ==> r == Step(h, None)
    ensures h.nextIndex + 1 < |h.checkpoints| ==>
      && r.history == History(h.checkpoints, h.nextIndex + 1)
      && r.restored == Some(h.checkpoints[h.nextIndex + 1])
  {
    if h.nextIndex + 1 < |h.checkpoints| then
      Step(History(h.checkpoints, h.nextIndex + 1), Some(h.checkpoints[h.nextIndex + 1]))
    else
      Step(h, None)
  }

  /** With the corrected redo, redo undoes the undo: the index returns to
      where it was and the state that was current at the undo is restored
      (the saved tip, or the checkpoint at the index while navigating). */
  lemma UndoThenRedo<C>(h: History<C>, current: C)
    requires h.Valid() && h.nextIndex > 0
    ensures var u := Undo(h, current).history;
      && Redo(u).history.nextIndex == h.nextIndex
      && Redo(u).restored == Some(if HasVulnerable(h) then h.checkpoints[h.nextIndex] else current)
  {
  }

  /** With the corrected redo, undo undoes the redo exactly: the history is
      back where it was and the checkpoint at the index is restored. */
  lemma RedoThenUndo<C>(h: History<C>, current: C)
    requires h.Valid() && h.nextIndex + 1 < |h.checkpoints|
    ensures var d := Redo(h).history;
      && Undo(d, current).history == h
      && Undo(d, current).restored == Some(h.checkpoints[h.nextIndex])
  {
  }

  /** Undoing right after `add` restores the snapshot just added, and the
      corrected redo brings back the state it replaced. */
  lemma AddThenUndo<C>(h: History<C>, snapshot: C, current: C)
    requires h.Valid()
    ensures var u := Undo(Add(h, snapshot), current);
      && u.restored == Some(snapshot)
      && u.history.nextIndex == h.nextIndex
      && Redo(u.history).restored == Some(current)
  {
  }

  /** `add` discards checkpoints exactly when some are vulnerable: otherwise
      it grows the list by one. */
  lemma AddDiscardsOnlyVulnerable<C>(h: History<C>, snapshot: C)
    requires h.Valid()
    ensures HasVulnerable(h) <==> Length(Add(h, snapshot)) <= Length(h)
    ensures !HasVulnerable(h) ==> Add(h, snapshot).checkpoints == h.checkpoints + [snapshot]
  {
  }

  /** `n` undos in a row, each given the same current state. */
  function UndoTimes<C>(h: History<C>, current: C, n: nat): (r: History<C>)
    requires h.Valid()
    ensures r.Valid()
    decreases n
  {
    if n == 0 then h else UndoTimes(Undo(h, current).history, current, n - 1)
  }

  /** Undoing `n` times moves the index back by `n`, saves the tip at most
      once, and leaves something to redo. */
  lemma {:induction false} UndoTimesMovesBack<C>(h: History<C>, current: C, n: nat)
    requires h.Valid() && n <= h.nextIndex
    ensures UndoTimes(h, current, n).nextIndex == h.nextIndex - n
    ensures |h.checkpoints| <= |UndoTimes(h, current, n).checkpoints| <= |h.checkpoints| + 1
    ensures HasVulnerable(h) ==> UndoTimes(h, current, n).checkpoints == h.checkpoints
    ensures n > 0 ==> HasVulnerable(UndoTimes(h, current, n))
    decreases n
  {
    if n > 0 {
      var u := Undo(h, current).history;
      UndoTimesMovesBack(u, current, n - 1);
      if HasVulnerable(h) {
        assert u.checkpoints == h.checkpoints;
      } else {
        assert HasVulnerable(u);
      }
    }
  }
}

=== FILE: lists.dfy ===
/**
 * java.util.List lookups and the ordered enumeration of a set of ids, as the
 * modelled code uses them.
 */
module Lists {

  /** List.indexOf: the position of the first element equal to `x`, or -1. */
  function IndexOfItem<T(==)>(s: seq<T>, x: T): (r: int)
    ensures r == -1 <==> x !in s
    ensures r != -1 ==> 0 <= r < |s| && s[r] == x
    ensures forall j :: 0 <= j < r ==> s[j] != x
  {
    if |s| == 0 then -1
    else if s[0] == x then 0
    else
      var rest := IndexOfItem(s[1..], x);
      assert forall j :: 1 <= j < |s| ==> s[j] == s[1..][j - 1];
      if rest == -1 then -1 else rest + 1
  }

  /** Every element after another is larger. */
  predicate StrictlyIncreasing(s: seq<int>) {
    forall i, j :: 0 <= i < j < |s| ==> s[i] < s[j]
  }

  /** In a strictly increasing list, `indexOf` finds an element at its own position. */
  lemma IndexOfIncreasing(s: seq<int>, i: int)
    requires StrictlyIncreasing(s) && 0 <= i < |s|
    ensures IndexOfItem(s, s[i]) == i
  {
  }

  /** No element occurs twice. */
  predicate Distinct<T(==)>(s: seq<T>) {
    forall i, j :: 0 <= i < j < |s| ==> s[i] != s[j]
  }

  /** A smaller element in front keeps a list ascending. */
  lemma ConsIncreasing(a: int, t: seq<int>)
    requires StrictlyIncreasing(t) && forall k :: k in t ==> a < k
    ensures StrictlyIncreasing([a] + t)
    ensures forall k :: k in [a] + t <==> k == a || k in t
  {
    var r := [a] + t;
    forall i, j | 0 <= i < j < |r|
      ensures r[i] < r[j]
    {
      assert r[j] == t[j - 1];
      if i > 0 {
        assert r[i] == t[i - 1];
      } else {
        assert t[j - 1] in t;
      }
    }
  }

  /** Insert `x` into an ascending list at its place. */
  function Insert(x: int, t: seq<int>): (r: seq<int>)
    requires StrictlyIncreasing(t) && x !in t
    ensures StrictlyIncreasing(r)
    ensures forall k :: k in r <==> k == x || k in t
    ensures |r| == |t| + 1
  {
    if |t| == 0 then [x]
    else if x < t[0] then
      ConsIncreasing(x, t);
      [x] + t
    else
      var rest := Insert(x, t[1..]);
      assert t == [t[0]] + t[1..];
      ConsIncreasing(t[0], rest);
      [t[0]] + rest
  }

  /** Collections.sort on a list of distinct ids: the same ids, ascending. */
  function SortAscending(s: seq<int>): (r: seq<int>)
    requires Distinct(s)
    ensures StrictlyIncreasing(r)
    ensures forall k :: k in r <==> k in s
    ensures |r| == |s|
  {
    if |s| == 0 then []
    else
      assert s[0] !in s[1..];
      Insert(s[0], SortAscending(s[1..]))
  }
}

=== FILE: loaded_cgm.dfy ===
/**
 * LoadedCgm: a C-G model slot (source or target) and how it is loaded from
 * an asset — which file a named model lives in, how the asset path splits
 * into a base path and an extension, what a failed load leaves behind, and
 * what a successful load selects.
 *
 * The asset manager is not modelled: a load attempt receives its outcome as
 * a parameter (`None` for an asset that failed to load), together with the
 * extension the asset key reports and the root path the locators report.
 */
module LoadedCgm {
  import opened Outcomes
  import opened Text

  /** The asset fields, all null (`None`) while nothing is loaded. */
  datatype AssetInfo = AssetInfo(
    assetLocation: string,   // absolute filesystem path, or "" if unknown
    baseAssetPath: string,   // asset path less extension
    extension: string,
    name: string)

  /** What a load produced: the root's name, its vertex count and the names
      of its real animations, sorted. */
  datatype LoadedRoot = LoadedRoot(rootName: string, vertexCount: nat, animationNames: seq<string>)

  /** Which bones the scene view shows. */
  datatype SceneBones = AllBones | InfluencersOnly | NoBones

  /** The animation loaded into the slot. */
  datatype LoadedAnimation = BindPose | Animation(animationName: string)

  datatype LoadedCgm = LoadedCgm(
    isTarget: bool,
    info: Option<AssetInfo>,
    root: Option<LoadedRoot>,
    boneSelected: bool,
    animation: LoadedAnimation,
    sceneBones: SceneBones)
  {
    /** The asset fields are set exactly when a model is loaded. */
    predicate Valid() {
      info.Some? <==> root.Some?
    }
  }

  // ----- the named models ------------------------------------------------

  /** The models loadNamed knows, in the order of its table. */
  const KnownNames: seq<string> := ["Boat", "Buggy", "Elephant", "Ferrari", "HoverTank",
    "Jaime", "MhGame", "MonkeyHead", "Ninja", "Oto", "Puppet", "Sign Post", "Sword",
    "Sinbad", "SpaceCraft", "Teapot", "Tree"]

  /** The file of a named model, and the folder it lives in. */
  function NamedFile(cgmName: string): (r: Option<(string, string)>)
    ensures cgmName in KnownNames ==> r.Some?
    ensures r.Some? ==> cgmName in KnownNames
    ensures r.Some? && cgmName != "Sword" ==> r.value.0 == cgmName
  {
    match cgmName
    case "Boat" => Some((cgmName, "boat.j3o"))
    case "Buggy" => Some((cgmName, "Buggy.j3o"))
    case "Elephant" => Some((cgmName, "Elephant.mesh.xml"))
    case "Ferrari" => Some((cgmName, "Car.scene"))
    case "HoverTank" => Some((cgmName, "Tank2.mesh.xml"))
    case "Jaime" => Some((cgmName, "Jaime.j3o"))
    case "MhGame" => Some((cgmName, "MhGame.mesh.xml"))
    case "MonkeyHead" => Some((cgmName, "MonkeyHead.mesh.xml"))
    case "Ninja" => Some((cgmName, "Ninja.mesh.xml"))
    case "Oto" => Some((cgmName, "Oto.mesh.xml"))
    case "Puppet" => Some((cgmName, "Puppet.xbuf"))
    case "Sign Post" => Some((cgmName, "Sign Post.mesh.xml"))
    case "Sword" => Some(("Sinbad", "Sword.mesh.xml"))
    case "Sinbad" => Some((cgmName, "Sinbad.mesh.xml"))
    case "SpaceCraft" => Some((cgmName, "Rocket.mesh.xml"))
    case "Teapot" => Some((cgmName, "Teapot.obj"))
    case "Tree" => Some((cgmName, "Tree.mesh.xml"))
    case _ => None
  }

  /** The asset path loadNamed loads: "Models/<folder>/<file>"; an unknown
      name is an IllegalArgumentException. */
  function NamedAssetPath(cgmName: string): (r: Result<string>)
    ensures r.Err? <==> cgmName !in KnownNames
    ensures r.Ok? ==> StartsWith(r.value, "Models/")
    ensures r.Ok? && cgmName != "Sword" ==> StartsWith(r.value, "Models/" + cgmName + "/")
  {
    match NamedFile(cgmName)
    case None => Err(IllegalArgument)
    case Some((folder, file)) =>
      StartsWithConcat("Models/", folder + "/" + file);
      StartsWithConcat("Models/" + folder + "/", file);
      assert "Models/" + folder + "/" + file == ("Models/" + folder + "/") + file;
      Ok("Models/" + folder + "/" + file)
  }

  /** The sword is the one model stored in another model's folder. */
  lemma SwordLivesWithSinbad()
    ensures NamedAssetPath("Sword") == Ok("Models/Sinbad/Sword.mesh.xml")
    ensures NamedAssetPath("Sinbad") == Ok("Models/Sinbad/Sinbad.mesh.xml")
  {
    SwordAndSinbadFiles();
    NamedPath("Sword", "Sinbad", "Sword.mesh.xml");
    NamedPath("Sinbad", "Sinbad", "Sinbad.mesh.xml");
    SinbadPathsText();
  }

  /** The table's entries for the sword and for Sinbad. */
  lemma SwordAndSinbadFiles()
    ensures NamedFile("Sword") == Some(("Sinbad", "Sword.mesh.xml"))
    ensures NamedFile("Sinbad") == Some(("Sinbad", "Sinbad.mesh.xml"))
  {
  }

  /** The two paths in Sinbad's folder, written out. */
  lemma SinbadPathsText()
    ensures "Models/" + "Sinbad" + "/" + "Sword.mesh.xml" == "Models/Sinbad/Sword.mesh.xml"
    ensures "Models/" + "Sinbad" + "/" + "Sinbad.mesh.xml" == "Models/Sinbad/Sinbad.mesh.xml"
  {
  }

  /** The asset path of a name the table lists. */
  lemma NamedPath(cgmName: string, folder: string, file: string)
    requires NamedFile(cgmName) == Some((folder, file))
    ensures NamedAssetPath(cgmName) == Ok("Models/" + folder + "/" + file)
  {
  }

  // ----- base path and extension ------------------------------------------

  /** The key's extension always leaves at least one character (its dot)
      of the path in front of it. */
  predicate ExtensionFits(assetPath: string, ext: string) {
    |ext| == 0 || |ext| < |assetPath|
  }

  /** The asset path less its extension: the whole path for an empty
      extension, otherwise the path less the extension and its dot. */
  function BaseAssetPath(assetPath: string, ext: string): (base: string)
    requires ExtensionFits(assetPath, ext)
    ensures |ext| == 0 ==> base == assetPath
    ensures |ext| > 0 ==> |base| == |assetPath| - |ext| - 1 && StartsWith(assetPath, base)
  {
    if |ext| == 0 then assetPath else assetPath[..|assetPath| - |ext| - 1]
  }

  /** When the path does end with "." and the extension, the split is
      exact: base + "." + extension gives the path back. */
  lemma BaseAndExtensionRejoin(assetPath: string, ext: string)
    requires |ext| > 0 && EndsWith(assetPath, "." + ext)
    ensures ExtensionFits(assetPath, ext)
    ensures BaseAssetPath(assetPath, ext) + "." + ext == assetPath
  {
    var base := BaseAssetPath(assetPath, ext);
    assert assetPath == assetPath[..|base|] + assetPath[|base|..];
    assert assetPath[|base|..] == "." + ext;
  }

  /** Splitting a joined path recovers both halves. */
  lemma SplitJoined(base: string, ext: string)
    requires |ext| > 0
    ensures ExtensionFits(base + "." + ext, ext)
    ensures BaseAssetPath(base + "." + ext, ext) == base
  {
    assert (base + "." + ext)[..|base|] == base;
  }

  // ----- loading ----------------------------------------------------------

  /** An empty slot. */
  function Empty(isTarget: bool): (c: LoadedCgm)
    ensures c.Valid() && c.info.None? && c.root.None?
  {
    LoadedCgm(isTarget, None, None, false, BindPose, AllBones)
  }

  /** postLoad: no bone selected, the bind pose loaded unless the model has
      exactly one animation (which is then loaded), and the scene showing
      all bones of a model without vertices, else only the influencers. */
  function PostLoad(c: LoadedCgm, root: LoadedRoot): (r: LoadedCgm)
    ensures r.root == Some(root) && !r.boneSelected
    ensures r.info == c.info && r.isTarget == c.isTarget
    ensures r.sceneBones == AllBones <==> root.vertexCount == 0
    ensures r.sceneBones == InfluencersOnly <==> root.vertexCount != 0
    ensures |root.animationNames| == 1 ==> r.animation == Animation(root.animationNames[0])
    ensures |root.animationNames| != 1 ==> r.animation == BindPose
  {
    var animation := if |root.animationNames| == 1 then Animation(root.animationNames[0]) else BindPose;
    var bones := if root.vertexCount == 0 then AllBones else InfluencersOnly;
    c.(root := Some(root), boneSelected := false, animation := animation, sceneBones := bones)
  }

  /** loadFromAsset: on success the extension, the base path, the asset
      location (the locators' current root) and the name (the root's) are
      recorded; on failure nothing changes. */
  function LoadFromAsset(c: LoadedCgm, assetPath: string, ext: string, locatorRoot: string,
                         loaded: Option<LoadedRoot>): (r: (Option<LoadedRoot>, LoadedCgm))
    requires ExtensionFits(assetPath, ext)
    ensures r.0 == loaded
    ensures loaded.None? ==> r.1 == c
    ensures loaded.Some? ==>
      r.1 == c.(info := Some(AssetInfo(locatorRoot, BaseAssetPath(assetPath, ext), ext,
                                       loaded.value.rootName)))
  {
    match loaded
    case None => (None, c)
    case Some(root) =>
      var info := AssetInfo(locatorRoot, BaseAssetPath(assetPath, ext), ext, root.rootName);
      (loaded, c.(info := Some(info)))
  }

  /** loadAsset: the root path must be non-empty and so must the asset
      path. A successful load records the root path as the asset location,
      then runs postLoad; a failed one returns false and changes nothing. */
  function LoadAsset(c: LoadedCgm, rootPath: string, assetPath: string, ext: string,
                     locatorRoot: string, loaded: Option<LoadedRoot>): (r: Result<(bool, LoadedCgm)>)
    requires ExtensionFits(assetPath, ext)
    ensures r.Err? <==> rootPath == "" || assetPath == ""
    ensures r.Ok? ==> (r.value.0 <==> loaded.Some?)
    ensures r.Ok? && loaded.None? ==> r.value.1 == c
    ensures r.Ok? && loaded.Some? ==>
      && r.value.1.info.Some?
      && r.value.1.info.value.assetLocation == rootPath
      && r.value.1.info.value.extension == ext
      && r.value.1.info.value.baseAssetPath == BaseAssetPath(assetPath, ext)
      && r.value.1 == PostLoad(r.value.1.(root := c.root, boneSelected := c.boneSelected,
                                          animation := c.animation, sceneBones := c.sceneBones),
                               loaded.value)
    ensures r.Ok? && loaded.Some? ==>
      r.value.1 == PostLoad(c.(info := Some(AssetInfo(rootPath, BaseAssetPath(assetPath, ext), ext,
                                                      loaded.value.rootName))), loaded.value)
    ensures r.Ok? ==> r.value.1.isTarget == c.isTarget
    ensures r.Err? ==> r.failure == IllegalArgument
  {
    if rootPath == "" || assetPath == "" then Err(IllegalArgument)
    else
      var (result, c1) := LoadFromAsset(c, assetPath, ext, locatorRoot, loaded);
      match result
      case None => Ok((false, c1))
      case Some(root) =>
        Ok((true, PostLoad(c1.(info := Some(c1.info.value.(assetLocation := rootPath))), root)))
  }

  /** loadNamed: an unknown name is an IllegalArgumentException; otherwise
      the model's asset path is loaded and, on success, the slot takes the
      requested name (not the root's). */
  function LoadNamed(c: LoadedCgm, cgmName: string, ext: string, locatorRoot: string,
                     loaded: Option<LoadedRoot>): (r: Result<(bool, LoadedCgm)>)
    requires NamedAssetPath(cgmName).Ok? ==> ExtensionFits(NamedAssetPath(cgmName).value, ext)
    ensures r.Err? <==> cgmName !in KnownNames
    ensures r.Ok? ==> (r.value.0 <==> loaded.Some?)
    ensures r.Ok? && loaded.None? ==> r.value.1 == c
    ensures r.Ok? && loaded.Some? ==>
      && r.value.1.info.Some? && r.value.1.info.value.name == cgmName
      && r.value.1.info.value.assetLocation == locatorRoot
      && r.value.1.root == loaded
    ensures r.Ok? && loaded.Some? ==>
      r.value.1 == PostLoad(c.(info := Some(AssetInfo(locatorRoot,
                                                      BaseAssetPath(NamedAssetPath(cgmName).value, ext),
                                                      ext, cgmName))), loaded.value)
    ensures r.Ok? ==> r.value.1.isTarget == c.isTarget
    ensures r.Err? ==> r.failure == IllegalArgument
  {
    match NamedAssetPath(cgmName)
    case Err(e) => Err(e)
    case Ok(assetPath) =>
      var (result, c1) := LoadFromAsset(c, assetPath, ext, locatorRoot, loaded);
      match result
      case None => Ok((false, c1))
      case Some(root) =>
        Ok((true, PostLoad(c1.(info := Some(c1.info.value.(name := cgmName))), root)))
  }

  /** unload: the four asset fields are cleared and the model goes; the
      target slot must never be unloaded. */
  function Unload(c: LoadedCgm): (r: Result<LoadedCgm>)
    ensures r.Err? <==> c.isTarget
    ensures r.Ok? ==> r.value.info.None? && r.value.root.None? && r.value.Valid()
  {
    if c.isTarget then Err(AssertionFailed) else Ok(c.(info := None, root := None))
  }

  /** A successful load leaves a valid, loaded slot, and unloading it (a
      source slot) empties it again. */
  lemma LoadThenUnload(c: LoadedCgm, rootPath: string, assetPath: string, ext: string,
                       locatorRoot: string, root: LoadedRoot)
    requires ExtensionFits(assetPath, ext) && rootPath != "" && assetPath != ""
    requires !c.isTarget
    ensures var r := LoadAsset(c, rootPath, assetPath, ext, locatorRoot, Some(root));
      && r.Ok? && r.value.0 && r.value.1.Valid()
      && Unload(r.value.1).Ok?
      && Unload(r.value.1).value.info.None?
      && Unload(r.value.1).value.root.None?
  {
  }

  /** A failed load, of either kind, changes nothing. */
  lemma FailedLoadChangesNothing(c: LoadedCgm, rootPath: string, assetPath: string,
                                 cgmName: string, ext: string, locatorRoot: string)
    requires ExtensionFits(assetPath, ext)
    requires NamedAssetPath(cgmName).Ok? ==> ExtensionFits(NamedAssetPath(cgmName).value, ext)
    ensures LoadAsset(c, rootPath, assetPath, ext, locatorRoot, None).Ok? ==>
      LoadAsset(c, rootPath, assetPath, ext, locatorRoot, None).value == (false, c)
    ensures LoadNamed(c, cgmName, ext, locatorRoot, None).Ok? ==>
      LoadNamed(c, cgmName, ext, locatorRoot, None).value == (false, c)
  {
  }
}

=== FILE: menu_path.dfy ===
/**
 * Menu paths: a selected menu item is named by its path from the menu bar,
 * with " -> " between levels ("Bone -> Select -> Parent"). Both the 3D-view
 * screen and the editor screen split such a path at its first separator.
 */
module MenuPath {
  import opened Outcomes
  import opened Text

  /** The separator between the levels of a menu path. */
  const Separator: string := " -> "

  /** A path split at its first separator: a bare menu-bar name, or a menu
      name and the rest of the path. */
  datatype Split = MenuBar(name: string) | Submenu(menuName: string, remainder: string)

  /** selectMenuItem's split: no separator means a menu-bar name; otherwise
      the text before the first separator names the menu and the text after
      it is the remainder. */
  function SplitPath(path: string): (r: Split)
    ensures r.MenuBar? <==> !Contains(path, Separator)
    ensures r.MenuBar? ==> r.name == path
    ensures r.Submenu? ==> r.menuName + Separator + r.remainder == path
    ensures r.Submenu? ==> !Contains(r.menuName, Separator)
  {
    var begin := IndexOf(path, Separator);
    if begin == -1 then MenuBar(path)
    else
      var menuName := path[..begin];
      var remainder := path[begin + |Separator|..];
      assert path == menuName + path[begin..begin + |Separator|] + remainder;
      forall j | 0 <= j <= |menuName| - |Separator|
        ensures !OccursAt(menuName, Separator, j)
      {
        assert !OccursAt(path, Separator, j);
        assert menuName[j..j + |Separator|] == path[j..j + |Separator|];
      }
      Submenu(menuName, remainder)
  }

  /** Joining a menu name to a remainder and splitting again gives both
      back, provided the name neither holds a separator nor ends with " ->"
      (which would complete a separator with the joining one's last
      space). */
  lemma SplitJoined(menuName: string, remainder: string)
    requires !Contains(menuName, Separator) && !EndsWith(menuName, " ->")
    ensures SplitPath(menuName + Separator + remainder) == Submenu(menuName, remainder)
  {
    var path := menuName + Separator + remainder;
    var k := |menuName|;
    assert path[k..k + |Separator|] == Separator;
    forall j | 0 <= j < k
      ensures !OccursAt(path, Separator, j)
    {
      if j + |Separator| <= k {
        assert path[j..j + |Separator|] == menuName[j..j + |Separator|];
        assert !OccursAt(menuName, Separator, j);
      } else if j == k - 1 {
        assert path[j..j + |Separator|][1] == path[k] == ' ' != Separator[1];
      } else if j == k - 2 {
        assert path[j..j + |Separator|][2] == path[k] == ' ' != Separator[2];
      } else {
        assert j == k - 3;
        assert path[j..j + |Separator|][..3] == menuName[k - 3..];
        assert menuName[k - 3..] != " ->" == Separator[..3];
      }
    }
    FirstOccurrence(path, Separator, k);
    assert path[..k] == menuName;
    assert path[k + |Separator|..] == remainder;
  }

  /** A name without spaces holds no separator. */
  lemma NoSpaceNoSeparator(name: string)
    requires ' ' !in name
    ensures !Contains(name, Separator) && !EndsWith(name, " ->")
  {
    forall i | 0 <= i <= |name| - |Separator|
      ensures !OccursAt(name, Separator, i)
    {
      assert name[i..i + |Separator|][0] == name[i] != ' ' == Separator[0];
    }
    if |name| >= 3 {
      assert name[|name| - 3..][0] == name[|name| - 3] != ' ';
    }
  }

  /** A name ending in " ->" is where the round trip stops: the joined path
      splits one level early. */
  lemma SplitJoinedExample()
    ensures SplitPath("x ->" + Separator + "y") == Submenu("x", "-> y")
  {
    var path := "x ->" + Separator + "y";
    assert path == "x -> -> y";
    assert OccursAt(path, Separator, 1);
    assert path[0..|Separator|][0] == 'x' != Separator[0];
    FirstOccurrence(path, Separator, 1);
  }

  /** Routing by a prefix such as "Select -> ": the text after the prefix,
      if the item starts with it. */
  function AfterPrefix(item: string, prefix: string): (r: Option<string>)
    ensures r.Some? <==> StartsWith(item, prefix)
    ensures r.Some? ==> prefix + r.value == item
  {
    if StartsWith(item, prefix) then Some(Remainder(item, prefix)) else None
  }

  /** A directory entry, as the file-browsing menus list it. */
  datatype Entry = Entry(name: string, isDirectory: bool)

  // ----- menu handlers -----------------------------------------------------

  /** A menu's handler: prefix routes, tried in order, each passing what
      follows its prefix to a submenu's handler; failing those, the items the
      handler's switch recognises. */
  datatype Menu = Menu(routes: seq<Route>, items: seq<string>)
  datatype Route = Route(prefix: string, submenu: Menu)

  /** A handler without prefix routes. */
  function Items(items: seq<string>): (m: Menu)
    ensures m.routes == [] && m.items == items
  {
    Menu([], items)
  }

  /** Whether the handler handles the not-yet-parsed part of a path. */
  predicate Handles(m: Menu, remainder: string)
    decreases m, |m.routes| + 1
  {
    RouteFrom(m, 0, remainder)
  }

  /** The routing from the `i`-th prefix test on. */
  predicate RouteFrom(m: Menu, i: nat, remainder: string)
    requires i <= |m.routes|
    decreases m, |m.routes| - i
  {
    if i == |m.routes| then remainder in m.items
    else if StartsWith(remainder, m.routes[i].prefix) then
      assert m.routes[i] in m.routes;
      Handles(m.routes[i].submenu, Remainder(remainder, m.routes[i].prefix))
    else RouteFrom(m, i + 1, remainder)
  }

  /** The first route whose prefix the remainder starts with, from the
      `i`-th on, or -1 if there is none. */
  function FirstRoute(m: Menu, i: nat, remainder: string): (k: int)
    requires i <= |m.routes|
    ensures k == -1 || (i <= k < |m.routes| && StartsWith(remainder, m.routes[k].prefix))
    ensures forall j :: i <= j < |m.routes| && (k == -1 || j < k) ==>
      !StartsWith(remainder, m.routes[j].prefix)
    decreases |m.routes| - i
  {
    if i == |m.routes| then -1
    else if StartsWith(remainder, m.routes[i].prefix) then i
    else FirstRoute(m, i + 1, remainder)
  }

  /** The first matching prefix wins: its submenu decides; with no matching
      prefix, the handler handles exactly its own items. */
  lemma {:induction false} RouteFromFirst(m: Menu, i: nat, remainder: string)
    requires i <= |m.routes|
    ensures var k := FirstRoute(m, i, remainder);
      && (k == -1 ==> (RouteFrom(m, i, remainder) <==> remainder in m.items))
      && (k != -1 ==> (RouteFrom(m, i, remainder) <==>
            Handles(m.routes[k].submenu, Remainder(remainder, m.routes[k].prefix))))
    decreases |m.routes| - i
  {
    if i < |m.routes| && !StartsWith(remainder, m.routes[i].prefix) {
      RouteFromFirst(m, i + 1, remainder);
    }
  }

  /** A handler handles a remainder exactly when its first matching route's
      submenu handles the rest, or, with no matching route, when the
      remainder is one of its items; in particular an unrecognised remainder
      is not handled. */
  lemma HandlesFirstRoute(m: Menu, remainder: string)
    ensures var k := FirstRoute(m, 0, remainder);
      && (k == -1 ==> (Handles(m, remainder) <==> remainder in m.items))
      && (k != -1 ==> (Handles(m, remainder) <==>
            Handles(m.routes[k].submenu, Remainder(remainder, m.routes[k].prefix))))
  {
    RouteFromFirst(m, 0, remainder);
  }
}

=== FILE: misc_status.dfy ===
/**
 * MiscStatus: assorted editor options — the axis being dragged, the platform
 * under the model, the angle display unit, and the selected user-data key.
 * The user-data keys of the selected spatial are passed in as a list, in the
 * order listUserKeys gives them.
 */
module MiscStatus {
  import opened Outcomes
  import opened Geometry
  import opened Lists
  import Arith

  datatype MiscStatus = MiscStatus(
    anglesInDegrees: bool,
    dragSourceCgm: bool,      // true: the source model's axes, false: the target's
    dragFarSide: bool,
    shadowsRendered: bool,
    skyRendered: bool,
    platformDiameter: real,
    dragAxisIndex: int,       // -1 when no axis is dragged
    platformMode: string,
    selectedUserKey: Option<string>,
    platformLocation: Vec3)
  {
    /** The field invariants the class documents. */
    predicate Valid() {
      && -1 <= dragAxisIndex < 3
      && platformDiameter > 0.0
      && (platformMode == "none" || platformMode == "square")
    }
  }

  /** A new MiscStatus. */
  function Defaults(): (s: MiscStatus)
    ensures s.Valid() && !IsDraggingAxis(s)
    ensures s.anglesInDegrees && s.shadowsRendered && s.skyRendered
    ensures s.platformMode == "square" && s.platformDiameter == 1.0
    ensures s.selectedUserKey.None? && s.platformLocation == Zero
  {
    MiscStatus(true, false, false, true, true, 1.0, -1, "square", None, Zero)
  }

  // ----- axis dragging -----------------------------------------------------

  /** isDraggingAxis */
  predicate IsDraggingAxis(s: MiscStatus) {
    s.dragAxisIndex != -1
  }

  /** clearDragAxis */
  function ClearDragAxis(s: MiscStatus): (r: MiscStatus)
    ensures !IsDraggingAxis(r)
    ensures s.Valid() ==> r.Valid()
    ensures r == s.(dragAxisIndex := r.dragAxisIndex)
  {
    s.(dragAxisIndex := -1)
  }

  /** getDragAxis: only while dragging; always one of the three axes. */
  function GetDragAxis(s: MiscStatus): (axis: int)
    requires s.Valid() && IsDraggingAxis(s)
    ensures 0 <= axis < 3
  {
    s.dragAxisIndex
  }

  /** setDraggingAxis: the axis index must be 0, 1 or 2. */
  function SetDraggingAxis(s: MiscStatus, axisIndex: int, sourceCgm: bool, farSide: bool)
    : (r: Result<MiscStatus>)
    ensures r.Err? <==> !(0 <= axisIndex <= 2)
    ensures r.Err? ==> r.failure == IllegalArgument
    ensures r.Ok? ==> r.value == s.(dragAxisIndex := axisIndex, dragFarSide := farSide, dragSourceCgm := sourceCgm)
    ensures r.Ok? ==>
      && IsDraggingAxis(r.value)
      && r.value.dragAxisIndex == axisIndex
      && r.value.dragFarSide == farSide && r.value.dragSourceCgm == sourceCgm
      && (s.Valid() ==> r.value.Valid())
  {
    if !(0 <= axisIndex <= 2) then Err(IllegalArgument)
    else Ok(s.(dragAxisIndex := axisIndex, dragFarSide := farSide, dragSourceCgm := sourceCgm))
  }

  /** Starting a drag and then clearing it ends the drag, whatever the axis. */
  lemma DragThenClear(s: MiscStatus, axisIndex: int, sourceCgm: bool, farSide: bool)
    requires s.Valid() && 0 <= axisIndex <= 2
    ensures var d := SetDraggingAxis(s, axisIndex, sourceCgm, farSide).value;
      && GetDragAxis(d) == axisIndex
      && !IsDraggingAxis(ClearDragAxis(d))
      && ClearDragAxis(d).Valid()
  {
  }

  // ----- platform and display options -------------------------------------

  /** setPlatformDiameter: the diameter must be positive. */
  function SetPlatformDiameter(s: MiscStatus, diameter: real): (r: Result<MiscStatus>)
    ensures r.Err? <==> diameter <= 0.0
    ensures r.Ok? ==> r.value.platformDiameter == diameter && (s.Valid() ==> r.value.Valid())
    ensures r.Ok? ==> r.value == s.(platformDiameter := diameter)
  {
    if diameter <= 0.0 then Err(IllegalArgument) else Ok(s.(platformDiameter := diameter))
  }

  /** setPlatformMode: only "none" and "square" are modes. */
  function SetPlatformMode(s: MiscStatus, modeName: string): (r: Result<MiscStatus>)
    ensures r.Ok? <==> modeName == "none" || modeName == "square"
    ensures r.Err? ==> r.failure == IllegalArgument
    ensures r.Ok? ==> r.value == s.(platformMode := modeName) && (s.Valid() ==> r.value.Valid())
  {
    match modeName
    case "none" => Ok(s.(platformMode := modeName))
    case "square" => Ok(s.(platformMode := modeName))
    case _ => Err(IllegalArgument)
  }

  /** toggleAnglesInDegrees */
  function ToggleAnglesInDegrees(s: MiscStatus): (r: MiscStatus)
    ensures r.anglesInDegrees != s.anglesInDegrees
    ensures r == s.(anglesInDegrees := r.anglesInDegrees)
  {
    s.(anglesInDegrees := !s.anglesInDegrees)
  }

  /** Two toggles restore the angle unit. */
  lemma ToggleTwice(s: MiscStatus)
    ensures ToggleAnglesInDegrees(ToggleAnglesInDegrees(s)) == s
  {
  }

  // ----- user-data keys ----------------------------------------------------

  /** findUserKeyIndex: -1 with no key selected, else the key's position in
      the list (-1 if it is not there). */
  function FindUserKeyIndex(s: MiscStatus, keys: seq<string>): (index: int)
    ensures s.selectedUserKey.None? ==> index == -1
    ensures s.selectedUserKey.Some? ==> index == IndexOfItem(keys, s.selectedUserKey.value)
    ensures index != -1 ==> 0 <= index < |keys| && Some(keys[index]) == s.selectedUserKey
  {
    match s.selectedUserKey
    case None => -1
    case Some(key) => IndexOfItem(keys, key)
  }

  /** deleteUserKey: with a key selected, the model deletes it (the boolean
      says so) and no key is selected any more. */
  function DeleteUserKey(s: MiscStatus, keys: seq<string>): (r: (MiscStatus, bool))
    ensures r.0.selectedUserKey.None? && FindUserKeyIndex(r.0, keys) == -1
    ensures r.1 <==> s.selectedUserKey.Some?
    ensures r.0 == s.(selectedUserKey := None)
  {
    (s.(selectedUserKey := None), s.selectedUserKey.Some?)
  }

  /** The position listUserKeys gives the selection: -1 when no key is
      selected or the key is not listed (List.indexOf(null) is -1). */
  function SelectedIndex(s: MiscStatus, keys: seq<string>): (index: int)
    ensures -1 <= index < |keys|
    ensures index != -1 ==> Some(keys[index]) == s.selectedUserKey
  {
    FindUserKeyIndex(s, keys)
  }

  /** The position after `i` in a list of `n`, wrapping round; position -1
      (nothing selected) is followed by the first. */
  function Following(i: int, n: int): (j: int)
    requires n > 0 && -1 <= i < n
    ensures j == if i + 1 < n then i + 1 else 0
  {
    var j := Arith.ModuloInt(i + 1, n);
    if i + 1 < n then
      Arith.ResidueUnique(i + 1, n, 0, i + 1);
      j
    else
      Arith.ResidueUnique(i + 1, n, 1, 0);
      j
  }

  /** selectNextUserKey: the key after the selected one, wrapping round; the
      first key when none is selected. An empty list is a division by zero. */
  function SelectNextUserKey(s: MiscStatus, keys: seq<string>): (r: Result<MiscStatus>)
    ensures r.Err? <==> |keys| == 0
    ensures r.Ok? ==> r.value == s.(selectedUserKey := r.value.selectedUserKey)
    ensures r.Ok? && SelectedIndex(s, keys) == -1 ==> r.value.selectedUserKey == Some(keys[0])
    ensures r.Ok? && SelectedIndex(s, keys) != -1 ==>
      var i := SelectedIndex(s, keys);
      r.value.selectedUserKey == Some(keys[if i + 1 < |keys| then i + 1 else 0])
  {
    if |keys| == 0 then Err(Arithmetic)
    else
      var next := Following(SelectedIndex(s, keys), |keys|);
      Ok(s.(selectedUserKey := Some(keys[next])))
  }

  /** The position before `i` in a list of `n`, wrapping round; -1 stands
      for "nothing selected", which the source's arithmetic treats as an
      index like any other. */
  function Preceding(i: int, n: int): (j: int)
    requires n > 0 && -1 <= i < n
    ensures 0 <= i ==> j == if i > 0 then i - 1 else n - 1
    ensures i == -1 && n >= 2 ==> j == n - 2
    ensures i == -1 && n == 1 ==> j == 0
  {
    var j := Arith.ModuloInt(i - 1, n);
    if i > 0 then
      Arith.ResidueUnique(i - 1, n, 0, i - 1);
      j
    else if i == 0 then
      Arith.ResidueUnique(-1, n, -1, n - 1);
      j
    else if n >= 2 then
      Arith.ResidueUnique(-2, n, -1, n - 2);
      j
    else
      Arith.ResidueUnique(-2, n, -2, 0);
      j
  }

  /** selectPreviousUserKey as written: the index of the selection minus one,
      modulo the number of keys. With no key selected that index is -2, so
      the key before the last one is chosen. */
  function SelectPreviousUserKeyAsWritten(s: MiscStatus, keys: seq<string>): (r: Result<MiscStatus>)
    ensures r.Err? <==> |keys| == 0
    ensures r.Ok? && SelectedIndex(s, keys) != -1 ==>
      r == SelectPreviousUserKey(s, keys)
    ensures r.Ok? && SelectedIndex(s, keys) == -1 && |keys| >= 2 ==>
      r.value.selectedUserKey == Some(keys[|keys| - 2])
  {
    if |keys| == 0 then Err(Arithmetic)
    else
      var prev := Preceding(SelectedIndex(s, keys), |keys|);
      Ok(s.(selectedUserKey := Some(keys[prev])))
  }

  /** Three keys, none selected: "previous" picks the middle key. */
  lemma PreviousFromNothingExample()
    ensures var s := Defaults();
      SelectPreviousUserKeyAsWritten(s, ["a", "b", "c"]) == Ok(s.(selectedUserKey := Some("b")))
      && SelectNextUserKey(s, ["a", "b", "c"]) == Ok(s.(selectedUserKey := Some("a")))
  {
  }

  /** selectPreviousUserKey as evidently intended: the key before the
      selected one, wrapping round; with no key selected, the last key
      (mirroring "next", which picks the first). */
  function SelectPreviousUserKey(s: MiscStatus, keys: seq<string>): (r: Result<MiscStatus>)
    ensures r.Err? <==> |keys| == 0
    ensures r.Ok? ==> r.value == s.(selectedUserKey := r.value.selectedUserKey)
    ensures r.Ok? && SelectedIndex(s, keys) == -1 ==> r.value.selectedUserKey == Some(keys[|keys| - 1])
    ensures r.Ok? && SelectedIndex(s, keys) != -1 ==>
      var i := SelectedIndex(s, keys);
      r.value.selectedUserKey == Some(keys[if i > 0 then i - 1 else |keys| - 1])
  {
    if |keys| == 0 then Err(Arithmetic)
    else
      var index := SelectedIndex(s, keys);
      var prev := Preceding(if index == -1 then 0 else index, |keys|);
      Ok(s.(selectedUserKey := Some(keys[prev])))
  }

  /** With distinct keys, "previous" undoes "next" for a listed key. */
  lemma NextThenPrevious(s: MiscStatus, keys: seq<string>)
    requires Distinct(keys) && SelectedIndex(s, keys) != -1
    ensures SelectPreviousUserKey(SelectNextUserKey(s, keys).value, keys) == Ok(s)
  {
    var i := SelectedIndex(s, keys);
    var j := Following(i, |keys|);
    var n := s.(selectedUserKey := Some(keys[j]));
    assert SelectNextUserKey(s, keys) == Ok(n);
    DistinctIndex(keys, j);
    assert SelectedIndex(n, keys) == j;
    assert Preceding(j, |keys|) == i;
    assert n.(selectedUserKey := Some(keys[i])) == s;
  }

  /** With distinct keys, "next" undoes "previous" for a listed key. */
  lemma PreviousThenNext(s: MiscStatus, keys: seq<string>)
    requires Distinct(keys) && SelectedIndex(s, keys) != -1
    ensures SelectNextUserKey(SelectPreviousUserKey(s, keys).value, keys) == Ok(s)
  {
    var i := SelectedIndex(s, keys);
    var j := Preceding(i, |keys|);
    var p := s.(selectedUserKey := Some(keys[j]));
    assert SelectPreviousUserKey(s, keys) == Ok(p);
    DistinctIndex(keys, j);
    assert SelectedIndex(p, keys) == j;
    assert Following(j, |keys|) == i;
    assert p.(selectedUserKey := Some(keys[i])) == s;
  }

  /** In a list without repeats, indexOf finds every element at its own place. */
  lemma DistinctIndex(keys: seq<string>, i: int)
    requires Distinct(keys) && 0 <= i < |keys|
    ensures IndexOfItem(keys, keys[i]) == i
  {
  }

  /** Every setter keeps the invariants. */
  lemma SettersKeepValid(s: MiscStatus, axis: int, src: bool, far: bool, d: real, mode: string)
    requires s.Valid()
    ensures SetDraggingAxis(s, axis, src, far).Ok? ==> SetDraggingAxis(s, axis, src, far).value.Valid()
    ensures SetPlatformDiameter(s, d).Ok? ==> SetPlatformDiameter(s, d).value.Valid()
    ensures SetPlatformMode(s, mode).Ok? ==> SetPlatformMode(s, mode).value.Valid()
    ensures ClearDragAxis(s).Valid() && ToggleAnglesInDegrees(s).Valid()
  {
  }
}

=== FILE: outcomes.dfy ===
/**
 * Optional values, results and the Java exceptions that the modelled code
 * can throw, shared by every module of the model.
 */
module Outcomes {

  datatype Option<+T> = None | Some(value: T)

  /** The exception a failing Java operation throws. */
  datatype Failure =
    | IllegalArgument   // IllegalArgumentException: a Validate check or Enum.valueOf
    | NumberFormat      // NumberFormatException: Integer.parseInt
    | IndexOutOfBounds  // ArrayIndexOutOfBoundsException
    | AssertionFailed   // AssertionError, with Java assertions enabled
    | Arithmetic        // ArithmeticException: integer division by zero
    | NullPointer       // NullPointerException: a null result dereferenced

  datatype Result<+T> = Ok(value: T) | Err(failure: Failure)
  {
    predicate IsFailure() {
      Err?
    }
  }
}

=== FILE: pose.dfy ===
/**
 * Pose: the displayed pose, one user transform per bone. The transforms
 * are values here, so "a new instance" and "unaffected" hold by
 * construction; what the model states is which entries and which
 * components each operation changes. Posing the view and the
 * animation's own sampling are outside the model: the animation is a
 * parameter giving each bone's transform.
 */
module Pose {
  import opened Outcomes
  import opened Geometry

  /** The user transforms, indexed by bone. */
  type Pose = seq<Transform>

  /** copyBoneTransform: the stored transform of the indexed bone; an index
      outside the list is List.get's exception. */
  function CopyBoneTransform(pose: Pose, boneIndex: int): (r: Result<Transform>)
    ensures r.Ok? <==> 0 <= boneIndex < |pose|
    ensures r.Ok? ==> r.value == pose[boneIndex]
    ensures r.Err? ==> r.failure == IndexOutOfBounds
  {
    if 0 <= boneIndex < |pose| then Ok(pose[boneIndex]) else Err(IndexOutOfBounds)
  }

  /** The bind pose: `boneCount` identity transforms. */
  function BindPose(boneCount: nat): (r: Pose)
    ensures |r| == boneCount
    ensures forall i :: 0 <= i < |r| ==> r[i] == IdentityTransform
  {
    seq(boneCount, _ => IdentityTransform)
  }

  /** resetPose: clears the list and adds a new identity transform per bone. */
  method ResetPose(boneCount: nat) returns (pose: Pose)
    ensures pose == BindPose(boneCount)
  {
    pose := [];
    var boneIndex := 0;
    while boneIndex < boneCount
      invariant 0 <= boneIndex <= boneCount
      invariant |pose| == boneIndex
      invariant forall i :: 0 <= i < boneIndex ==> pose[i] == IdentityTransform
    {
      pose := pose + [IdentityTransform];
      boneIndex := boneIndex + 1;
    }
  }

  /** Replaces the indexed bone's transform with `t`, or fails with
      List.get's exception for an index outside the list. */
  function UpdateBone(pose: Pose, boneIndex: int, t: Transform): (r: Result<Pose>)
    ensures r.Ok? <==> 0 <= boneIndex < |pose|
    ensures r.Ok? ==> (|r.value| == |pose| && r.value[boneIndex] == t
      && forall i :: 0 <= i < |pose| && i != boneIndex ==> r.value[i] == pose[i])
  {
    if 0 <= boneIndex < |pose| then Ok(pose[boneIndex := t]) else Err(IndexOutOfBounds)
  }

  /** setBoneRotation: only the rotation of the indexed bone changes. */
  function SetBoneRotation(pose: Pose, boneIndex: int, rotation: Quat): (r: Result<Pose>)
    ensures r.Ok? <==> 0 <= boneIndex < |pose|
    ensures r.Ok? ==> (Unchanged(pose, r.value, boneIndex)
      && r.value[boneIndex].rotation == rotation
      && r.value[boneIndex].translation == pose[boneIndex].translation
      && r.value[boneIndex].scale == pose[boneIndex].scale)
  {
    if 0 <= boneIndex < |pose| then
      UpdateBone(pose, boneIndex, pose[boneIndex].(rotation := rotation))
    else Err(IndexOutOfBounds)
  }

  /** setBoneScale: only the scale of the indexed bone changes. */
  function SetBoneScale(pose: Pose, boneIndex: int, scale: Vec3): (r: Result<Pose>)
    ensures r.Ok? <==> 0 <= boneIndex < |pose|
    ensures r.Ok? ==> (Unchanged(pose, r.value, boneIndex)
      && r.value[boneIndex].scale == scale
      && r.value[boneIndex].translation == pose[boneIndex].translation
      && r.value[boneIndex].rotation == pose[boneIndex].rotation)
  {
    if 0 <= boneIndex < |pose| then
      UpdateBone(pose, boneIndex, pose[boneIndex].(scale := scale))
    else Err(IndexOutOfBounds)
  }

  /** setBoneTranslation: only the translation of the indexed bone changes. */
  function SetBoneTranslation(pose: Pose, boneIndex: int, translation: Vec3): (r: Result<Pose>)
    ensures r.Ok? <==> 0 <= boneIndex < |pose|
    ensures r.Ok? ==> (Unchanged(pose, r.value, boneIndex)
      && r.value[boneIndex].translation == translation
      && r.value[boneIndex].rotation == pose[boneIndex].rotation
      && r.value[boneIndex].scale == pose[boneIndex].scale)
  {
    if 0 <= boneIndex < |pose| then
      UpdateBone(pose, boneIndex, pose[boneIndex].(translation := translation))
    else Err(IndexOutOfBounds)
  }

  /** Same length, and every bone but `boneIndex` keeps its transform. */
  predicate Unchanged(before: Pose, after: Pose, boneIndex: int) {
    |after| == |before| && forall i :: 0 <= i < |before| && i != boneIndex ==> after[i] == before[i]
  }

  /** The outcome of posing the skeleton: the pose as it stands afterwards,
      and the failure that stopped the loop, if any. */
  datatype Posed = Posed(pose: Pose, failure: Option<Failure>)

  /** The reference result of poseSkeleton: each of the first `boneCount`
      transforms is the animation's; a bone count beyond the list stops at
      the end of the list with List.get's exception, the transforms before
      it already overwritten. */
  function Animated(pose: Pose, boneCount: nat, animation: int -> Transform): (r: Posed)
    ensures |r.pose| == |pose|
    ensures r.failure.None? <==> boneCount <= |pose|
    ensures forall i :: 0 <= i < |pose| ==>
      r.pose[i] == if i < boneCount then animation(i) else pose[i]
  {
    var n := if boneCount <= |pose| then boneCount else |pose|;
    var posed := seq(|pose|, i requires 0 <= i < |pose| => if i < n then animation(i) else pose[i]);
    Posed(posed, if boneCount <= |pose| then None else Some(IndexOutOfBounds))
  }

  /** poseSkeleton: writes the animation's transform into each of the first
      `boneCount` entries, in order. */
  method PoseSkeleton(pose: Pose, boneCount: nat, animation: int -> Transform) returns (r: Posed)
    ensures r == Animated(pose, boneCount, animation)
  {
    var current := pose;
    var boneIndex := 0;
    while boneIndex < boneCount
      invariant 0 <= boneIndex <= boneCount && boneIndex <= |pose|
      invariant |current| == |pose|
      invariant forall i :: 0 <= i < |pose| ==>
        current[i] == if i < boneIndex then animation(i) else pose[i]
    {
      if boneIndex >= |current| {
        r := Posed(current, Some(IndexOutOfBounds));
        assert r.pose == Animated(pose, boneCount, animation).pose;
        return;
      }
      current := current[boneIndex := animation(boneIndex)];
      boneIndex := boneIndex + 1;
    }
    r := Posed(current, None);
    assert r.pose == Animated(pose, boneCount, animation).pose;
  }

  // ----- properties relating the operations ---------------------------------

  /** After a reset, every bone's copy is the identity transform, and no
      other index can be copied. */
  lemma ResetThenCopy(boneCount: nat, boneIndex: int)
    ensures CopyBoneTransform(BindPose(boneCount), boneIndex) ==
      if 0 <= boneIndex < boneCount then Ok(IdentityTransform) else Err(IndexOutOfBounds)
  {
  }

  /** Setting the rotation, then the scale, then the translation of a bone
      leaves that bone with exactly the given transform. */
  lemma SetAllComponents(pose: Pose, boneIndex: int, t: Transform)
    requires 0 <= boneIndex < |pose|
    ensures var p1 := SetBoneRotation(pose, boneIndex, t.rotation).value;
      var p2 := SetBoneScale(p1, boneIndex, t.scale).value;
      var p3 := SetBoneTranslation(p2, boneIndex, t.translation).value;
      p3 == pose[boneIndex := t]
  {
    var p1 := SetBoneRotation(pose, boneIndex, t.rotation).value;
    var p2 := SetBoneScale(p1, boneIndex, t.scale).value;
    var p3 := SetBoneTranslation(p2, boneIndex, t.translation).value;
    assert p3[boneIndex] == t;
  }

  /** Setting one component twice keeps only the second value. */
  lemma SetRotationTwice(pose: Pose, boneIndex: int, q1: Quat, q2: Quat)
    requires 0 <= boneIndex < |pose|
    ensures SetBoneRotation(SetBoneRotation(pose, boneIndex, q1).value, boneIndex, q2) ==
      SetBoneRotation(pose, boneIndex, q2)
  {
    var once := SetBoneRotation(pose, boneIndex, q2).value;
    var twice := SetBoneRotation(SetBoneRotation(pose, boneIndex, q1).value, boneIndex, q2).value;
    assert forall i :: 0 <= i < |pose| ==> twice[i] == once[i];
    assert twice == once;
  }

  /** Setting different bones commutes. */
  lemma SetsOnDifferentBonesCommute(pose: Pose, i: int, j: int, q: Quat, v: Vec3)
    requires 0 <= i < |pose| && 0 <= j < |pose| && i != j
    ensures SetBoneScale(SetBoneRotation(pose, i, q).value, j, v) ==
      SetBoneRotation(SetBoneScale(pose, j, v).value, i, q)
  {
    var a := SetBoneScale(SetBoneRotation(pose, i, q).value, j, v).value;
    var b := SetBoneRotation(SetBoneScale(pose, j, v).value, i, q).value;
    assert forall k :: 0 <= k < |pose| ==> a[k] == b[k];
    assert a == b;
  }

  /** Posing a reset skeleton from an animation leaves exactly the
      animation's transforms. */
  lemma ResetThenPose(boneCount: nat, animation: int -> Transform)
    ensures Animated(BindPose(boneCount), boneCount, animation) ==
      Posed(seq(boneCount, i => animation(i)), None)
  {
    var r := Animated(BindPose(boneCount), boneCount, animation);
    assert r.pose == seq(boneCount, i => animation(i));
  }
}

=== FILE: score_pov.dfy ===
/**
 * ScorePov: the camera of the score view. Its frustum half-height is kept
 * within fixed bounds, its height follows the view, and an update re-centres
 * it on the Y range of the selected bone whenever that range changes. The
 * score view's height, its selected range, the display height and
 * FastMath.pow are parameters; pushing the values into the camera is not
 * modelled.
 */
module ScorePov {
  import opened Outcomes
  import opened Arith
  import opened Geometry

  const MinHalfHeight: real := 0.1
  const MaxHalfHeight: real := 100.0

  /** The zoom factor per wheel notch: 1 + 15/100. */
  const DollyRate: real := 1.0 + 15.0 / 100.0

  /** A range of world Y coordinates (Vector2f with x = min, y = max). */
  datatype MinMax = MinMax(min: real, max: real)

  const NoRange := MinMax(0.0, 0.0)

  datatype ScorePov = ScorePov(halfHeight: real, oldMinMaxY: MinMax, cameraLocation: Vec3)
  {
    /** The half-height stays within its bounds (and so stays positive). */
    predicate Valid() {
      MinHalfHeight <= halfHeight <= MaxHalfHeight
    }
  }

  /** The initial point of view. */
  function Initial(): (p: ScorePov)
    ensures p.Valid()
  {
    ScorePov(2.0, NoRange, Vec3(0.45, -4.0, 0.0))
  }

  /** setCameraY: the camera's Y is clamped to [-viewHeight, 0]; nothing else
      changes. */
  function SetCameraY(p: ScorePov, yLocation: real, viewHeight: real): (r: ScorePov)
    ensures viewHeight >= 0.0 ==> -viewHeight <= r.cameraLocation.y <= 0.0
    ensures -viewHeight <= yLocation <= 0.0 ==> r.cameraLocation.y == yLocation
    ensures r == p.(cameraLocation := p.cameraLocation.(y := r.cameraLocation.y))
  {
    p.(cameraLocation := p.cameraLocation.(y := Clamp(yLocation, -viewHeight, 0.0)))
  }

  /** setHalfHeight: a positive value is stored clamped to
      [MinHalfHeight, MaxHalfHeight]; any other fails Validate.positive. */
  function SetHalfHeight(p: ScorePov, newValue: real): (r: Result<ScorePov>)
    ensures r.Ok? <==> newValue > 0.0
    ensures r.Err? ==> r.failure == IllegalArgument
    ensures r.Ok? ==> (r.value.Valid()
      && (MinHalfHeight <= newValue <= MaxHalfHeight ==> r.value.halfHeight == newValue)
      && (newValue < MinHalfHeight ==> r.value.halfHeight == MinHalfHeight)
      && (newValue > MaxHalfHeight ==> r.value.halfHeight == MaxHalfHeight)
      && r.value == p.(halfHeight := r.value.halfHeight))
  {
    if newValue <= 0.0 then Err(IllegalArgument)
    else Ok(p.(halfHeight := Clamp(newValue, MinHalfHeight, MaxHalfHeight)))
  }

  /** moveBackward: zooms by DollyRate raised to the number of notches; zero
      notches fail Validate.nonZero. `pow` is FastMath.pow. */
  function MoveBackward(p: ScorePov, amount: real, pow: (real, real) -> real): (r: Result<ScorePov>)
    ensures amount == 0.0 ==> r == Err(IllegalArgument)
    ensures r.Err? <==> amount == 0.0 || p.halfHeight * pow(DollyRate, amount) <= 0.0
    ensures r.Err? ==> r.failure == IllegalArgument
    ensures amount != 0.0 && p.Valid() && pow(DollyRate, amount) > 0.0 ==> r.Ok? && r.value.Valid()
    ensures r.Ok? ==> r.value.halfHeight == Clamp(p.halfHeight * pow(DollyRate, amount), MinHalfHeight, MaxHalfHeight)
    ensures r.Ok? ==> r.value == p.(halfHeight := r.value.halfHeight)
  {
    if amount == 0.0 then Err(IllegalArgument)
    else
      var factor := pow(DollyRate, amount);
      SetHalfHeight(p, p.halfHeight * factor)
  }

  /** moveLeft: only checks that the amount is not zero; left/right movement
      is disabled in score mode. */
  function MoveLeft(p: ScorePov, amount: real): (r: Result<ScorePov>)
    ensures r.Ok? <==> amount != 0.0
    ensures r.Err? ==> r.failure == IllegalArgument
    ensures r.Ok? ==> r.value == p
  {
    if amount == 0.0 then Err(IllegalArgument) else Ok(p)
  }

  /** moveUp: moves the camera in proportion to the half-height, the drag
      and 2048 over the display height, then clamps it like setCameraY. */
  function MoveUp(p: ScorePov, amount: real, displayHeight: real, viewHeight: real): (r: Result<ScorePov>)
    requires displayHeight > 0.0
    ensures r.Ok? <==> amount != 0.0
    ensures r.Ok? && viewHeight >= 0.0 ==> -viewHeight <= r.value.cameraLocation.y <= 0.0
    ensures r.Err? ==> r.failure == IllegalArgument
    ensures r.Ok? ==>
      r.value.cameraLocation.y == Clamp(p.cameraLocation.y + (2048.0 * p.halfHeight / displayHeight) * amount, -viewHeight, 0.0)
    ensures r.Ok? ==> r.value == p.(cameraLocation := p.cameraLocation.(y := r.value.cameraLocation.y))
  {
    if amount == 0.0 then Err(IllegalArgument)
    else
      var yLocation := p.cameraLocation.y + (2048.0 * p.halfHeight / displayHeight) * amount;
      Ok(SetCameraY(p, yLocation, viewHeight))
  }

  /** Math.abs */
  function Abs(x: real): (r: real)
    ensures r >= 0.0 && (r == x || r == -x)
  {
    if x < 0.0 then -x else x
  }

  /** update: with no camera nothing happens. Otherwise, when no bone range
      is selected the remembered range is zeroed; when the selected range
      differs from the remembered one the camera is re-centred on its
      midpoint with half-height 0.6 + 0.6 * |max - mid|, and the range is
      remembered. Then both values are stored clamped. A non-positive
      half-height trips getHalfHeight's assertion. */
  function Update(p: ScorePov, hasCamera: bool, selected: Option<MinMax>, viewHeight: real)
    : (r: Result<ScorePov>)
    ensures !hasCamera ==> r == Ok(p)
    ensures r.Err? <==> hasCamera && p.halfHeight <= 0.0
    ensures r.Err? ==> r.failure == AssertionFailed
    ensures r.Ok? && hasCamera ==> r.value.Valid()
    ensures r.Ok? ==> r.value.cameraLocation == p.cameraLocation.(y := r.value.cameraLocation.y)
    ensures r.Ok? && hasCamera ==>
      r.value.oldMinMaxY == (if selected.None? then NoRange else selected.value)
    ensures r.Ok? && hasCamera && selected.Some? && selected.value != p.oldMinMaxY ==>
      var mid := (selected.value.min + selected.value.max) / 2.0;
      && r.value.halfHeight == Clamp(0.6 + 0.6 * Abs(selected.value.max - mid), MinHalfHeight, MaxHalfHeight)
      && r.value.cameraLocation.y == Clamp(mid, -viewHeight, 0.0)
    ensures r.Ok? && hasCamera && (selected.None? || selected.value == p.oldMinMaxY) ==>
      && r.value.halfHeight == Clamp(p.halfHeight, MinHalfHeight, MaxHalfHeight)
      && r.value.cameraLocation.y == Clamp(p.cameraLocation.y, -viewHeight, 0.0)
  {
    if !hasCamera then Ok(p)
    else if p.halfHeight <= 0.0 then Err(AssertionFailed)
    else
      var hh := p.halfHeight;
      var y := p.cameraLocation.y;
      var (hh', y', old') :=
        match selected
        case None => (hh, y, NoRange)
        case Some(minMaxY) =>
          if minMaxY != p.oldMinMaxY then
            var mid := (minMaxY.min + minMaxY.max) / 2.0;
            (0.6 + 0.6 * Abs(minMaxY.max - mid), mid, minMaxY)
          else (hh, y, p.oldMinMaxY);
      var withRange := p.(oldMinMaxY := old');
      var sized := SetHalfHeight(withRange, hh').value;
      Ok(SetCameraY(sized, y', viewHeight))
  }

  /** The re-centred half-height covers the selected range: it is 0.6 plus
      0.3 times the range's extent, before clamping. */
  lemma RecentredHalfHeight(range: MinMax)
    requires range.min <= range.max
    ensures var mid := (range.min + range.max) / 2.0;
      0.6 + 0.6 * Abs(range.max - mid) == 0.6 + 0.3 * (range.max - range.min)
  {
  }

  /** A second update with the same selection changes nothing: the first
      one already re-centred and remembered the range. */
  lemma UpdateIdempotent(p: ScorePov, hasCamera: bool, selected: Option<MinMax>, viewHeight: real)
    requires p.Valid() && viewHeight >= 0.0
    ensures var once := Update(p, hasCamera, selected, viewHeight);
      once.Ok? && Update(once.value, hasCamera, selected, viewHeight) == once
  {
    var once := Update(p, hasCamera, selected, viewHeight).value;
    if hasCamera {
      ClampIdempotent(once.cameraLocation.y, -viewHeight, 0.0);
      assert once.cameraLocation == once.cameraLocation.(y := Clamp(once.cameraLocation.y, -viewHeight, 0.0));
    }
  }

  /** moveBackward keeps the half-height within bounds for every zoom,
      and a positive number of notches never makes the view smaller: the
      half-height grows or stays at the maximum. */
  lemma ZoomStaysInBounds(p: ScorePov, amount: real, pow: (real, real) -> real)
    requires p.Valid() && amount != 0.0 && pow(DollyRate, amount) >= 1.0
    ensures var r := MoveBackward(p, amount, pow);
      r.Ok? && r.value.Valid() && r.value.halfHeight >= p.halfHeight
  {
    var f := pow(DollyRate, amount);
    MulMonotone(p.halfHeight, f);
    GrowHalfHeight(p, p.halfHeight * f);
  }

  /** Scaling a positive half-height by a factor of at least one does not
      shrink it. */
  lemma MulMonotone(h: real, f: real)
    requires h > 0.0 && f >= 1.0
    ensures h * f >= h
  {
    assert h * f - h == h * (f - 1.0);
  }

  /** Storing a half-height no smaller than the current one keeps it within
      bounds and does not shrink it. */
  lemma GrowHalfHeight(p: ScorePov, newValue: real)
    requires p.Valid() && newValue >= p.halfHeight
    ensures var r := SetHalfHeight(p, newValue);
      r.Ok? && r.value.Valid() && r.value.halfHeight >= p.halfHeight
  {
  }
}

=== FILE: selected_shape.dfy ===
/**
 * SelectedShape: which physics collision shape of a C-G model is selected,
 * which of its parameters may be edited, and the edits themselves.
 *
 * A shape is its Bullet id, its kind and the measurements MyShape reports for
 * it (stored with the shape; how Bullet derives them is not modelled). The
 * physics space's shape map is a list of shapes with distinct ids. Editing a
 * size replaces the shape by the new one MyShape builds, with a fresh id;
 * the caller supplies that shape, and every measurement of it, not just
 * the edited one, is MyShape's.
 */
module SelectedShape {
  import opened Outcomes
  import opened Geometry
  import opened EditState
  import opened Lists
  import Arith

  datatype ShapeKind =
    | Box
    | Capsule
    | Compound
    | Cone
    | Cylinder
    | GImpact(meshVertices: nat)
    | Hull(meshVertices: nat)
    | Mesh(meshVertices: nat)
    | MultiSphere(spheres: nat)
    | Simplex(meshVertices: nat)
    | Sphere
    | OtherKind   // plane, heightfield and the rest

  /** A float that may be NaN. */
  datatype Value = NaN | Num(v: real)

  predicate NonNegative(v: Value) {
    v.NaN? || v.v >= 0.0
  }

  datatype Shape = Shape(id: int, kind: ShapeKind, halfExtents: Vec3, height: Value,
                         radius: Value, margin: real, scale: Vec3, volume: Value)

  /** What Bullet guarantees of every measurement: none is negative. */
  predicate Measured(s: Shape) {
    && s.halfExtents.AllNonNegative() && NonNegative(s.height) && NonNegative(s.radius)
    && s.margin >= 0.0 && s.scale.AllNonNegative() && NonNegative(s.volume)
  }

  /** ShapeParameter */
  datatype Parameter =
    | HalfExtentX | HalfExtentY | HalfExtentZ | Height | Margin | Radius
    | ScaleX | ScaleY | ScaleZ | ScaledVolume
  {
    /** The parameters that describe the size of a shape. */
    predicate IsSize() {
      HalfExtentX? || HalfExtentY? || HalfExtentZ? || Height? || Radius?
    }
  }

  function Ids(shapes: seq<Shape>): (r: seq<int>)
    ensures |r| == |shapes|
    ensures forall i :: 0 <= i < |shapes| ==> r[i] == shapes[i].id
  {
    seq(|shapes|, i requires 0 <= i < |shapes| => shapes[i].id)
  }

  /** The selection (-1 for none), the shapes of the physics space, and the
      C-G model's edit count. */
  datatype ShapeState = ShapeState(shapes: seq<Shape>, selectedId: int, edits: EditState<CgmSubject>)
  {
    /** Bullet ids are distinct and non-negative, measurements non-negative. */
    predicate Valid() {
      && Distinct(Ids(shapes))
      && forall i :: 0 <= i < |shapes| ==> shapes[i].id >= 0 && Measured(shapes[i])
    }

    /** isSelected: the selected id names a shape of the space. */
    predicate IsSelected() {
      selectedId in Ids(shapes)
    }
  }

  /** find: the shape with the given id, if the space has one. */
  function Find(shapes: seq<Shape>, id: int): (r: Option<Shape>)
    ensures r.None? <==> id !in Ids(shapes)
    ensures r.Some? ==> r.value in shapes && r.value.id == id
  {
    var i := IndexOfItem(Ids(shapes), id);
    if i == -1 then None else Some(shapes[i])
  }

  /** The selected shape. */
  function Selected(st: ShapeState): (s: Shape)
    requires st.IsSelected()
    ensures s in st.shapes && s.id == st.selectedId
  {
    Find(st.shapes, st.selectedId).value
  }

  /** The parameters each kind of shape lets the editor change, kind by
      kind: boxes and cylinders every size and the margin, capsules and
      spheres only their height and radius, cones their height, radius and
      margin, every other kind only its margin. Scales and volume never. */
  predicate Applicable(k: ShapeKind, p: Parameter) {
    match k
    case Box | Cylinder => p.IsSize() || p.Margin?
    case Capsule | Sphere => p.Height? || p.Radius?
    case Cone => p.Height? || p.Radius? || p.Margin?
    case Compound | GImpact(_) | Hull(_) | Mesh(_) | MultiSphere(_) | Simplex(_) | OtherKind => p.Margin?
  }

  /** canSet: whether the parameter of the selected shape can be edited. */
  function CanSet(st: ShapeState, p: Parameter): (r: bool)
    ensures r <==> st.IsSelected() && Applicable(Selected(st).kind, p)
    ensures r ==> p.IsSize() || p.Margin?
  {
    if !st.IsSelected() then false
    else
      var k := Selected(st).kind;
      match p
      case HalfExtentX | HalfExtentY | HalfExtentZ => k.Box? || k.Cylinder?
      case Height | Radius => k.Box? || k.Capsule? || k.Cone? || k.Cylinder? || k.Sphere?
      case Margin => !k.Sphere? && !k.Capsule?
      case ScaleX | ScaleY | ScaleZ | ScaledVolume => false
  }

  /** The stored measurement a parameter reads. */
  function Measure(s: Shape, p: Parameter): Value {
    match p
    case HalfExtentX => Num(s.halfExtents.x)
    case HalfExtentY => Num(s.halfExtents.y)
    case HalfExtentZ => Num(s.halfExtents.z)
    case Height => s.height
    case Margin => Num(s.margin)
    case Radius => s.radius
    case ScaleX => Num(s.scale.x)
    case ScaleY => Num(s.scale.y)
    case ScaleZ => Num(s.scale.z)
    case ScaledVolume => s.volume
  }

  /** getValue: NaN with no selection and for the size of a compound shape;
      otherwise the selected shape's measurement, never negative. */
  function GetValue(st: ShapeState, p: Parameter): (r: Value)
    ensures !st.IsSelected() ==> r == NaN
    ensures st.IsSelected() && Selected(st).kind.Compound? && p.IsSize() ==> r == NaN
    ensures st.IsSelected() && !(Selected(st).kind.Compound? && p.IsSize()) ==> r == Measure(Selected(st), p)
    ensures st.Valid() ==> NonNegative(r)
  {
    if !st.IsSelected() then NaN
    else
      var s := Selected(st);
      if s.kind.Compound? && p.IsSize() then NaN else Measure(s, p)
  }

  /** A parameter that can be set has a value to compare against, unless it
      is a height or radius MyShape does not report. */
  lemma EditableHasValue(st: ShapeState, p: Parameter)
    requires CanSet(st, p) && !p.Height? && !p.Radius?
    ensures GetValue(st, p).Num?
  {
  }

  /** countGeneratorVertices */
  function CountGeneratorVertices(st: ShapeState): (n: nat)
    ensures !st.IsSelected() ==> n == 0
    ensures st.IsSelected() ==> match Selected(st).kind
      case Capsule => n == 2
      case Sphere => n == 1
      case GImpact(v) => n == v
      case Hull(v) => n == v
      case Mesh(v) => n == v
      case MultiSphere(c) => n == c
      case Simplex(v) => n == v
      case Box | Compound | Cone | Cylinder | OtherKind => n == 0
  {
    if !st.IsSelected() then 0
    else match Selected(st).kind
      case Capsule => 2
      case GImpact(v) => v
      case Hull(v) => v
      case Mesh(v) => v
      case MultiSphere(c) => c
      case Simplex(v) => v
      case Sphere => 1
      case _ => 0
  }

  /** select(long): the id must name a shape of the space, which the source
      asserts. */
  function Select(st: ShapeState, id: int): (r: Result<ShapeState>)
    ensures r.Ok? <==> id in Ids(st.shapes)
    ensures r.Err? ==> r.failure == AssertionFailed
    ensures r.Ok? ==> (r.value.IsSelected() && Selected(r.value).id == id
      && r.value.shapes == st.shapes && r.value.edits == st.edits)
  {
    if id in Ids(st.shapes) then Ok(st.(selectedId := id)) else Err(AssertionFailed)
  }

  /** selectNone: the id -1, which no Bullet object carries. */
  function SelectNone(st: ShapeState): (r: ShapeState)
    requires st.Valid()
    ensures !r.IsSelected()
    ensures r.shapes == st.shapes && r.edits == st.edits
  {
    var r := st.(selectedId := -1);
    assert forall i :: 0 <= i < |st.shapes| ==> Ids(st.shapes)[i] != -1;
    r
  }

  /** `b` follows `a` in cyclic ascending order of the ids: the least id above
      `a`, or the least id of all when `a` is the largest. */
  predicate IsNextId(ids: seq<int>, a: int, b: int) {
    && b in ids
    && if exists k :: k in ids && a < k
       then a < b && forall k :: k in ids && a < k ==> b <= k
       else forall k :: k in ids ==> b <= k
  }

  /** `b` precedes `a` in cyclic ascending order of the ids. */
  predicate IsPrevId(ids: seq<int>, a: int, b: int) {
    && b in ids
    && if exists k :: k in ids && k < a
       then b < a && forall k :: k in ids && k < a ==> k <= b
       else forall k :: k in ids ==> k <= b
  }

  /** In an ascending list, comparing elements compares positions. */
  lemma IncreasingOrder(s: seq<int>, i: int, j: int)
    requires StrictlyIncreasing(s) && 0 <= i < |s| && 0 <= j < |s|
    ensures s[i] < s[j] <==> i < j
  {
  }

  /** selectNext: one step up the ascending list of ids, wrapping round; a
      selection that is not in the list stays. */
  function SelectNext(st: ShapeState): (r: ShapeState)
    requires st.Valid()
    ensures r.shapes == st.shapes && r.edits == st.edits
    ensures !st.IsSelected() ==> r == st
    ensures st.IsSelected() ==> r.IsSelected() && IsNextId(Ids(st.shapes), st.selectedId, r.selectedId)
  {
    var ids := SortAscending(Ids(st.shapes));
    var index := IndexOfItem(ids, st.selectedId);
    if index == -1 then st
    else
      var next := Arith.ModuloInt(index + 1, |ids|);
      NextInSorted(ids, Ids(st.shapes), index, next);
      st.(selectedId := ids[next])
  }

  lemma NextInSorted(ids: seq<int>, all: seq<int>, index: int, next: int)
    requires StrictlyIncreasing(ids) && forall k :: k in ids <==> k in all
    requires 0 <= index < |ids| && next == (index + 1) % |ids|
    ensures IsNextId(all, ids[index], ids[next])
  {
    if index + 1 < |ids| {
      assert next == index + 1;
      NextWithin(ids, all, index);
    } else {
      assert next == 0;
      NextWraps(ids, all, index);
    }
  }

  lemma NextWithin(ids: seq<int>, all: seq<int>, index: int)
    requires StrictlyIncreasing(ids) && forall k :: k in ids <==> k in all
    requires 0 <= index && index + 1 < |ids|
    ensures IsNextId(all, ids[index], ids[index + 1])
  {
    var a, b := ids[index], ids[index + 1];
    forall k | k in all && a < k
      ensures b <= k
    {
      var m := IndexOfItem(ids, k);
      IncreasingOrder(ids, index, m);
      IncreasingOrder(ids, index + 1, m);
    }
    assert b in all;
  }

  lemma NextWraps(ids: seq<int>, all: seq<int>, index: int)
    requires StrictlyIncreasing(ids) && forall k :: k in ids <==> k in all
    requires index == |ids| - 1 >= 0
    ensures IsNextId(all, ids[index], ids[0])
  {
    var a := ids[index];
    forall k | k in all
      ensures ids[0] <= k && k <= a
    {
      var m := IndexOfItem(ids, k);
      IncreasingOrder(ids, 0, m);
      IncreasingOrder(ids, m, index);
    }
    assert ids[0] in all;
  }

  /** selectPrevious: one step down the ascending list of ids, wrapping
      round; a selection that is not in the list stays. */
  function SelectPrevious(st: ShapeState): (r: ShapeState)
    requires st.Valid()
    ensures r.shapes == st.shapes && r.edits == st.edits
    ensures !st.IsSelected() ==> r == st
    ensures st.IsSelected() ==> r.IsSelected() && IsPrevId(Ids(st.shapes), st.selectedId, r.selectedId)
  {
    var ids := SortAscending(Ids(st.shapes));
    var index := IndexOfItem(ids, st.selectedId);
    if index == -1 then st
    else
      var prev := Arith.ModuloInt(index - 1, |ids|);
      PrevInSorted(ids, Ids(st.shapes), index, prev);
      st.(selectedId := ids[prev])
  }

  lemma PrevInSorted(ids: seq<int>, all: seq<int>, index: int, prev: int)
    requires StrictlyIncreasing(ids) && forall k :: k in ids <==> k in all
    requires 0 <= index < |ids| && prev == (index - 1) % |ids|
    ensures IsPrevId(all, ids[index], ids[prev])
  {
    if index > 0 {
      assert prev == index - 1;
      PrevWithin(ids, all, index);
    } else {
      assert prev == |ids| - 1;
      PrevWraps(ids, all);
    }
  }

  lemma PrevWithin(ids: seq<int>, all: seq<int>, index: int)
    requires StrictlyIncreasing(ids) && forall k :: k in ids <==> k in all
    requires 0 < index < |ids|
    ensures IsPrevId(all, ids[index], ids[index - 1])
  {
    var a, b := ids[index], ids[index - 1];
    forall k | k in all && k < a
      ensures k <= b
    {
      var m := IndexOfItem(ids, k);
      IncreasingOrder(ids, m, index);
      IncreasingOrder(ids, m, index - 1);
    }
    assert b in all;
  }

  lemma PrevWraps(ids: seq<int>, all: seq<int>)
    requires StrictlyIncreasing(ids) && forall k :: k in ids <==> k in all
    requires |ids| > 0
    ensures IsPrevId(all, ids[0], ids[|ids| - 1])
  {
    var last := |ids| - 1;
    forall k | k in all
      ensures ids[0] <= k && k <= ids[last]
    {
      var m := IndexOfItem(ids, k);
      IncreasingOrder(ids, 0, m);
      IncreasingOrder(ids, m, last);
    }
    assert ids[last] in all;
  }

  /** The id that follows `a` is preceded by `a`. */
  lemma NextPrevInverse(ids: seq<int>, a: int, b: int)
    requires a in ids && IsNextId(ids, a, b)
    ensures IsPrevId(ids, b, a)
  {
    if exists k :: k in ids && a < k {
      assert a < b;
    } else {
      assert forall k :: k in ids ==> k <= a;
      assert !exists k :: k in ids && k < b;
    }
  }

  /** The id that precedes `a` is followed by `a`. */
  lemma PrevNextInverse(ids: seq<int>, a: int, b: int)
    requires a in ids && IsPrevId(ids, a, b)
    ensures IsNextId(ids, b, a)
  {
    if exists k :: k in ids && k < a {
      assert b < a;
    } else {
      assert forall k :: k in ids ==> a <= k;
      assert !exists k :: k in ids && b < k;
    }
  }

  lemma PrevIdUnique(ids: seq<int>, a: int, b: int, c: int)
    requires IsPrevId(ids, a, b) && IsPrevId(ids, a, c)
    ensures b == c
  {
  }

  lemma NextIdUnique(ids: seq<int>, a: int, b: int, c: int)
    requires IsNextId(ids, a, b) && IsNextId(ids, a, c)
    ensures b == c
  {
  }

  /** selectPrevious undoes selectNext, and selectNext undoes selectPrevious. */
  lemma NextThenPrevious(st: ShapeState)
    requires st.Valid()
    ensures SelectPrevious(SelectNext(st)) == st
    ensures SelectNext(SelectPrevious(st)) == st
  {
    if st.IsSelected() {
      var ids := Ids(st.shapes);
      var n := SelectNext(st);
      NextPrevInverse(ids, st.selectedId, n.selectedId);
      PrevIdUnique(ids, n.selectedId, st.selectedId, SelectPrevious(n).selectedId);
      var p := SelectPrevious(st);
      PrevNextInverse(ids, st.selectedId, p.selectedId);
      NextIdUnique(ids, p.selectedId, st.selectedId, SelectNext(p).selectedId);
    }
  }

  /** Replace the shape with the given id. */
  function ReplaceShape(shapes: seq<Shape>, id: int, s: Shape): (r: seq<Shape>)
    ensures |r| == |shapes|
    ensures forall i :: 0 <= i < |shapes| ==> r[i] == if shapes[i].id == id then s else shapes[i]
  {
    seq(|shapes|, i requires 0 <= i < |shapes| => if shapes[i].id == id then s else shapes[i])
  }

  /** Every shape but the ones with ids `a` and `b` is found in `after` just
      as it was in `before`. */
  ghost predicate OthersStay(before: seq<Shape>, after: seq<Shape>, a: int, b: int) {
    forall k :: k != a && k != b ==> Find(after, k) == Find(before, k)
  }

  /** EditState.replaceForResize: an in-progress size edit of the old shape
      carries over to its replacement, so a drag keeps counting once. */
  function CarryOver(e: EditState<CgmSubject>, oldId: int, newId: int): (r: EditState<CgmSubject>)
    ensures r.count == e.count
    ensures e.continuing == Some(ShapeSize(oldId)) ==> r.continuing == Some(ShapeSize(newId))
    ensures e.continuing != Some(ShapeSize(oldId)) ==> r == e
  {
    if e.continuing == Some(ShapeSize(oldId)) then e.(continuing := Some(ShapeSize(newId))) else e
  }

  /** The edit count after a size edit that replaced shape `oldId` by shape
      `newId`: unchanged while either is already the subject of the
      continuous edit, one more otherwise. */
  function SizeEditCount(e: EditState<CgmSubject>, oldId: int, newId: int): nat {
    if e.continuing == Some(ShapeSize(oldId)) || e.continuing == Some(ShapeSize(newId))
    then e.count else e.count + 1
  }

  /** replaceForResize: the resized shape, under its fresh id, takes the place
      of the selected one and becomes the selection; the old id is gone,
      every other shape stays, and the size edit is recorded as continuous. */
  function ReplaceForResize(st: ShapeState, resized: Shape): (r: ShapeState)
    requires st.Valid() && st.IsSelected() && resized.id !in Ids(st.shapes)
    ensures r.IsSelected() && Selected(r) == resized
    ensures |r.shapes| == |st.shapes|
    ensures Find(r.shapes, st.selectedId).None?
    ensures OthersStay(st.shapes, r.shapes, st.selectedId, resized.id)
    ensures resized.id >= 0 && Measured(resized) ==> r.Valid()
    ensures r.edits.continuing == Some(ShapeSize(resized.id))
    ensures r.edits.count == SizeEditCount(st.edits, st.selectedId, resized.id)
  {
    var shapes := ReplaceShape(st.shapes, st.selectedId, resized);
    var edits := Continuous(CarryOver(st.edits, st.selectedId, resized.id), ShapeSize(resized.id));
    FindReplaced(st.shapes, st.selectedId, resized);
    ReplaceValidWhenMeasured(st, resized);
    ShapeState(shapes, resized.id, edits)
  }

  /** Two id lists that hold `x` at the same positions find it at the same
      index. */
  lemma IndexOfSamePlaces(a: seq<int>, b: seq<int>, x: int)
    requires |a| == |b|
    requires forall j :: 0 <= j < |a| ==> (a[j] == x <==> b[j] == x)
    ensures IndexOfItem(a, x) == IndexOfItem(b, x)
  {
    var i, k := IndexOfItem(a, x), IndexOfItem(b, x);
    if i != -1 {
      assert b[i] == x;
    }
    if k != -1 {
      assert a[k] == x;
    }
  }

  /** After replacing the shape with id `id` by a shape with a fresh id, that
      shape is found under its new id, the old id is gone, and every other
      shape stays. */
  lemma FindReplaced(shapes: seq<Shape>, id: int, s: Shape)
    requires Distinct(Ids(shapes)) && id in Ids(shapes)
    requires s.id == id || s.id !in Ids(shapes)
    ensures Distinct(Ids(ReplaceShape(shapes, id, s)))
    ensures Find(ReplaceShape(shapes, id, s), s.id) == Some(s)
    ensures s.id != id ==> Find(ReplaceShape(shapes, id, s), id).None?
    ensures OthersStay(shapes, ReplaceShape(shapes, id, s), id, s.id)
  {
    var r := ReplaceShape(shapes, id, s);
    var i := IndexOfItem(Ids(shapes), id);
    forall a, b | 0 <= a < b < |r|
      ensures Ids(r)[a] != Ids(r)[b]
    {
      assert Ids(shapes)[a] != Ids(shapes)[b];
    }
    var j := IndexOfItem(Ids(r), s.id);
    assert Ids(r)[i] == s.id;
    assert Ids(r)[j] == r[j].id && Ids(shapes)[j] == shapes[j].id;
    if s.id != id {
      assert forall m :: 0 <= m < |r| ==> Ids(r)[m] != id;
    }
    forall k | k != id && k != s.id
      ensures Find(r, k) == Find(shapes, k)
    {
      IndexOfSamePlaces(Ids(r), Ids(shapes), k);
    }
  }

  /** Replacing a shape by a measured one with a fresh id keeps the space valid. */
  lemma ReplaceKeepsValid(st: ShapeState, s: Shape)
    requires st.Valid() && st.IsSelected()
    requires s.id >= 0 && Measured(s) && (s.id == st.selectedId || s.id !in Ids(st.shapes))
    ensures ShapeState(ReplaceShape(st.shapes, st.selectedId, s), s.id, st.edits).Valid()
  {
    FindReplaced(st.shapes, st.selectedId, s);
  }

  lemma ReplaceValidWhenMeasured(st: ShapeState, s: Shape)
    requires st.Valid() && st.IsSelected() && (s.id == st.selectedId || s.id !in Ids(st.shapes))
    ensures s.id >= 0 && Measured(s) ==> ShapeState(ReplaceShape(st.shapes, st.selectedId, s), s.id, st.edits).Valid()
  {
    if s.id >= 0 && Measured(s) {
      ReplaceKeepsValid(st, s);
    }
  }

  /** What a replacement from MyShape can be relied on for: Bullet gives it a
      fresh, non-negative id, its measurements are not negative, and it is
      of the kind of the shape it replaces. Its measurements are otherwise
      whatever MyShape made of the requested size. */
  predicate Replaces(st: ShapeState, s: Shape) {
    && s.id >= 0 && s.id !in Ids(st.shapes) && Measured(s)
    && (st.IsSelected() ==> s.kind == Selected(st).kind)
  }

  /** resize: scale the half extents of the selected shape by `factors`;
      unit factors (whether or not a shape is selected) and compound shapes
      leave everything as it is, and a negative factor trips the assertion
      that half extents are non-negative. Otherwise MyShape is asked for a
      shape with the scaled half extents: the shape it produces
      (`produced`) replaces the selected one; when it produces none the
      shapes stay but the size edit is still counted. */
  function Resize(st: ShapeState, factors: Vec3, produced: Option<Shape>): (r: Result<ShapeState>)
    requires st.Valid() && (st.IsSelected() || factors == Unit)
    requires produced.Some? ==> Replaces(st, produced.value)
    ensures factors == Unit ==> r == Ok(st)
    ensures st.IsSelected() && Selected(st).kind.Compound? ==> r == Ok(st)
    ensures r.Err? <==>
      factors != Unit && !Selected(st).kind.Compound?
      && !Selected(st).halfExtents.Mult(factors).AllNonNegative()
    ensures r.Err? ==> r.failure == AssertionFailed
    ensures r.Ok? ==> r.value.Valid() && (r.value.IsSelected() <==> st.IsSelected())
    ensures r.Ok? && st.IsSelected() ==> Selected(r.value).kind == Selected(st).kind
    ensures r.Ok? && factors != Unit && !Selected(st).kind.Compound? && produced.Some? ==>
      && r.value.selectedId == produced.value.id
      && r.value.IsSelected()
      && Selected(r.value) == produced.value
      && (forall q :: GetValue(r.value, q) == Measure(produced.value, q))
      && Find(r.value.shapes, st.selectedId).None?
      && OthersStay(st.shapes, r.value.shapes, st.selectedId, produced.value.id)
      && r.value.edits.continuing == Some(ShapeSize(produced.value.id))
      && r.value.edits.count == SizeEditCount(st.edits, st.selectedId, produced.value.id)
    ensures r.Ok? && factors != Unit && !Selected(st).kind.Compound? && produced.None? ==>
      r.value == st.(edits := Continuous(st.edits, ShapeSize(st.selectedId)))
  {
    if factors == Unit then Ok(st)
    else if Selected(st).kind.Compound? then Ok(st)
    else
      var he := Selected(st).halfExtents.Mult(factors);
      if !he.AllNonNegative() then Err(AssertionFailed)
      else
        match produced
        case None => Ok(st.(edits := Continuous(st.edits, ShapeSize(st.selectedId))))
        case Some(resized) => Ok(ReplaceForResize(st, resized))
  }

  predicate IsHalfExtent(p: Parameter) {
    p.HalfExtentX? || p.HalfExtentY? || p.HalfExtentZ?
  }

  /** A new positive margin, set in place on the selected shape, as a
      discrete edit. */
  function SetMargin(st: ShapeState, v: real): (r: ShapeState)
    requires st.Valid() && st.IsSelected() && v > 0.0
    ensures r.Valid() && r.selectedId == st.selectedId && r.IsSelected()
    ensures Selected(r) == Selected(st).(margin := v)
    ensures OthersStay(st.shapes, r.shapes, st.selectedId, st.selectedId)
    ensures r.edits == Discrete(st.edits)
  {
    var changed := Selected(st).(margin := v);
    ReplaceKeepsValid(st, changed);
    FindReplaced(st.shapes, st.selectedId, changed);
    ShapeState(ReplaceShape(st.shapes, st.selectedId, changed), st.selectedId, Discrete(st.edits))
  }

  /** A new, non-negative size of the selected shape: the shape MyShape
      produces for it replaces the selected one; with none produced, a half
      extent only counts the edit and a height or radius trips the
      assertion that a replacement exists. */
  function SetSize(st: ShapeState, p: Parameter, v: real, produced: Option<Shape>): (r: Result<ShapeState>)
    requires st.Valid() && st.IsSelected() && p.IsSize() && v >= 0.0
    requires produced.Some? ==> Replaces(st, produced.value)
    ensures r.Err? <==> produced.None? && !IsHalfExtent(p)
    ensures r.Err? ==> r.failure == AssertionFailed
    ensures produced.Some? ==>
      && r.Ok? && r.value.Valid()
      && r.value.selectedId == produced.value.id && r.value.IsSelected()
      && Selected(r.value) == produced.value
      && Find(r.value.shapes, st.selectedId).None?
      && OthersStay(st.shapes, r.value.shapes, st.selectedId, produced.value.id)
      && r.value.edits.continuing == Some(ShapeSize(produced.value.id))
      && r.value.edits.count == SizeEditCount(st.edits, st.selectedId, produced.value.id)
    ensures produced.None? && IsHalfExtent(p) ==> r == Ok(st.(edits := Continuous(st.edits, ShapeSize(st.selectedId))))
  {
    match produced
    case None =>
      if IsHalfExtent(p) then Ok(st.(edits := Continuous(st.edits, ShapeSize(st.selectedId))))
      else Err(AssertionFailed)
    case Some(resized) => Ok(ReplaceForResize(st, resized))
  }

  /** setParameter: the parameter must be one canSet allows (an assertion).
      Nothing happens when the value does not change, or when a margin would
      not be positive. A new margin is set in place and counts as a
      discrete edit. A new size must not be negative (an assertion); the
      shape MyShape produces for it (`produced`) replaces the selected one,
      as a continuous edit, and what getValue reads afterwards is that
      shape's own measurement. When MyShape produces no shape, a half extent
      leaves the shapes alone but still counts the edit, and a height or
      radius trips the assertion that a replacement exists. */
  function SetParameter(st: ShapeState, p: Parameter, newValue: real, produced: Option<Shape>)
    : (r: Result<ShapeState>)
    requires st.Valid()
    requires produced.Some? ==> Replaces(st, produced.value)
    ensures r.Err? <==>
      || !CanSet(st, p)
      || (GetValue(st, p) != Num(newValue) && !p.Margin? && (newValue < 0.0 || (produced.None? && !IsHalfExtent(p))))
    ensures r.Err? ==> r.failure == AssertionFailed
    ensures CanSet(st, p) && GetValue(st, p) == Num(newValue) ==> r == Ok(st)
    ensures CanSet(st, p) && p.Margin? && newValue <= 0.0 ==> r == Ok(st)
    ensures r.Ok? ==> r.value.Valid() && r.value.IsSelected() && Selected(r.value).kind == Selected(st).kind
    ensures r.Ok? ==> CanSet(r.value, p)
    ensures CanSet(st, p) && GetValue(st, p) != Num(newValue) && p.Margin? && newValue > 0.0 ==>
      && r.Ok?
      && r.value.selectedId == st.selectedId
      && Selected(r.value) == Selected(st).(margin := newValue)
      && GetValue(r.value, p) == Num(newValue)
      && OthersStay(st.shapes, r.value.shapes, st.selectedId, st.selectedId)
      && r.value.edits == Discrete(st.edits)
    ensures CanSet(st, p) && GetValue(st, p) != Num(newValue) && p.IsSize() && newValue >= 0.0 && produced.Some? ==>
      && r.Ok?
      && r.value.selectedId == produced.value.id
      && Selected(r.value) == produced.value
      && GetValue(r.value, p) == Measure(produced.value, p)
      && Find(r.value.shapes, st.selectedId).None?
      && OthersStay(st.shapes, r.value.shapes, st.selectedId, produced.value.id)
      && r.value.edits.continuing == Some(ShapeSize(produced.value.id))
      && r.value.edits.count == SizeEditCount(st.edits, st.selectedId, produced.value.id)
    ensures CanSet(st, p) && GetValue(st, p) != Num(newValue) && IsHalfExtent(p) && newValue >= 0.0 && produced.None? ==>
      r == Ok(st.(edits := Continuous(st.edits, ShapeSize(st.selectedId))))
  {
    if !CanSet(st, p) then Err(AssertionFailed)
    else if GetValue(st, p) == Num(newValue) then Ok(st)
    else if p.Margin? then
      if newValue > 0.0 then Ok(SetMargin(st, newValue)) else Ok(st)
    else if newValue < 0.0 then Err(AssertionFailed)
    else SetSize(st, p, newValue, produced)
  }

  /** Setting a parameter to the value it was just set to changes nothing,
      provided MyShape's replacement reports the size it was asked for and
      MyShape, having produced nothing for a request, produces nothing for
      the same request again. */
  lemma SetParameterIdempotent(st: ShapeState, p: Parameter, v: real, produced1: Option<Shape>,
                               produced2: Option<Shape>)
    requires st.Valid()
    requires produced1.Some? ==> Replaces(st, produced1.value)
    requires SetParameter(st, p, v, produced1).Ok?
    requires produced1.Some? && p.IsSize() ==> Measure(produced1.value, p) == Num(v)
    requires produced1.None? ==> produced2.None?
    requires var once := SetParameter(st, p, v, produced1).value;
      produced2.Some? ==> Replaces(once, produced2.value)
    ensures var once := SetParameter(st, p, v, produced1).value;
      SetParameter(once, p, v, produced2) == Ok(once)
  {
  }

  /** Resizing and setting a parameter keep the kind of the selected shape,
      and with it the count of vertices that generate it. */
  lemma EditsKeepGeneratorVertices(st: ShapeState, factors: Vec3, p: Parameter, v: real,
                                   produced: Option<Shape>)
    requires st.Valid() && st.IsSelected()
    requires produced.Some? ==> Replaces(st, produced.value)
    ensures Resize(st, factors, produced).Ok? ==>
      CountGeneratorVertices(Resize(st, factors, produced).value) == CountGeneratorVertices(st)
    ensures SetParameter(st, p, v, produced).Ok? ==>
      CountGeneratorVertices(SetParameter(st, p, v, produced).value) == CountGeneratorVertices(st)
  {
    var resized := Resize(st, factors, produced);
    if resized.Ok? {
      SameKindSameCount(resized.value, st);
    }
    var edited := SetParameter(st, p, v, produced);
    if edited.Ok? {
      SameKindSameCount(edited.value, st);
    }
  }

  /** The generator count depends on the selected shape's kind alone. */
  lemma SameKindSameCount(a: ShapeState, b: ShapeState)
    requires a.IsSelected() && b.IsSelected() && Selected(a).kind == Selected(b).kind
    ensures CountGeneratorVertices(a) == CountGeneratorVertices(b)
  {
  }

  /** Two resizes in a row of the same shape count as one edit, however the
      shape is replaced in between. */
  lemma ResizeTwiceCountsOnce(st: ShapeState, f1: Vec3, f2: Vec3, produced1: Option<Shape>,
                              produced2: Option<Shape>)
    requires st.Valid() && st.IsSelected()
    requires produced1.Some? ==> Replaces(st, produced1.value)
    requires Resize(st, f1, produced1).Ok? && Resize(st, f1, produced1).value != st
    requires var once := Resize(st, f1, produced1).value;
      produced2.Some? ==> Replaces(once, produced2.value)
    ensures var once := Resize(st, f1, produced1).value;
      Resize(once, f2, produced2).Ok? ==> Resize(once, f2, produced2).value.edits.count == once.edits.count
  {
  }
}

=== FILE: set_action.dfy ===
/**
 * SetAction: how an action string beginning with "set" is recognised and
 * its argument parsed. The action names and prefixes are constants of
 * classes this model does not contain, so they are parameters; so are the
 * enum lookups (valueOf) and the anti-aliasing descriptions. What a parsed
 * action then changes is not modelled: the result says which setting gets
 * which value.
 */
module SetAction {
  import opened Outcomes
  import opened Text

  /** The prefixed actions, one per ActionPrefix constant tested. */
  datatype PrefixKind =
    | AntiAliasing | AxesMode | BatchHint | ColorDepth | CullHint | Degrees | Diagnose
    | DurationProportional | DurationSame | IndexBase | PhysicsRbpValue | QueueBucket
    | RefreshRate | Resolution | SceneBones | ScoreBonesNone | ScoreBonesWhen | ShadowMode
    | TweenRotations | TweenScales | TweenTranslations | UserData | ViewMode

  /** The order in which testForPrefixes tries the prefixes. */
  const PrefixOrder: seq<PrefixKind> := [AntiAliasing, AxesMode, BatchHint, ColorDepth, CullHint,
    Degrees, Diagnose, DurationProportional, DurationSame, IndexBase, PhysicsRbpValue, QueueBucket,
    RefreshRate, Resolution, SceneBones, ScoreBonesNone, ScoreBonesWhen, ShadowMode, TweenRotations,
    TweenScales, TweenTranslations, UserData, ViewMode]

  /** The prefixes whose argument names an enum constant. */
  predicate IsEnumKind(k: PrefixKind) {
    k in {AxesMode, BatchHint, CullHint, QueueBucket, SceneBones, ScoreBonesNone, ScoreBonesWhen,
          ShadowMode, TweenRotations, TweenScales, TweenTranslations, ViewMode}
  }

  /** The prefixes whose argument is an int. */
  predicate IsIntKind(k: PrefixKind) {
    k in {ColorDepth, IndexBase, RefreshRate}
  }

  /** What the model takes from elsewhere. */
  datatype Names = Names(
    exactActions: seq<string>,             // the Action.set* constants of process's switch
    prefix: PrefixKind -> string,          // the ActionPrefix constants
    isConstant: (PrefixKind, string) -> bool,   // valueOf of the kind's enum succeeds
    isParameter: string -> bool,           // RigidBodyParameter.valueOf succeeds
    aaDescription: int -> string)          // Util.aaDescription

  /** What a handled action sets. */
  datatype Command =
    | Exact(action: string)                        // one of the exact actions
    | Samples(numSamples: int)                     // anti-aliasing samples
    | EnumSetting(kind: PrefixKind, constant: string)
    | FlagSetting(kind: PrefixKind, flag: bool)
    | IntSetting(kind: PrefixKind, value: int)
    | FloatSetting(kind: PrefixKind, text: string) // the text Float.parseFloat reads
    | RigidBodyValue(parameter: string, text: string)
    | ScreenSize(width: int, height: int)
    | UserDataValue(text: string)

  // ----- anti-aliasing -----------------------------------------------------

  /** The sample count whose description the argument is: the first of
      1, 2, 4 and 8 that matches, else 16. */
  function SamplesFor(arg: string, aaDescription: int -> string): (n: int)
    ensures n in {1, 2, 4, 8, 16}
    ensures n < 16 ==> aaDescription(n) == arg
    ensures forall m :: m in {1, 2, 4, 8} && m < n ==> aaDescription(m) != arg
  {
    if aaDescription(1) == arg then 1
    else if aaDescription(2) == arg then 2
    else if aaDescription(4) == arg then 4
    else if aaDescription(8) == arg then 8
    else 16
  }

  /** testForPrefixes' anti-aliasing loop: doubling from 1 while below 16,
      stopping at the first count whose description matches. */
  method AntiAliasingSamples(arg: string, aaDescription: int -> string) returns (numSamples: int)
    ensures numSamples == SamplesFor(arg, aaDescription)
  {
    numSamples := 1;
    while numSamples < 16
      invariant numSamples in {1, 2, 4, 8, 16}
      invariant forall m :: m in {1, 2, 4, 8} && m < numSamples ==> aaDescription(m) != arg
      decreases 16 - numSamples
    {
      if arg == aaDescription(numSamples) {
        break;
      }
      numSamples := numSamples * 2;
    }
  }

  /** With a different description for each count, the description of a
      count gives that count back. */
  lemma SamplesRoundTrip(n: int, aaDescription: int -> string)
    requires n in {1, 2, 4, 8, 16}
    requires forall a, b :: a in {1, 2, 4, 8, 16} && b in {1, 2, 4, 8, 16} && a != b ==>
      aaDescription(a) != aaDescription(b)
    ensures SamplesFor(aaDescription(n), aaDescription) == n
  {
  }

  // ----- the prefixed actions ----------------------------------------------

  /** The position in PrefixOrder of the first prefix the action starts
      with, from `i` on, or -1. */
  function FirstPrefix(names: Names, actionString: string, i: nat): (k: int)
    requires i <= |PrefixOrder|
    ensures k == -1 || (i <= k < |PrefixOrder| && StartsWith(actionString, names.prefix(PrefixOrder[k])))
    ensures forall j :: i <= j < |PrefixOrder| && (k == -1 || j < k) ==>
      !StartsWith(actionString, names.prefix(PrefixOrder[j]))
    decreases |PrefixOrder| - i
  {
    if i == |PrefixOrder| then -1
    else if StartsWith(actionString, names.prefix(PrefixOrder[i])) then i
    else FirstPrefix(names, actionString, i + 1)
  }

  /** Boolean.parseBoolean: true exactly for "true" in any mix of cases. */
  predicate ParseBoolean(arg: string) {
    |arg| == 4
      && (arg[0] == 't' || arg[0] == 'T') && (arg[1] == 'r' || arg[1] == 'R')
      && (arg[2] == 'u' || arg[2] == 'U') && (arg[3] == 'e' || arg[3] == 'E')
  }

  /** The rigid-body-parameter argument "<parameter> <value>": the
      parameter name is looked up first (an unknown one, or none at all, is
      an exception), and the action is handled only with exactly two
      space-separated tokens. */
  function RigidBodyArgument(names: Names, arg: string): (r: Result<Option<Command>>)
    ensures r.Ok? && r.value.Some? <==>
      |JavaSplit(arg, ' ')| == 2 && names.isParameter(JavaSplit(arg, ' ')[0])
    ensures r.Ok? && r.value.Some? ==>
      r.value.value == RigidBodyValue(JavaSplit(arg, ' ')[0], JavaSplit(arg, ' ')[1])
    ensures r.Ok? && r.value.None? <==>
      |JavaSplit(arg, ' ')| > 0 && names.isParameter(JavaSplit(arg, ' ')[0]) && |JavaSplit(arg, ' ')| != 2
  {
    var args := JavaSplit(arg, ' ');
    if |args| == 0 then Err(IndexOutOfBounds)
    else if !names.isParameter(args[0]) then Err(IllegalArgument)
    else if |args| == 2 then Ok(Some(RigidBodyValue(args[0], args[1])))
    else Ok(None)
  }

  /** The resolution argument "<width> x <height>": three tokens, the
      middle one "x", and two ints, checked in the source's order. */
  function ResolutionArgument(arg: string): (r: Result<Command>)
    ensures r.Ok? <==>
      var args := JavaSplit(arg, ' ');
      |args| == 3 && args[1] == "x" && ParseInt(args[0]).Ok? && ParseInt(args[2]).Ok?
    ensures r.Ok? ==>
      var args := JavaSplit(arg, ' ');
      r.value == ScreenSize(ParseInt(args[0]).value, ParseInt(args[2]).value)
  {
    var args := JavaSplit(arg, ' ');
    if |args| != 3 then Err(AssertionFailed)
    else
      match ParseInt(args[0])
      case Err(e) => Err(e)
      case Ok(width) =>
        if args[1] != "x" then Err(AssertionFailed)
        else
          match ParseInt(args[2])
          case Err(e) => Err(e)
          case Ok(height) => Ok(ScreenSize(width, height))
  }

  /** The handling of a prefixed action's argument. */
  function PrefixedAction(names: Names, kind: PrefixKind, arg: string): (r: Result<Option<Command>>)
    ensures kind != PhysicsRbpValue && r.Ok? ==> r.value.Some?
    ensures IsEnumKind(kind) ==> (r.Ok? <==> names.isConstant(kind, arg))
  {
    match kind
    case AntiAliasing => Ok(Some(Samples(SamplesFor(arg, names.aaDescription))))
    case Degrees => Ok(Some(FlagSetting(kind, ParseBoolean(arg))))
    case Diagnose => Ok(Some(FlagSetting(kind, ParseBoolean(arg))))
    case DurationProportional => Ok(Some(FloatSetting(kind, arg)))
    case DurationSame => Ok(Some(FloatSetting(kind, arg)))
    case PhysicsRbpValue => RigidBodyArgument(names, arg)
    case Resolution =>
      (match ResolutionArgument(arg)
       case Err(e) => Err(e)
       case Ok(c) => Ok(Some(c)))
    case UserData => Ok(Some(UserDataValue(arg)))
    case _ =>
      if IsIntKind(kind) then
        (match ParseInt(arg)
         case Err(e) => Err(e)
         case Ok(v) => Ok(Some(IntSetting(kind, v))))
      else if names.isConstant(kind, arg) then Ok(Some(EnumSetting(kind, arg)))
      else Err(IllegalArgument)
  }

  /** process: an exact action is handled as such; otherwise the first
      prefix the string starts with decides, and a string with neither is
      not handled (`None`). */
  function Process(names: Names, actionString: string): (r: Result<Option<Command>>)
    ensures actionString in names.exactActions ==> r == Ok(Some(Exact(actionString)))
    ensures actionString !in names.exactActions && FirstPrefix(names, actionString, 0) == -1 ==>
      r == Ok(None)
    ensures actionString !in names.exactActions && FirstPrefix(names, actionString, 0) != -1 ==>
      var kind := PrefixOrder[FirstPrefix(names, actionString, 0)];
      r == PrefixedAction(names, kind, Remainder(actionString, names.prefix(kind)))
  {
    if actionString in names.exactActions then Ok(Some(Exact(actionString)))
    else
      var k := FirstPrefix(names, actionString, 0);
      if k == -1 then Ok(None)
      else
        var kind := PrefixOrder[k];
        PrefixedAction(names, kind, Remainder(actionString, names.prefix(kind)))
  }

  /** An action that is not an exact one and starts with the prefix of
      kind `i` but with none of the kinds before it is handled as kind `i`,
      whatever later prefixes it also starts with. */
  lemma FirstPrefixWins(names: Names, actionString: string, i: nat)
    requires i < |PrefixOrder|
    requires actionString !in names.exactActions
    requires StartsWith(actionString, names.prefix(PrefixOrder[i]))
    requires forall j :: 0 <= j < i ==> !StartsWith(actionString, names.prefix(PrefixOrder[j]))
    ensures Process(names, actionString) ==
      PrefixedAction(names, PrefixOrder[i], Remainder(actionString, names.prefix(PrefixOrder[i])))
  {
    var k := FirstPrefix(names, actionString, 0);
    assert k == i;
  }

  /** "<prefix>W x H" sets the screen size to W by H for every pair of ints
      written in decimal. */
  lemma ResolutionRoundTrip(width: int, height: int)
    requires MinInt <= width <= MaxInt && MinInt <= height <= MaxInt
    ensures ResolutionArgument(ShowInt(width) + " x " + ShowInt(height)) == Ok(ScreenSize(width, height))
  {
    var w, h := ShowInt(width), ShowInt(height);
    ParseShowInt(width);
    ParseShowInt(height);
    NoSpaceInShowInt(width);
    NoSpaceInShowInt(height);
    SplitResolution(w, h);
  }

  /** Two words without spaces, written "W x H", split into three tokens. */
  lemma SplitResolution(w: string, h: string)
    requires ' ' !in w && ' ' !in h && h != ""
    ensures JavaSplit(w + " x " + h, ' ') == [w, "x", h]
  {
    SplitThree(w, "x", h, ' ');
    assert w + " x " + h == w + [' '] + "x" + [' '] + h;
  }

  /** Decimal numerals hold no spaces. */
  lemma NoSpaceInShowInt(n: int)
    ensures ' ' !in ShowInt(n) && |ShowInt(n)| > 0
  {
    if n < 0 {
      var s := ShowNat(-n);
      assert forall i :: 0 <= i < |s| ==> IsDigit(s[i]);
      assert ShowInt(n) == "-" + s;
      assert forall i :: 0 <= i < |ShowInt(n)| ==> ShowInt(n)[i] != ' ' by {
        forall i | 0 <= i < |ShowInt(n)|
          ensures ShowInt(n)[i] != ' '
        {
          if i > 0 {
            assert ShowInt(n)[i] == s[i - 1];
          }
        }
      }
    } else {
      var s := ShowNat(n);
      assert forall i :: 0 <= i < |s| ==> IsDigit(s[i]);
    }
  }

  /** The rigid-body-parameter action is handled only with exactly two
      tokens: "mass 2" is, "mass" alone is not, and "mass 2 3" is not. */
  lemma RigidBodyTokenCount(names: Names)
    requires names.isParameter("mass")
    ensures RigidBodyArgument(names, "mass 2") == Ok(Some(RigidBodyValue("mass", "2")))
    ensures RigidBodyArgument(names, "mass") == Ok(None)
    ensures RigidBodyArgument(names, "mass 2 3") == Ok(None)
  {
    SplitTwoTokens();
    SplitThreeTokens();
    assert ' ' !in "mass";
  }

  lemma SplitTwoTokens()
    ensures JavaSplit("mass 2", ' ') == ["mass", "2"]
  {
    SplitTwo("mass", "2", ' ');
    assert "mass" + [' '] + "2" == "mass 2";
  }

  lemma SplitThreeTokens()
    ensures JavaSplit("mass 2 3", ' ') == ["mass", "2", "3"]
  {
    SplitThree("mass", "2", "3", ' ');
    assert "mass" + [' '] + "2" + [' '] + "3" == "mass 2 3";
  }
}

=== FILE: text.dfy ===
/**
 * The few java.lang.String operations the modelled code relies on, over
 * `string` (a sequence of UTF-16 code units, as in Java).
 */
module Text {
  import opened Outcomes

  /** String.startsWith */
  predicate StartsWith(s: string, prefix: string) {
    |prefix| <= |s| && s[..|prefix|] == prefix
  }

  /** String.endsWith */
  predicate EndsWith(s: string, suffix: string) {
    |suffix| <= |s| && s[|s| - |suffix|..] == suffix
  }

  /** `pat` occurs in `s` starting at position `i`. */
  predicate OccursAt(s: string, pat: string, i: int) {
    0 <= i && i + |pat| <= |s| && s[i..i + |pat|] == pat
  }

  /** String.contains */
  predicate Contains(s: string, pat: string) {
    exists i :: 0 <= i <= |s| - |pat| && OccursAt(s, pat, i)
  }

  /** String.indexOf: the position of the first occurrence of `pat`, or -1. */
  function IndexOf(s: string, pat: string): (r: int)
    ensures r == -1 <==> !Contains(s, pat)
    ensures r != -1 ==> OccursAt(s, pat, r)
    ensures forall j :: 0 <= j < r ==> !OccursAt(s, pat, j)
  {
    IndexFrom(s, pat, 0)
  }

  /** The first occurrence of `pat` at or after `from`, or -1. */
  function IndexFrom(s: string, pat: string, from: nat): (r: int)
    decreases |s| - from
    ensures r == -1 || (from <= r && OccursAt(s, pat, r))
    ensures r == -1 ==> forall j :: from <= j ==> !OccursAt(s, pat, j)
    ensures forall j :: from <= j < r ==> !OccursAt(s, pat, j)
  {
    if from + |pat| > |s| then -1
    else if s[from..from + |pat|] == pat then from
    else IndexFrom(s, pat, from + 1)
  }

  /** MyString.remainder: what follows a known prefix. */
  function Remainder(s: string, prefix: string): (r: string)
    requires StartsWith(s, prefix)
    ensures prefix + r == s
  {
    s[|prefix|..]
  }

  /** MyString.removeSuffix: what precedes a known suffix. */
  function RemoveSuffix(s: string, suffix: string): (r: string)
    requires EndsWith(s, suffix)
    ensures r + suffix == s
  {
    s[..|s| - |suffix|]
  }

  /** A concatenation starts with its first part, and what follows that
      part is the second. */
  lemma StartsWithConcat(a: string, b: string)
    ensures StartsWith(a + b, a)
    ensures Remainder(a + b, a) == b
  {
    assert (a + b)[..|a|] == a;
  }

  /** A concatenation ends with its last part, and what precedes that part
      is the first. */
  lemma EndsWithConcat(a: string, b: string)
    ensures EndsWith(a + b, b)
    ensures RemoveSuffix(a + b, b) == a
  {
    assert (a + b)[|a + b| - |b|..] == b;
  }

  /** An occurrence with none before it is the one indexOf finds. */
  lemma FirstOccurrence(s: string, pat: string, k: int)
    requires OccursAt(s, pat, k)
    requires forall j :: 0 <= j < k ==> !OccursAt(s, pat, j)
    ensures IndexOf(s, pat) == k
  {
    assert 0 <= k <= |s| - |pat|;
  }

  // ----- splitting at a character -----------------------------------------

  /** The pieces of a string between occurrences of `c`: one piece more
      than there are occurrences, empty pieces included. */
  function Pieces(s: string, c: char): (pieces: seq<string>)
    ensures |pieces| >= 1
  {
    if |s| == 0 then [""]
    else
      var rest := Pieces(s[1..], c);
      if s[0] == c then [""] + rest
      else [[s[0]] + rest[0]] + rest[1..]
  }

  /** A string without `c` is a single piece. */
  lemma {:induction false} PiecesNone(e: string, c: char)
    requires c !in e
    ensures Pieces(e, c) == [e]
  {
    if |e| > 0 {
      PiecesNone(e[1..], c);
      assert [e[0]] + e[1..] == e;
    }
  }

  /** One more separator and a last piece without one add that piece. */
  lemma {:induction false} PiecesAppend(a: string, c: char, e: string)
    requires c !in e
    ensures Pieces(a + [c] + e, c) == Pieces(a, c) + [e]
  {
    if |a| == 0 {
      assert a + [c] + e == [c] + e;
      assert ([c] + e)[1..] == e;
      PiecesNone(e, c);
    } else {
      assert (a + [c] + e)[1..] == a[1..] + [c] + e;
      assert (a + [c] + e)[0] == a[0];
      PiecesAppend(a[1..], c, e);
    }
  }

  /** Two pieces without `c`, joined by one `c`, split back into those
      two (the last one not empty). */
  lemma SplitTwo(a: string, b: string, c: char)
    requires c !in a && c !in b && b != ""
    ensures JavaSplit(a + [c] + b, c) == [a, b]
  {
    PiecesNone(a, c);
    PiecesAppend(a, c, b);
    assert (a + [c] + b)[|a|] == c;
  }

  /** Three pieces without `c`, joined by `c`, split back into those three
      (the last one not empty). */
  lemma SplitThree(a: string, b: string, e: string, c: char)
    requires c !in a && c !in b && c !in e && e != ""
    ensures JavaSplit(a + [c] + b + [c] + e, c) == [a, b, e]
  {
    PiecesNone(a, c);
    PiecesAppend(a, c, b);
    PiecesAppend(a + [c] + b, c, e);
    assert (a + [c] + b + [c] + e)[|a|] == c;
  }

  /** The list less its trailing empty strings. */
  function DropTrailingEmpty(pieces: seq<string>): (r: seq<string>)
    ensures |r| <= |pieces| && r == pieces[..|r|]
    ensures |r| > 0 ==> r[|r| - 1] != ""
    ensures forall i :: |r| <= i < |pieces| ==> pieces[i] == ""
  {
    if |pieces| == 0 then []
    else if pieces[|pieces| - 1] == "" then DropTrailingEmpty(pieces[..|pieces| - 1])
    else pieces
  }

  /** String.split with a one-character pattern: the string itself when the
      character does not occur; otherwise its pieces, less trailing empty
      ones (so a string of separators alone splits into nothing). */
  function JavaSplit(s: string, c: char): (r: seq<string>)
    ensures c !in s ==> r == [s]
    ensures c in s ==> r == DropTrailingEmpty(Pieces(s, c))
  {
    if c !in s then [s] else DropTrailingEmpty(Pieces(s, c))
  }

  // ----- decimal integers -------------------------------------------------

  predicate IsDigit(ch: char) {
    '0' <= ch <= '9'
  }

  predicate AllDigits(s: string) {
    forall i :: 0 <= i < |s| ==> IsDigit(s[i])
  }

  /** The value of a string of decimal digits. */
  function DigitsValue(s: string): (v: nat)
    requires AllDigits(s)
  {
    if |s| == 0 then 0
    else DigitsValue(s[..|s| - 1]) * 10 + (s[|s| - 1] as int - '0' as int)
  }

  /** The least and greatest Java int. */
  const MinInt: int := -0x8000_0000
  const MaxInt: int := 0x7FFF_FFFF

  /** A non-empty string of decimal digits. */
  predicate IsNumeral(d: string) {
    |d| > 0 && AllDigits(d)
  }

  /** The digits after an optional leading sign. */
  function Unsigned(s: string): (d: string)
    requires |s| > 0
    ensures |d| == |s| || (|d| == |s| - 1 && (s[0] == '-' || s[0] == '+'))
    ensures s == d || s == [s[0]] + d
  {
    if s[0] == '-' || s[0] == '+' then s[1..] else s
  }

  /** The value a sign and a numeral denote. */
  function SignedValue(s: string): (v: int)
    requires |s| > 0 && IsNumeral(Unsigned(s))
    ensures s[0] == '-' ==> v <= 0
    ensures s[0] != '-' ==> v >= 0
    ensures v == DigitsValue(Unsigned(s)) || v == -(DigitsValue(Unsigned(s)) as int)
  {
    var magnitude: int := DigitsValue(Unsigned(s));
    if s[0] == '-' then -magnitude else magnitude
  }

  /** Integer.parseInt in base 10, for ASCII digits: an optional sign, at
      least one digit, and a value within the range of an int; anything else
      is a NumberFormatException. */
  function ParseInt(s: string): (r: Result<int>)
    ensures r.Ok? ==> MinInt <= r.value <= MaxInt
    ensures r.Ok? ==> |s| > 0 && (IsDigit(s[0]) || s[0] == '-' || s[0] == '+')
    ensures r.Ok? <==> |s| > 0 && IsNumeral(Unsigned(s)) && MinInt <= SignedValue(s) <= MaxInt
    ensures r.Ok? ==> r.value == SignedValue(s)
    ensures r.Err? ==> r.failure == NumberFormat
  {
    if |s| == 0 then Err(NumberFormat)
    else
      var negative := s[0] == '-';
      var digits := if s[0] == '-' || s[0] == '+' then s[1..] else s;
      if |digits| == 0 || !AllDigits(digits) then Err(NumberFormat)
      else
        var magnitude: int := DigitsValue(digits);
        var v := if negative then -magnitude else magnitude;
        if MinInt <= v <= MaxInt then Ok(v) else Err(NumberFormat)
  }

  /** The decimal digits of a natural number, without leading zeros. */
  function ShowNat(n: nat): (s: string)
    ensures |s| >= 1 && AllDigits(s)
  {
    if n < 10 then [('0' as int + n) as char]
    else ShowNat(n / 10) + [('0' as int + n % 10) as char]
  }

  /** Integer.toString: the digits, with "-" in front of a negative number. */
  function ShowInt(n: int): (s: string) {
    if n < 0 then "-" + ShowNat(-n) else ShowNat(n)
  }

  /** Reading the digits of a number gives the number back. */
  lemma {:induction false} DigitsOfShowNat(n: nat)
    ensures DigitsValue(ShowNat(n)) == n
  {
    if n >= 10 {
      DigitsOfShowNat(n / 10);
      var s := ShowNat(n);
      assert s[..|s| - 1] == ShowNat(n / 10);
    }
  }

  /** Integer.parseInt reads back what Integer.toString writes exactly for
      the numbers within the range of an int. */
  lemma ParseShowInt(n: int)
    ensures ParseInt(ShowInt(n)) == Ok(n) <==> MinInt <= n <= MaxInt
  {
    if n < 0 {
      DigitsOfShowNat(-n);
      assert ShowInt(n)[1..] == ShowNat(-n);
    } else {
      DigitsOfShowNat(n);
      assert IsDigit(ShowNat(n)[0]);
    }
  }
}

=== FILE: track_time.dfy ===
/**
 * EditorScreen.updateTrackTime: how the animation time of a C-G model moves
 * on each render pass while the animation plays. The play options (speed,
 * continue, reverse, paused) and the loaded animation's time and duration
 * are plain values; times are reals, so single-precision rounding is not
 * modelled.
 */
module TrackTime {
  import opened Arith
  import opened Outcomes

  /** The state updateTrackTime changes: the track time, and the play
      options' speed and paused flag. */
  datatype Playback = Playback(time: real, speed: real, paused: bool)

  /** The time after `tpf` seconds at the current speed, before any wrap or
      clamp. */
  function Advanced(p: Playback, tpf: real): real {
    p.time + p.speed * tpf
  }

  /** One render pass of `tpf` seconds. A zero-length animation stays at
      time 0. Playing on without reverse wraps the time modulo the duration.
      Otherwise the time is clamped to the animation; on reaching either end
      it either bounces (reverse: the speed changes sign) or jumps to the
      mirror time, and play pauses unless it continues. */
  function UpdateTrackTime(p: Playback, tpf: real, duration: real, cont: bool, reverse: bool)
    : (r: Playback)
    requires duration >= 0.0
    ensures 0.0 <= r.time <= duration
    ensures duration == 0.0 ==> r == p.(time := 0.0)
    ensures duration > 0.0 && cont && !reverse ==>
      && r.speed == p.speed && r.paused == p.paused
      && r.time < duration
      && exists k: int :: r.time == Shift(Advanced(p, tpf), k, duration)
    ensures duration > 0.0 && !(cont && !reverse) && 0.0 <= Advanced(p, tpf) <= duration ==>
      r == p.(time := Advanced(p, tpf))
    ensures duration > 0.0 && reverse && !(0.0 <= Advanced(p, tpf) <= duration) ==>
      && r.speed == -p.speed
      && r.time == Clamp(Advanced(p, tpf), 0.0, duration)
      && r.paused == !cont
    ensures duration > 0.0 && !cont && !reverse && !(0.0 <= Advanced(p, tpf) <= duration) ==>
      && r.speed == p.speed
      && r.time == duration - Clamp(Advanced(p, tpf), 0.0, duration)
      && r.paused
  {
    var time := Advanced(p, tpf);
    if duration == 0.0 then p.(time := 0.0)
    else if cont && !reverse then p.(time := ModuloReal(time, duration))
    else
      var clamped := Clamp(time, 0.0, duration);
      if clamped != time then
        if reverse then Playback(clamped, -p.speed, !cont)
        else Playback(duration - clamped, p.speed, !cont)
      else p.(time := clamped)
  }

  /** updateTrackTime as called: the source asserts that the animation is
      moving (`moving`, which LoadedAnimation.isMoving decides and which is
      not part of this model) before it advances the time. */
  function UpdateIfMoving(p: Playback, tpf: real, duration: real, cont: bool, reverse: bool, moving: bool)
    : (r: Result<Playback>)
    requires duration >= 0.0
    ensures r.Err? <==> !moving
    ensures r.Err? ==> r.failure == AssertionFailed
    ensures r.Ok? ==> r.value == UpdateTrackTime(p, tpf, duration, cont, reverse) && 0.0 <= r.value.time <= duration
  {
    if !moving then Err(AssertionFailed) else Ok(UpdateTrackTime(p, tpf, duration, cont, reverse))
  }

  /** Playing on within the animation does not wrap: the time simply
      advances. */
  lemma WrapInsideIsAdvance(p: Playback, tpf: real, duration: real)
    requires duration > 0.0 && 0.0 <= Advanced(p, tpf) < duration
    ensures UpdateTrackTime(p, tpf, duration, true, false) == p.(time := Advanced(p, tpf))
  {
    ModuloRealInRange(Advanced(p, tpf), duration);
  }

  /** Ping-pong: overshooting the end turns the play around at the end, and
      overshooting the start turns it around at the start. */
  lemma ReverseBounces(p: Playback, tpf: real, duration: real, cont: bool)
    requires duration > 0.0
    ensures Advanced(p, tpf) > duration ==>
      var r := UpdateTrackTime(p, tpf, duration, cont, true);
      r.time == duration && r.speed == -p.speed
    ensures Advanced(p, tpf) < 0.0 ==>
      var r := UpdateTrackTime(p, tpf, duration, cont, true);
      r.time == 0.0 && r.speed == -p.speed
  {
  }

  /** A single forward play that runs past the end pauses back at the start;
      a single backward play that runs past the start pauses at the end. */
  lemma OnceEndsAtTheOtherEnd(p: Playback, tpf: real, duration: real)
    requires duration > 0.0
    ensures Advanced(p, tpf) > duration ==>
      var r := UpdateTrackTime(p, tpf, duration, false, false);
      r.time == 0.0 && r.paused
    ensures Advanced(p, tpf) < 0.0 ==>
      var r := UpdateTrackTime(p, tpf, duration, false, false);
      r.time == duration && r.paused
  {
  }

  /** Two bounces in a row restore the original speed. */
  lemma BounceTwiceRestoresSpeed(p: Playback, tpf1: real, tpf2: real, duration: real, cont: bool)
    requires duration > 0.0
    requires !(0.0 <= Advanced(p, tpf1) <= duration)
    requires var q := UpdateTrackTime(p, tpf1, duration, cont, true);
      !(0.0 <= Advanced(q, tpf2) <= duration)
    ensures var q := UpdateTrackTime(p, tpf1, duration, cont, true);
      UpdateTrackTime(q, tpf2, duration, cont, true).speed == p.speed
  {
  }
}

=== FILE: transform_status.dfy ===
/**
 * TransformStatus: the placement of a loaded CG model in the world: its
 * uniform scale, its rotation about +Y, the offset that puts its base on
 * the platform, and the Z displacement that keeps a target and a source
 * model side by side. Quaternion arithmetic is not modelled: turning a
 * vector by the Y angle and building the Y rotation are parameters.
 */
module TransformStatus {
  import opened Outcomes
  import opened Arith
  import opened Geometry

  /** FastMath.TWO_PI, the single-precision value of 2π. */
  const TwoPi: real := 6.2831855

  /** The distance between source and target models along Z when both are
      loaded. */
  const ZSeparation: real := 1.0

  /** The placement of one CG model; `isTarget` says which slot it belongs
      to. */
  datatype TransformStatus = TransformStatus(
    scale: real, yAngle: real, yOffset: real, bindLocation: Vec3, isTarget: bool)
  {
    /** The scale is positive and the angle lies in [0, 2π). */
    predicate Valid() {
      scale > 0.0 && 0.0 <= yAngle < TwoPi
    }
  }

  /** A fresh placement: unscaled, unrotated, not offset. */
  function Initial(isTarget: bool): (s: TransformStatus)
    ensures s.Valid() && s.isTarget == isTarget
  {
    TransformStatus(1.0, 0.0, 0.0, Zero, isTarget)
  }

  /** loadCgm: the greatest extent of the new model becomes one world unit,
      and its lowest point is lifted to Y = 0. A non-positive extent fails
      Validate.positive. */
  function LoadCgm(s: TransformStatus, bindLoc: Vec3, minY: real, maxExtent: real)
    : (r: Result<TransformStatus>)
    ensures r.Ok? <==> maxExtent > 0.0
    ensures r.Err? ==> r.failure == IllegalArgument
    ensures r.Ok? ==> (r.value.scale * maxExtent == 1.0
      && minY * r.value.scale + r.value.yOffset == 0.0
      && r.value.bindLocation == bindLoc
      && r.value.yAngle == s.yAngle && r.value.isTarget == s.isTarget)
    ensures r.Ok? && s.Valid() ==> r.value.Valid()
  {
    if maxExtent <= 0.0 then Err(IllegalArgument)
    else
      var scale := 1.0 / maxExtent;
      Ok(s.(bindLocation := bindLoc, scale := scale, yOffset := -minY * scale))
  }

  /** rotateY: adds to the angle and reduces it into [0, 2π) with
      MyMath.modulo. */
  function RotateY(s: TransformStatus, angle: real): (r: TransformStatus)
    ensures 0.0 <= r.yAngle < TwoPi
    ensures exists k: int :: r.yAngle == Shift(Unreduced(s, angle), k, TwoPi)
    ensures r == s.(yAngle := r.yAngle)
    ensures s.Valid() ==> r.Valid()
  {
    s.(yAngle := ModuloReal(Unreduced(s, angle), TwoPi))
  }

  /** The angle after a turn, before reduction. */
  function Unreduced(s: TransformStatus, angle: real): real {
    s.yAngle + angle
  }

  /** Two rotations add up: turning by `a` and then by `b` ends at the same
      angle as turning by `a + b`. */
  lemma RotateTwice(s: TransformStatus, a: real, b: real)
    ensures RotateY(RotateY(s, a), b) == RotateY(s, a + b)
  {
    ModuloRealAdd(s.yAngle + a, b, TwoPi);
    ModuloRealOfResidue(s.yAngle + a + b);
  }

  /** Reducing twice is reducing once. */
  lemma ModuloRealOfResidue(x: real)
    ensures ModuloReal(ModuloReal(x, TwoPi), TwoPi) == ModuloReal(x, TwoPi)
  {
    ModuloRealInRange(ModuloReal(x, TwoPi), TwoPi);
  }

  /** A turn by zero leaves a valid placement as it is. */
  lemma RotateByZero(s: TransformStatus)
    requires s.Valid()
    ensures RotateY(s, 0.0) == s
  {
    ModuloRealInRange(s.yAngle, TwoPi);
  }

  /** The Z displacement: with both models loaded the target sits half a
      separation forward and the source half a separation back; a lone
      target stays on the axis. */
  function ZOffset(isTarget: bool, sourceLoaded: bool): (z: real)
    ensures isTarget && sourceLoaded ==> z == ZSeparation / 2.0
    ensures isTarget && !sourceLoaded ==> z == 0.0
    ensures !isTarget ==> z == -ZSeparation / 2.0
  {
    if isTarget then
      if sourceLoaded then 0.5 * ZSeparation else 0.0
    else -0.5 * ZSeparation
  }

  /** With both models loaded they stand exactly one separation apart. */
  lemma SideBySide()
    ensures ZOffset(true, true) - ZOffset(false, true) == ZSeparation
  {
  }

  /** What worldTransform needs of rotation about +Y: the quaternion for an
      angle, and turning a vector by that angle. */
  datatype YRotation = YRotation(quaternion: real -> Quat, turn: (real, Vec3) -> Vec3)

  /** worldTransform: rotation about Y by the angle, the same scale on all
      three axes, and a translation that puts the root bone's bind location
      above the platform's centre, raised by the Y offset and displaced
      along Z. */
  function WorldTransform(s: TransformStatus, sourceLoaded: bool, rot: YRotation): (t: Transform)
    ensures t.scale == Vec3(s.scale, s.scale, s.scale)
    ensures t.rotation == rot.quaternion(s.yAngle)
    ensures var turned := rot.turn(s.yAngle, Vec3(-s.bindLocation.x, 0.0, -s.bindLocation.z).Scale(s.scale));
      t.translation == Vec3(turned.x, turned.y + s.yOffset, turned.z + ZOffset(s.isTarget, sourceLoaded))
  {
    var modelTranslation := Vec3(-s.bindLocation.x, 0.0, -s.bindLocation.z);
    var worldTranslation := rot.turn(s.yAngle, modelTranslation.Scale(s.scale));
    Transform(worldTranslation.Plus(Vec3(0.0, s.yOffset, ZOffset(s.isTarget, sourceLoaded))),
      rot.quaternion(s.yAngle), Vec3(s.scale, s.scale, s.scale))
  }

  /** A turn about +Y keeps the Y component. */
  ghost predicate KeepsHeight(rot: YRotation) {
    forall a: real, v: Vec3 :: rot.turn(a, v).y == v.y
  }

  /** After loadCgm, the world transform puts the model's lowest point at
      Y = 0 whatever the angle: the scaled minimum plus the translation's Y
      is zero. */
  lemma BaseOnPlatform(s: TransformStatus, bindLoc: Vec3, minY: real, maxExtent: real,
                       angle: real, sourceLoaded: bool, rot: YRotation)
    requires maxExtent > 0.0 && KeepsHeight(rot)
    ensures var loaded := RotateY(LoadCgm(s, bindLoc, minY, maxExtent).value, angle);
      var t := WorldTransform(loaded, sourceLoaded, rot);
      minY * t.scale.y + t.translation.y == 0.0
  {
    var loaded := RotateY(LoadCgm(s, bindLoc, minY, maxExtent).value, angle);
    var v := Vec3(-loaded.bindLocation.x, 0.0, -loaded.bindLocation.z).Scale(loaded.scale);
    assert rot.turn(loaded.yAngle, v).y == 0.0;
  }

  /** Turning a sum gives the sum of the turns. */
  ghost predicate Additive(rot: YRotation) {
    forall a: real, u: Vec3, v: Vec3 :: rot.turn(a, u.Plus(v)) == rot.turn(a, u).Plus(rot.turn(a, v))
  }

  /** A turn about +Y leaves the points of the Y axis where they are. */
  ghost predicate FixesYAxis(rot: YRotation) {
    forall a: real, h: real :: rot.turn(a, Vec3(0.0, h, 0.0)) == Vec3(0.0, h, 0.0)
  }

  /** The point a transform maps `p` to: scaled, turned, then translated. */
  function Place(t: Transform, angle: real, rot: YRotation, p: Vec3): Vec3 {
    rot.turn(angle, p.Mult(t.scale)).Plus(t.translation)
  }

  /** In bind pose the root bone stands directly above the centre of the
      platform: worldTransform maps the root bone's bind location onto the
      Y axis, displaced only along Z by the side-by-side offset, at the
      height its own Y gives once scaled and raised. */
  lemma {:induction false} RootAbovePlatformCentre(s: TransformStatus, sourceLoaded: bool, rot: YRotation)
    requires Additive(rot) && FixesYAxis(rot)
    ensures var t := WorldTransform(s, sourceLoaded, rot);
      var root := Place(t, s.yAngle, rot, s.bindLocation);
      root == Vec3(0.0, s.bindLocation.y * s.scale + s.yOffset, ZOffset(s.isTarget, sourceLoaded))
  {
    var t := WorldTransform(s, sourceLoaded, rot);
    var b := s.bindLocation.Mult(t.scale);
    var m := Vec3(-s.bindLocation.x, 0.0, -s.bindLocation.z).Scale(s.scale);
    assert b.Plus(m) == Vec3(0.0, s.bindLocation.y * s.scale, 0.0);
    assert rot.turn(s.yAngle, b.Plus(m)) == rot.turn(s.yAngle, b).Plus(rot.turn(s.yAngle, m));
  }
}
